=== FILE: README.md ===
# Mindmapper logs: a Dafny model of the list, search and image rules

Mindmapper is a Next.js application over Firestore in which signed-in users
keep "logs": a title, a description, images with captions, an optional
YouTube link and links to related logs. This project models the rules that
sit underneath its Firestore and Storage glue, and proves properties of them:

- `searchLogs` and `processLogDoc` (`FirestoreUtils`). The search runs two
  passes over the normalised snapshot. The first pass keeps direct matches on
  title or description. The second keeps logs that link to a first-pass id or
  whose related titles mention the term. One shared id set de-duplicates both.
- The related-title resolvers of the dashboard, the personal search page and
  the public page (`LogModel.ResolveTitles`, `TitleResolvers`), and the public
  list's `getPublicLogs` (`PublicLogList`).
- The query filters of the pages (`PageFilters`, `PublicLogList.FilterPublic`,
  `SearchPageClient`), and the merge by id and newest-first sort of own and
  liked logs (`SearchPage`).
- The server actions `createLogAction` and `editLogAction` up to the database
  write (`Actions`). This covers:
  - schema validation and the file rules;
  - the create path's ordered image list;
  - the edit path's existing-image merge, slot-by-slot rebuild, 9-image limit,
    main-image promotion and final clean-up.
- The smaller rules in the components: the related-id checkbox toggle and the
  submitted image urls (`LogForm`), the YouTube embed address and related-link
  labels (`LogItem`), and the sign-in guard and loader (`AuthContext`).

Modelling choices:

- Backend reads are a function `lookup: string -> Fetch`. A lookup finds a
  document, finds none, or fails.
- A query snapshot is a `Result` of document snapshots or a backend error.
- Storage uploads are a function `upload: File -> Option<string>`, where
  `None` means the upload threw.
- `JSON.parse` of the existing images is a parameter `parse` that gives `None`
  where it throws.
- The `URL` constructor is replaced by its parsed parts (`LogItem.ParsedUrl`).
  Zod's `.url()` check is a parameter `isUrl`.
- Timestamps are integers. The "now" fallback for a missing timestamp is a
  parameter.
- String lengths are JavaScript's: UTF-16 code units (`JsStrings.Utf16Length`),
  so a character above U+FFFF counts twice, in zod's bounds and in `substring`.
- `toLowerCase` is ASCII lower-casing. `trim` strips exactly the ECMAScript
  white-space and line-terminator code points.

Three places where the code's behaviour is narrower than a casual reading
suggests. The model follows the code in each:

- `mainCaption` is read with `formData.get`, which gives `null` for an absent
  key. The schema's `.optional()` accepts `undefined` but not `null`, so a form
  without that key fails validation (`Actions.SchemaValid`).
- In `getPublicLogs` the "query requires an index" message test sits inside
  the `error.code &&` guard. A message alone, without a code, is a generic
  error (`PublicLogList.IndexHintNeedsCode`).
- The edit action rebuilds supporting images only from the eight form slots.
  Existing non-main entries beyond the eighth are dropped. A caption-only
  existing entry survives only if its caption is typed again.

## Model

| member | source | states |
|---|---|---|
| JsStrings.TrimEmptyIffBlank | src/lib/firestoreUtils.ts:67 | `s.trim()` is empty exactly when every character of `s` is JavaScript white space, which is what the blank-term test means |
| JsStrings.ContainsIffOccurs | src/lib/firestoreUtils.ts:82-83 | `includes` holds exactly when the needle occurs at some position of the haystack |
| LogModel.FilledIds | src/lib/firestoreUtils.ts:11-12 | the ids a resolver looks up are the non-blank ids, in order, and nothing else |
| LogModel.ResolveTitles | src/app/page.tsx:16-35 | the title loop gives one title per non-blank id, in order, each chosen by the page's placeholder policy from that id's lookup |
| FirestoreUtils.ProcessLogDoc | src/lib/firestoreUtils.ts:6-45 | defaults "Tanpa Judul", "", false and "" for title, description, isPublic and ownerId; related ids pass through unchanged; one related title per non-blank id: the title or "Log Tanpa Judul", "Log Tidak Ditemukan" for a missing log, "Gagal Mengambil Judul" for a failed read |
| FirestoreUtils.ProcessAll | src/lib/firestoreUtils.ts:53-54 | one log per document, in snapshot order, each carrying its own document's id and a non-empty title |
| FirestoreUtils.ProcessAllAppend | src/lib/firestoreUtils.ts:53-54 | documents are processed independently: processing a split snapshot gives the split result, which is the order `Promise.all` keeps |
| FirestoreUtils.ClassifyError | src/lib/firestoreUtils.ts:57-63 | the setup message is given exactly for the codes unavailable, failed-precondition and unimplemented; otherwise the error's message, or the fallback when it is empty |
| FirestoreUtils.GetLogs | src/lib/firestoreUtils.ts:47-64 | a snapshot gives one log per document with the document's id; an error gives a non-empty message |
| FirestoreUtils.Collect | src/lib/firestoreUtils.ts:81-91 | a pass pushes only admitted logs with a fresh non-empty id, never the same id twice, in snapshot order |
| FirestoreUtils.CollectCovers | src/lib/firestoreUtils.ts:85-89 | a pass misses no admitted log: the id of each one with a fresh id ends up among the pushed ids |
| FirestoreUtils.DirectPassIds | src/lib/firestoreUtils.ts:93 | `directMatchIds` is exactly the set of ids of the direct matches with an id |
| FirestoreUtils.IndirectNotDirect | src/lib/firestoreUtils.ts:95-105 | every pass-2 log fails the direct test, passes the link-or-mention test and has an id pass 1 did not add |
| FirestoreUtils.Matched | src/lib/firestoreUtils.ts:78-106 | the result has no duplicate ids; it holds only snapshot logs with an id; every direct match's id is in it; direct matches precede all others; every other entry links to a direct match or mentions the term in a related title |
| FirestoreUtils.MatchedUnique | src/lib/firestoreUtils.ts:79-102 | pass 2 never repeats a pass-1 id, so the concatenation has no duplicate ids |
| FirestoreUtils.MatchedMembers | src/lib/firestoreUtils.ts:81-105 | nothing is fabricated: each result is a snapshot log with an id; each direct match's id is in the result |
| FirestoreUtils.MatchedOrder | src/lib/firestoreUtils.ts:81-105 | all direct matches come before every indirect match, and every later entry matches through pass 2 |
| FirestoreUtils.SearchLogs | src/lib/firestoreUtils.ts:66-115 | a blank term returns `getLogs`; otherwise a read error is classified with the search fallback, and a snapshot is normalised and matched with the lower-cased, untrimmed term |
| FirestoreUtils.RunPass | src/lib/firestoreUtils.ts:81-91 | the `for` loop with its id set computes exactly the functional pass, and the id set grows by exactly the pushed ids |
| FirestoreUtils.PassBody | src/lib/firestoreUtils.ts:85-89 | one loop turn keeps the loop invariant: the pushed logs so far followed by the pass over the rest are the whole pass |
| FirestoreUtils.SearchLoops | src/lib/firestoreUtils.ts:78-106 | the two loops sharing one `addedLogIds` set compute `Matched` |
| FirestoreUtils.CollectIsFilter | src/lib/firestoreUtils.ts:81-91 | on a snapshot with unique ids a pass is a plain order-preserving filter |
| FirestoreUtils.MatchedIsTwoFilters | src/lib/firestoreUtils.ts:78-106 | on a snapshot with unique ids the result is the direct matches in snapshot order followed by the other linked-or-mentioning logs in snapshot order |
| FirestoreUtils.DirectMatchesIncluded | src/lib/firestoreUtils.ts:81-91 | every direct match with an id is itself in the result |
| FirestoreUtils.LinkedLogFound | src/lib/firestoreUtils.ts:93-103 | a log that links to a direct match is found after it; a log that neither matches nor links is left out |
| FirestoreUtils.NoChaining | src/lib/firestoreUtils.ts:93-101 | linking to a log that was itself only an indirect match is not enough; the direct match comes first even when it is last in the snapshot |
| FirestoreUtils.NothingFound | src/lib/firestoreUtils.ts:95-105 | with no direct match and no related title mentioning the term, the result is empty |
| FirestoreUtils.SingleMatch | src/lib/firestoreUtils.ts:81-91 | a lone direct match with an id is found |
| FirestoreUtils.TermNotTrimmed | src/lib/firestoreUtils.ts:67-75 | " apple" is not blank and trims to "apple", yet the untrimmed lower-cased term misses a log titled "Apple" that the trimmed term would find |
| TitleResolvers.FetchLogTitles | src/app/page.tsx:16-35 | one title per non-blank id, in order: the title or "Untitled Related Log", "Deleted/Unknown Log" for a missing log, "Error fetching title" for a failed read; the personal search page has the same resolver |
| TitleResolvers.FetchPublicLogTitles | src/app/public/page.tsx:20-41 | one entry per non-blank id: a title only for an existing public log, "Private/Unknown Log" for a missing or private one, "Error fetching title" for a failed read |
| TitleResolvers.BlankIdShortens | src/app/page.tsx:18-19 | one blank id makes the looked-up list shorter than the ids |
| TitleResolvers.FetchLogTitlesShorter | src/app/search/page.tsx:18-19 | the titles are shorter than the ids exactly when some id is blank |
| TitleResolvers.AllFilledKept | src/app/page.tsx:18-33 | with every id non-blank every id is looked up |
| TitleResolvers.PublicAgreesOnPublicLogs | src/app/public/page.tsx:29-37 | when every looked-up log is public or unreadable, the public page shows what the dashboard shows |
| PageFilters.FilterByQuery | src/app/search/page.tsx:134-143 | an empty query returns the list unchanged; otherwise the result is the order-preserving sublist of exactly the logs whose lower-cased title or description contains the lower-cased query |
| PageFilters.FilterByQueryMembership | src/app/public/page.tsx:94-98 | for a non-empty query a log is shown exactly when it is in the list and matches |
| PageFilters.FilterByQueryIdempotent | src/app/search/page.tsx:138-142 | filtering the filtered list with the same query changes nothing |
| PageFilters.AbsentDescriptionTitleOnly | src/app/public/page.tsx:97 | a log with an absent or empty description matches on its title only |
| PageFilters.BlankQueryStillFilters | src/app/search/page.tsx:135-142 | a white-space query is not empty and filters like any other |
| SearchPage.MapSet | src/app/search/page.tsx:125 | `map.set(id, log)` makes the key hold the log and leaves every other key's value alone |
| SearchPage.MapSetKeys | src/app/search/page.tsx:125 | `set` adds exactly its key, keeps keys distinct, and grows the map only for a new key |
| SearchPage.SetAll | src/app/search/page.tsx:125 | after setting every own log, each key holds the last own log with that id, or its earlier value |
| SearchPage.SetAllKeys | src/app/search/page.tsx:125 | setting the own logs adds exactly their ids and keeps keys distinct |
| SearchPage.SetLiked | src/app/search/page.tsx:126-130 | after setting the liked logs, each non-empty key of a liked log holds the last liked log with it; other keys keep their values |
| SearchPage.SetLikedKeys | src/app/search/page.tsx:126-130 | setting the liked logs adds exactly their non-empty ids and keeps keys distinct |
| SearchPage.MergeById | src/app/search/page.tsx:124-130 | the map's values have distinct ids, are the own ids plus the non-empty liked ids, and a liked log replaces an own log with its id |
| SearchPage.InsertPermutes | src/app/search/page.tsx:131 | inserting adds exactly the one log to the multiset of entries |
| SearchPage.InsertSplits | src/app/search/page.tsx:131 | the inserted log lands right after the leading entries that are at least as new, with everything else in place |
| SearchPage.InsertSorted | src/app/search/page.tsx:131 | inserting into a newest-first list keeps it newest first |
| SearchPage.InsertIds | src/app/search/page.tsx:131 | inserting adds exactly the inserted id and keeps ids distinct when it is new |
| SearchPage.SortByUpdated | src/app/search/page.tsx:131 | the sort is a permutation, newest first, with the same ids and still distinct ids |
| SearchPage.SortStable | src/app/search/page.tsx:131 | the sort is stable: for every time, the logs updated at that time appear in their original order |
| SearchPage.CombinedLogs | src/app/search/page.tsx:123-132 | each own id and each non-empty liked id appears exactly once; the last liked copy wins over an own log; the list is newest first |
| SearchPage.CombinedTiesKeepMapOrder | src/app/search/page.tsx:123-132 | logs updated at the same time keep the map's insertion order: own logs first, then newly liked ones |
| SearchPageClient.SearchResults | src/components/SearchPageClient.tsx:33-37 | the order-preserving sublist of exactly the records whose present title or description contains the lower-cased query |
| SearchPageClient.EmptyQueryKeepsDefined | src/components/SearchPageClient.tsx:33-37 | there is no empty-query shortcut: the empty query keeps exactly the records with a title or a description |
| SearchPageClient.EmptyRecordNeverMatches | src/components/SearchPageClient.tsx:35-36 | a record with neither title nor description is never a result |
| SearchPageClient.DisplayTitle | src/components/SearchPageClient.tsx:60 | the heading is never empty and is the title whenever the title is non-empty |
| SearchPageClient.DescriptionPreview | src/components/SearchPageClient.tsx:62-63 | the preview is the whole description when it is at most 100 UTF-16 code units, otherwise a prefix of 99 or 100 units, and "No description" when there is none; "..." follows exactly when the description is longer than 100 units |
| SearchPageClient.ShortDescriptionShownWhole | src/components/SearchPageClient.tsx:62-63 | without the ellipsis the whole description is shown |
| SearchPageClient.DisplayedImages | src/components/SearchPageClient.tsx:54 | exactly the images with a non-empty url, in order, each as often as in the input (multiset count) |
| PublicLogList.PublicTitles | src/components/PublicLogListClient.tsx:27-43 | one title per non-blank id of an existing public log, in order; no placeholder for the others |
| PublicLogList.PublicTitlesOmit | src/components/PublicLogListClient.tsx:35-40 | a missing, private or unreadable related log makes the titles fewer than the looked-up ids |
| PublicLogList.NormalisePublic | src/components/PublicLogListClient.tsx:45-62 | title "Untitled Log" and description "" by default; the kept related ids are those of public logs pushed before; related titles as above |
| PublicLogList.NormaliseAll | src/components/PublicLogListClient.tsx:24-63 | one log per document, in order, each normalised against exactly the logs pushed before it |
| PublicLogList.LinksPointBackwards | src/components/PublicLogListClient.tsx:54-56 | the kept links are an order-preserving sublist of the stored ones, point only at earlier public logs, and are empty for the first log |
| PublicLogList.IndexAdviceMessage | src/components/PublicLogListClient.tsx:69-71 | the setup message starts with the error's message followed by the composite-index advice |
| PublicLogList.ClassifyPublicError | src/components/PublicLogListClient.tsx:66-76 | `firebase_setup` exactly when a code is present and is one of the three setup codes or the message asks for an index; otherwise the message, or the fallback when it is empty |
| PublicLogList.IndexHintNeedsCode | src/components/PublicLogListClient.tsx:68 | an index-hint message counts as a setup problem exactly when the error carries a code |
| PublicLogList.GetPublicLogs | src/components/PublicLogListClient.tsx:14-77 | a snapshot gives one log per document with its id; an error gives a non-empty message |
| PublicLogList.FilterPublic | src/components/PublicLogListClient.tsx:119-125 | an empty query shows every log; otherwise exactly the matching logs, in order |
| PublicLogList.EmptyQueryMatchesAll | src/components/PublicLogListClient.tsx:119-125 | the empty-query shortcut agrees with filtering, since every string contains "" |
| PublicLogList.Chips | src/components/PublicLogListClient.tsx:219-226 | the first three titles are shown, and "+k more" with k = length − 3 exactly when there are more than three |
| LogItem.EmbedUrl | src/components/LogItem.tsx:24-40 | null for an empty link or a parse failure; otherwise the embed address for the extracted id exactly when that id is non-empty |
| LogItem.ShortLink | src/components/LogItem.tsx:29-30 | a youtu.be link yields the path without its leading slash |
| LogItem.WatchLink | src/components/LogItem.tsx:31-32 | a youtube.com `/watch` link yields its `v` parameter, and nothing when that is missing or empty |
| LogItem.EmbedPathId | src/components/LogItem.tsx:33-34 | an `/embed/` path yields the text after "/embed/" when it holds no "?" and no further "/embed/" |
| LogItem.EmbedIdempotent | src/components/LogItem.tsx:33-36 | the embed address of such an id, parsed back, yields itself |
| LogItem.RelatedLinkLabel | src/components/LogItem.tsx:183 | a label is never empty: the title at the link's index when that title is non-empty, otherwise "Log ID: " with the first six code units of the id and "..." |
| LogItem.RelatedLinkLabels | src/components/LogItem.tsx:180-186 | one label per related id and none empty: each link shows the title at its own position, or falls back to "Log ID: " and its id |
| LogItem.FilledIdsLabelled | src/components/LogItem.tsx:180-186 | when every related id is non-blank, the dashboard titles line up and each link shows the title resolved for its own id |
| LogItem.BlankIdShiftsLabels | src/components/LogItem.tsx:180-183 | after a blank id the next log's title lands on the blank link, and that log falls back to its shortened id |
| LogItem.ShowEdit | src/components/LogItem.tsx:44 | the Edit control shows exactly when `showControls` holds and the signed-in user's uid is the owner's |
| LogForm.FormValid | src/components/LogForm.tsx:24-42 | the form is valid exactly when the title has 1..150 and the description 1..5000 UTF-16 code units, every image row is empty or a url, and the YouTube field is empty or a url naming YouTube |
| LogForm.ServerStricterThanForm | src/components/LogForm.tsx:29-30 | every title and description the actions' schema accepts (src/lib/actions.ts:11-12) passes the form, but a title of 101..150 or a description of 501..5000 code units passes the form and fails the actions' schema |
| LogForm.YoutubeRefine | src/components/LogForm.tsx:32-38 | a link naming neither "youtube.com" nor "youtu.be" is refused; the empty link is accepted |
| LogForm.ToggleRelated | src/components/LogForm.tsx:200-206 | checking appends the id at the end; unchecking removes every occurrence and keeps the other ids in order, with every other id as often as before (multiset count) |
| LogForm.CheckDuplicates | src/components/LogForm.tsx:202-203 | checking an id already present adds a second copy |
| LogForm.CheckThenUncheck | src/components/LogForm.tsx:202-204 | checking and then unchecking an id that was absent restores the list |
| LogForm.LinkableLogs | src/components/LogForm.tsx:109-114 | the linkable logs are the owner's logs in order, exactly without the log being edited |
| LogForm.CleanImageUrls | src/components/LogForm.tsx:136 | exactly the non-empty urls, in order, each as often as in the rows (multiset count); nothing when the list is absent |
| LogForm.DeveloperOverride | src/components/LogForm.tsx:145-149 | the upload replaces the first url, or is appended to an empty list; the rest is unchanged |
| LogForm.SavedImageUrls | src/components/LogForm.tsx:136-155 | without a developer upload the cleaned urls are saved; a failed upload aborts; a successful one takes position 0 |
| AuthContext.RedirectsToLogin | src/contexts/AuthContext.tsx:62-75 | the guard only redirects settled, signed-out visits away from /login and /public, and always redirects those to paths outside "/logs/" that are not open |
| AuthContext.RedirectExactly | src/contexts/AuthContext.tsx:63-73 | the guard redirects exactly when settled, signed out, on a path that is not open and not a log's detail page |
| AuthContext.LogPages | src/contexts/AuthContext.tsx:66-72 | "/logs/x" is open unless it ends in "/edit", and "/logs/x/edit" always redirects |
| AuthContext.ShowFullPageLoader | src/contexts/AuthContext.tsx:78 | the loader shows exactly while loading on a path that is not /public and not under /logs/ |
| AuthContext.LoaderAndGuardExclusive | src/contexts/AuthContext.tsx:63-78 | the loader and the redirect never act together, and no path under "/logs/" gets the loader |
| Actions.FileLimits | src/lib/actions.ts:23-33 | the 5 MiB limit is inclusive and only the four listed types pass |
| Actions.Slots | src/lib/actions.ts:66-73 | exactly eight slots are read whatever the form holds; a slot has a file exactly when the entry at its position is a file of at least one byte, and its caption is the entry's string or "" |
| Actions.Validate | src/lib/actions.ts:84-99 | validation passes exactly when the schema holds; failure is "Validation failed."; the bounds title 1..100, description 1..500 and captions up to 200 UTF-16 code units hold after it, with eight slots |
| Actions.CreateMain | src/lib/actions.ts:104-135 | a stored main file gives one main entry with its url; a caption alone gives a main entry without url; a bad file gives "Invalid main image file."; the main step succeeds exactly when there is no file or the file is valid and stored, and fails on the upload exactly when a valid file does not upload |
| Actions.CreateSlots | src/lib/actions.ts:137-178 | the loop's entries are one per used slot, in slot order; every file was valid and uploaded; the count stays within 9, so "Maximum 9 images" cannot fire; when every file is valid and stored and fits, the loop succeeds; an error names the first failing slot, 1-based (`CreateFailure`): an invalid file, or a valid file whose upload failed, with every earlier file valid and stored |
| Actions.CreateImages | src/lib/actions.ts:84-190 | invalid forms are rejected first; the limit error never occurs; the stored list is the main entry, if any, followed by the slot entries, and only position 0 may be main; the related ids are the validated ones; a valid form is saved exactly when its main file and every slot file are valid and stored |
| Actions.CreateImageList | src/lib/actions.ts:104-178 | the main image counts toward the nine-image limit only once its file is stored, so the limit error never occurs; the list is the main entry, if any, then the slot entries, and only position 0 may be main; it succeeds exactly when the main file and every slot file are valid and stored; a bad main file and a failed main upload give their own errors, and otherwise an error names the first failing slot |
| Actions.MainThenSupporting | src/lib/actions.ts:101-178 | at most one main entry followed by supporting entries has no main entry past position 0 |
| Actions.ExistingImages | src/lib/actions.ts:270-283 | an absent or empty field means no images; a file is "Invalid existing images data format."; non-empty text is accepted exactly when it parses; parsed entries keep their url and main flag, and a non-empty caption verbatim, while an empty caption is dropped |
| Actions.FirstWhere | src/lib/actions.ts:395 | `findIndex`: the first position satisfying the test, or none when no position does |
| Actions.ReplaceMain | src/lib/actions.ts:288-324 | a new main file replaces every main entry by one entry for the upload and leaves non-main entries alone; the count grows by one exactly when there was no main entry; an invalid file gives "Invalid new main image file."; "Maximum 9 images allowed." is given exactly for a valid file, no main entry and a count over 9; the upload error exactly when the upload fails after those checks; it succeeds exactly when the file is valid, uploads and fits, and fails with no other error |
| Actions.RecaptionMain | src/lib/actions.ts:325-336 | without a new file the first main entry takes the caption; with no main entry a non-empty caption is appended as a url-less main entry, and an empty caption changes nothing; non-main entries are unchanged |
| Actions.EditMain | src/lib/actions.ts:287-336 | the main-image step leaves non-main entries alone; a new file leaves exactly one main entry, for its upload; with a file the count grows by one exactly when there was no main entry, and without one it is unchanged; without a file the first main entry is recaptioned, or with none a non-empty caption is appended as a url-less main entry; a main entry exists afterwards whenever a file, a caption or an old main entry does; an invalid file gives "Invalid new main image file."; the limit error is given exactly for a valid file with no old main entry and a count over 9, and the upload error exactly when a valid file that fits does not upload; it succeeds exactly when there is no file or the file is valid, uploads and fits |
| Actions.MessageText | src/lib/actions.ts:146-169 | the supporting-image errors render their 1-based item as a digit in the text the action returns, and the limit error reads "Maximum 9 images allowed." |
| Actions.EditSlotEntry | src/lib/actions.ts:342-389 | a slot's entry is never main and has a url or a caption; a new file wins with the typed caption |
| Actions.SlotKeepsExisting | src/lib/actions.ts:376-381 | a slot with no new file keeps the existing url at its position, and that entry's caption when the new one is empty |
| Actions.SlotWithoutUrl | src/lib/actions.ts:376-389 | a slot with no new file and no url-bearing existing entry keeps only a typed caption |
| Actions.EditSlots | src/lib/actions.ts:342-390 | the rebuilt supporting entries are the slot entries in order (`EditEntries`), non-main with a url or caption; files were valid; the count grows by one for each new file over a slot with no existing url (`NewlyCounted`); when every file is valid and stored, the loop fails exactly when some file is present and that count exceeds 9, and then with "Maximum 9 images allowed."; a file error names the first failing slot, 1-based (`EditFailure`): an invalid file, or a valid file whose upload failed, with every earlier file valid and stored |
| Actions.MergeOrder | src/lib/actions.ts:392 | after the merge main entries come first and every other entry has a url or a caption |
| Actions.Promote | src/lib/actions.ts:394-399 | an entry changes only if it is the first entry whose url passes the test, and only when no main entry has such a url; it changes only by becoming main; afterwards some entry with such a url is main |
| Actions.Clean | src/lib/actions.ts:401 | keeps exactly the entries with a url or a caption, adding none, as a subsequence of the list in its order |
| Actions.CleanAppend | src/lib/actions.ts:401 | cleaning a concatenation gives the two cleaned parts in order, so each entry is judged on its own |
| Actions.CleanOne | src/lib/actions.ts:401 | a single entry survives exactly when it has a url or a caption |
| Actions.FinaliseAsWritten | src/lib/actions.ts:392-401 | the final list as written holds only entries with a url or a caption |
| Actions.EmptyUrlMainDropped | src/lib/actions.ts:394-401 | as written, a main entry with url "" blocks the promotion and is filtered away, leaving a url-bearing list with no main entry |
| Actions.FinaliseIntended | src/lib/actions.ts:392-401 | with the promotion judged by the same truthiness as the filter, a list with a url always keeps a main entry with a url |
| Actions.IntendedPromotesAfterEmptyUrl | src/lib/actions.ts:394-401 | on the same input the intended step makes the url-bearing entry main |
| Actions.EditImages | src/lib/actions.ts:219-409 | the edit action as written: a missing id is rejected before anything else, then an invalid form; it saves exactly when the steps up to the merge succeed, and otherwise gives their error; the stored list is the as-written merge of the main-step result and the rebuilt supporting entries, with only entries that have a url or caption; title, description and related ids are the validated form's |
| Actions.EditImagesIntended | src/lib/actions.ts:219-409 | the edit action with the intended final step: the same rejections and the same success condition; the stored list is the intended merge of the same parts, and a stored list with a url has a url-bearing main entry; title, description and related ids are the validated form's |
| Actions.FinaliseAgreeWithoutEmptyUrl | src/lib/actions.ts:392-401 | when no merged entry has url "", the as-written and intended final steps store the same list, so the two differ only through an empty-string url |
| Actions.EmptyUrlPromotedBeforeRealUrl | src/lib/actions.ts:394-401 | the two final steps can differ with no main entry having url "": beside a caption-only main entry, the step as written promotes a captioned entry with url "" and the intended step promotes the entry with a real url |
| Actions.EmptyUrlBesideUrlMain | src/lib/actions.ts:394-401 | an entry with url "" alone does not part them: beside a main entry with a url, both steps store the list unchanged |
| Actions.PromoteAt | src/lib/actions.ts:394-399 | with no main entry passing the test, promotion flags exactly the first entry whose url passes it |
| Actions.PromoteKeeps | src/lib/actions.ts:394-399 | a main entry whose url passes the test leaves the list unchanged |
| Actions.EditVariantsAgree | src/lib/actions.ts:219-409 | the as-written and intended edit actions reject the same forms, store the same title, description and related ids, and store the same images unless the merged list holds an empty-string url |
| Actions.EditParts | src/lib/actions.ts:219-390 | the edit action up to the merge rejects a missing id first, then an invalid form, then unreadable existing images with "Invalid existing images data format."; on success the existing list was read, the main step kept its non-main entries, and the supporting entries are those rebuilt from the form's slots over them (`EditEntries`), each non-main with a url or caption |

## Left out

- Firestore, Storage and Auth calls (`getDocs`, `getDoc`, `addDoc`, `updateDoc`, `setDoc`, `uploadBytes`, `getDownloadURL`): they are I/O. Reads are the `lookup` parameter or a fetched `Result`, uploads are `upload`, and the store itself is not modelled.
- The database write of both actions, with its "Log created/updated successfully!" and "Firebase Error: …" messages: it is a call into Firestore. The model stops at the record that would be written.
- `Promise.all` in the title fetches: it preserves order, so the model is sequential.
- Timestamp and `Date` conversion, and the sort's `getTime()`: `updatedAt` is an integer.
- Unicode `toLowerCase`: ASCII lower-casing only.
- Zod's `.url()`, `z.instanceof(File)`, the `URL` constructor and `JSON.parse`: these are foreign parsers, taken as parameters or parsed parts.
- `editLogAction`'s `formData instanceof FormData` test (src/lib/actions.ts:213): a server action always receives a form, so the model has no other input.
- SearchPageClient.DescriptionPreview: when the 100th code unit is the first half of a surrogate pair, `substring(0, 100)` keeps that lone surrogate; a Dafny string cannot hold one, so the model stops before the pair.
- LogItem.RelatedLinkLabel: the same for a surrogate pair across the sixth code unit of an id.
- Lone surrogates in any string: Dafny characters are Unicode scalar values, so text holding an unpaired surrogate is outside the model.
- Actions.ExistingImages: an existing entry whose `url` key is missing is treated like `url: null`, although JavaScript's `undefined !== null` would count it. The parsed list has no separate "absent" value. Such an entry passes `!== null` and fails the truthiness filter exactly as `url: ""` does, so it is a second way into the promotion bug under "## Findings" that the model does not show.
- The store round trip of related links: both actions write the ids under `relatedLogs` (src/lib/actions.ts:187, 407), while every reader reads `relatedLogIds` (src/lib/firestoreUtils.ts:38), so links saved through the actions are not the ones the pages read back. The model does not connect writes to reads; `Actions.Saved.relatedLogs` keeps the writers' name.
- Logging, the debug write to `test_collection` and `revalidatePath` (src/lib/actions.ts:36-59, 198-199, 416-420): they have no effect on the result.
- The upload paths built from `Date.now()`: only the url an upload returns matters.
- React state, effects, rendering and navigation of the components, and the `router.push` call itself: only the predicates deciding them are modelled.
- Non-string related ids: related ids are typed as strings, so the resolvers' `typeof id === 'string'` test always holds in the model.
- src/lib/firebase.ts, src/middleware.ts and the other pages and components (navigation, comments, layout) are not part of this model.

## Findings

| source | as written | input that shows it | evidently intended | confidence | as-written member | corrected member |
|---|---|---|---|---|---|---|
| src/lib/actions.ts:394-401 | the promotion guard and search test `url !== null`, but the final filter keeps only entries whose `url` or `caption` is truthy | existing images `[{url: "", isMain: true}]` and one supporting entry with a non-empty url `u` and no caption | a stored list that has a url-bearing entry also has a url-bearing main entry | not executed | Actions.EmptyUrlMainDropped | Actions.FinaliseIntended |

For that input the code sees a main entry whose url is not null, so it
promotes nothing. The filter then drops the main entry with url "". The
stored list is `[{url: u, isMain: false}]`, a log with an image but no main
image. A main entry with no `url` key at all goes the same way, since
`undefined !== null` holds and `undefined` is falsy; the model reads a missing
key as null, so it shows only the empty-string trigger.
`Actions.FinaliseAsWritten` is the step as written.
`Actions.FinaliseIntended` judges the promotion by truthiness. On every input
it keeps a url-bearing main entry whenever a url remains
(`Actions.IntendedPromotesAfterEmptyUrl` shows it on the input above).
The step as written also goes wrong when the url "" sits on a non-main entry:
beside a caption-only main entry it promotes a captioned entry with url "" instead of
the entry with a real url (`Actions.EmptyUrlPromotedBeforeRealUrl`). When no
merged entry has url "", the two steps agree
(`Actions.FinaliseAgreeWithoutEmptyUrl`).
`Actions.EditImages` is the edit action as written and
`Actions.EditImagesIntended` the one with the intended step. They reject the
same forms and store the same record unless the merged list holds an
empty-string url (`Actions.EditVariantsAgree`).

=== FILE: actions.dfy ===
/**
 * The server actions that create and edit a log: validation of the submitted
 * form, the checks on image files, and the assembly of the `imageUrls` list
 * stored with the log. Storage uploads and `JSON.parse` are parameters; the
 * database write is not modelled, so a successful action yields the record it
 * would store.
 */
module Actions {
  import opened Results
  import opened JsStrings
  import opened Seqs
  import opened LogModel

  const MaxFileSize: nat := 5 * 1024 * 1024
  const AcceptedImageTypes: seq<string> := ["image/jpeg", "image/jpg", "image/png", "image/webp"]
  const MaxSupportingItems: nat := 8
  const MaxTotalImages: nat := 9

  /** An uploaded file: its name, its size in bytes and its MIME type. */
  datatype File = File(name: string, size: nat, mime: string)

  /** A form entry value: a string or a file. */
  datatype FormValue = Text(text: string) | Blob(file: File)

  /**
   * The submitted form, one field per key the actions read; `None` is an
   * absent key. Entry i of `slotImages` and `slotCaptions` is the value under
   * `supportingItems[i].image` and `supportingItems[i].caption`; positions
   * past the end are absent.
   */
  datatype Form = Form(
    id: Option<FormValue>,
    title: Option<FormValue>,
    description: Option<FormValue>,
    mainImage: Option<FormValue>,
    mainCaption: Option<FormValue>,
    slotImages: seq<Option<FormValue>>,
    slotCaptions: seq<Option<FormValue>>,
    existingImageUrls: Option<FormValue>,
    relatedLogIds: seq<FormValue>)

  /** One supporting item after normalisation: a non-empty file or none, and a caption. */
  datatype Slot = Slot(image: Option<File>, caption: string)

  /** The fields of a form that passed the schema. */
  datatype Fields = Fields(
    title: string,
    description: string,
    mainCaption: string,
    slots: seq<Slot>,
    relatedLogIds: seq<string>)

  /** Every way an action gives up; `Message` renders each one. */
  datatype Rejection =
    | MissingId
    | ValidationFailed
    | InvalidMainImage
    | MainUploadFailed
    | InvalidSupportingImage(item: nat)
    | SupportingUploadFailed(item: nat)
    | TooManyImages
    | BadExistingImages
    | InvalidNewMainImage
    | NewMainUploadFailed

  /** The record an action writes to the `logs` collection. */
  datatype Saved = Saved(title: string, description: string, imageUrls: seq<Image>, relatedLogs: seq<string>)

  function Message(r: Rejection): string {
    match r
    case MissingId => "Log ID is required for editing."
    case ValidationFailed => "Validation failed."
    case InvalidMainImage => "Invalid main image file."
    case MainUploadFailed => "Failed to upload main image."
    case InvalidSupportingImage(i) => "Invalid supporting image at item " + NatToString(i) + "."
    case SupportingUploadFailed(i) => "Failed to upload supporting image at item " + NatToString(i) + "."
    case TooManyImages => "Maximum " + NatToString(MaxTotalImages) + " images allowed."
    case BadExistingImages => "Invalid existing images data format."
    case InvalidNewMainImage => "Invalid new main image file."
    case NewMainUploadFailed => "Failed to upload new main image."
  }

  /**
   * The texts the actions return: the item of a supporting-image error is the
   * 1-based slot number, and the limit message names the limit of 9.
   */
  lemma MessageText(item: nat)
    requires 1 <= item <= MaxSupportingItems
    ensures Message(TooManyImages) == "Maximum 9 images allowed."
    ensures Message(InvalidSupportingImage(item)) == "Invalid supporting image at item " + [(48 + item) as char] + "."
    ensures Message(SupportingUploadFailed(item)) == "Failed to upload supporting image at item " + [(48 + item) as char] + "."
  {
  }

  // ---------------------------------------------------------------------------
  // Reading and validating the form

  /** A file passes the image schema: at most 5 MiB and of an accepted type. */
  predicate FileOk(f: File) {
    f.size <= MaxFileSize && f.mime in AcceptedImageTypes
  }

  /** The size limit is inclusive and only the four listed types pass. */
  lemma FileLimits(f: File)
    ensures FileOk(f) ==> f.size <= 5242880
    ensures f.size <= 5242880 && f.mime == "image/webp" ==> FileOk(f)
    ensures f.mime == "image/gif" || f.mime == "image/svg+xml" || f.mime == "" ==> !FileOk(f)
  {
  }

  function EntryAt(s: seq<Option<FormValue>>, i: nat): Option<FormValue> {
    if i < |s| then s[i] else None
  }

  /** A form value that is a file with at least one byte; anything else counts as no file. */
  function NonEmptyFile(v: Option<FormValue>): Option<File> {
    if v.Some? && v.value.Blob? && v.value.file.size > 0 then Some(v.value.file) else None
  }

  /** Supporting item i as the actions see it: a non-string caption becomes "". */
  function SlotAt(form: Form, i: nat): Slot {
    var c := EntryAt(form.slotCaptions, i);
    Slot(NonEmptyFile(EntryAt(form.slotImages, i)), if c.Some? && c.value.Text? then c.value.text else "")
  }

  /**
   * The supporting items are always read from exactly eight positions; an
   * absent key or an empty file gives no file, and an absent or file-valued
   * caption gives "".
   */
  function Slots(form: Form): (r: seq<Slot>)
    ensures |r| == MaxSupportingItems
    ensures forall i :: 0 <= i < |r| ==> r[i] == SlotAt(form, i)
    ensures forall i :: 0 <= i < |r| ==>
      (r[i].image.Some? <==> i < |form.slotImages| && form.slotImages[i].Some? && form.slotImages[i].value.Blob?
                             && form.slotImages[i].value.file.size > 0)
    ensures forall i :: 0 <= i < |r| && r[i].image.Some? ==> form.slotImages[i] == Some(Blob(r[i].image.value))
    ensures forall i :: 0 <= i < |r| ==>
      r[i].caption == (if i < |form.slotCaptions| && form.slotCaptions[i].Some? && form.slotCaptions[i].value.Text?
                       then form.slotCaptions[i].value.text else "")
  {
    seq(MaxSupportingItems, i requires 0 <= i < MaxSupportingItems => SlotAt(form, i))
  }

  /** The value is a string whose length in code units lies in `lo..hi`; an absent key or a file fails. */
  predicate TextWithin(v: Option<FormValue>, lo: nat, hi: nat) {
    v.Some? && v.value.Text? && lo <= Utf16Length(v.value.text) <= hi
  }

  /**
   * The log schema accepts the form. The caption of the main image is optional
   * in the schema, but the form lookup gives null for an absent key and the
   * schema rejects null, so the key must be present.
   */
  predicate SchemaValid(form: Form) {
    && TextWithin(form.title, 1, 100)
    && TextWithin(form.description, 1, 500)
    && TextWithin(form.mainCaption, 0, 200)
    && (forall i :: 0 <= i < MaxSupportingItems ==> Utf16Length(SlotAt(form, i).caption) <= 200)
    && (forall k :: 0 <= k < |form.relatedLogIds| ==> form.relatedLogIds[k].Text?)
  }

  function TextOf(v: FormValue): string {
    if v.Text? then v.text else ""
  }

  function Validate(form: Form): (r: Result<Fields, Rejection>)
    ensures r.Ok? <==> SchemaValid(form)
    ensures r.Err? ==> r.error == ValidationFailed
    ensures r.Ok? ==> 1 <= Utf16Length(r.value.title) <= 100 && 1 <= Utf16Length(r.value.description) <= 500
    ensures r.Ok? ==> Utf16Length(r.value.mainCaption) <= 200
    ensures r.Ok? ==> |r.value.slots| == MaxSupportingItems
    ensures r.Ok? ==> && r.value.title == form.title.value.text && r.value.description == form.description.value.text
                      && r.value.mainCaption == form.mainCaption.value.text && r.value.slots == Slots(form)
    ensures r.Ok? ==> forall i :: 0 <= i < |r.value.slots| ==> Utf16Length(r.value.slots[i].caption) <= 200
    ensures r.Ok? ==> |r.value.relatedLogIds| == |form.relatedLogIds|
    ensures r.Ok? ==> forall k :: 0 <= k < |r.value.relatedLogIds| ==> form.relatedLogIds[k] == Text(r.value.relatedLogIds[k])
  {
    if SchemaValid(form) then
      var ids := form.relatedLogIds;
      Ok(Fields(
        form.title.value.text,
        form.description.value.text,
        form.mainCaption.value.text,
        Slots(form),
        seq(|ids|, k requires 0 <= k < |ids| => TextOf(ids[k]))))
    else
      Err(ValidationFailed)
  }

  // ---------------------------------------------------------------------------
  // createLogAction

  /** The slot contributes an entry: it has a file or a non-empty caption. */
  predicate Used(s: Slot) {
    s.image.Some? || s.caption != ""
  }

  predicate HasFile(s: Slot) {
    s.image.Some?
  }

  function FileCount(slots: seq<Slot>): (n: nat)
    ensures n <= |slots|
  {
    |Filter(slots, HasFile)|
  }

  /** The entry a used slot contributes once its file, if any, is stored and given `upload`'s url. */
  function SlotEntry(s: Slot, upload: File -> Option<string>): Image {
    if s.image.Some? then Image(upload(s.image.value), false, NonEmpty(s.caption))
    else Image(None, false, Some(s.caption))
  }

  /** One entry per used slot, in slot order: the list a successful create assembles from the slots. */
  function Entries(slots: seq<Slot>, upload: File -> Option<string>): seq<Image> {
    var u := Filter(slots, Used);
    seq(|u|, k requires 0 <= k < |u| => SlotEntry(u[k], upload))
  }

  /** A main file, if there is one, is valid and its upload succeeds. */
  predicate MainStored(file: Option<File>, upload: File -> Option<string>) {
    file.Some? ==> FileOk(file.value) && upload(file.value).Some?
  }

  /** Every new file among slots lo up to hi is valid and its upload succeeds. */
  predicate StoredBetween(slots: seq<Slot>, lo: nat, hi: nat, upload: File -> Option<string>) {
    forall k :: lo <= k < hi && k < |slots| && slots[k].image.Some? ==>
      FileOk(slots[k].image.value) && upload(slots[k].image.value).Some?
  }

  /** The main entry a successful create starts with, if any. */
  function MainEntry(file: Option<File>, caption: string, upload: File -> Option<string>): seq<Image> {
    if file.Some? then [Image(upload(file.value), true, NonEmpty(caption))]
    else if caption != "" then [Image(None, true, Some(caption))]
    else []
  }

  /** The main-image step of the create action. */
  function CreateMain(file: Option<File>, caption: string, upload: File -> Option<string>): (r: Result<seq<Image>, Rejection>)
    ensures r.Ok? ==> r.value == MainEntry(file, caption, upload)
    ensures r.Ok? ==> |r.value| <= 1 && forall i :: 0 <= i < |r.value| ==> r.value[i].isMain
    ensures r.Ok? && file.Some? ==> FileOk(file.value) && upload(file.value).Some?
    ensures r.Err? ==> file.Some? && (r.error == InvalidMainImage <==> !FileOk(file.value))
    ensures r.Err? ==> r.error == InvalidMainImage || r.error == MainUploadFailed
    ensures r.Ok? <==> MainStored(file, upload)
    ensures r == Err(MainUploadFailed) <==> file.Some? && FileOk(file.value) && upload(file.value).None?
  {
    match file
    case Some(f) =>
      if !FileOk(f) then Err(InvalidMainImage)
      else if upload(f).None? then Err(MainUploadFailed)
      else Ok([Image(upload(f), true, NonEmpty(caption))])
    case None =>
      if caption != "" then Ok([Image(None, true, Some(caption))]) else Ok([])
  }

  /**
   * The supporting-item loop of the create action from the slot whose index
   * is `item` on, with `total` images counted so far.
   */
  function CreateSlots(slots: seq<Slot>, item: nat, total: nat, upload: File -> Option<string>): (r: Result<seq<Image>, Rejection>)
    requires total <= MaxTotalImages
    ensures r.Ok? ==> r.value == Entries(slots, upload)
    ensures r.Ok? ==> forall k :: 0 <= k < |slots| && slots[k].image.Some? ==>
      FileOk(slots[k].image.value) && upload(slots[k].image.value).Some?
    ensures r.Ok? ==> total + FileCount(slots) <= MaxTotalImages
    ensures total + FileCount(slots) <= MaxTotalImages ==> r != Err(TooManyImages)
    ensures r.Err? ==> (r.error == TooManyImages
      || ((r.error.InvalidSupportingImage? || r.error.SupportingUploadFailed?) && item < r.error.item <= item + |slots|))
    ensures StoredBetween(slots, 0, |slots|, upload) && total + FileCount(slots) <= MaxTotalImages ==> r.Ok?
    ensures r.Err? ==> CreateFailure(slots, item, r.error, upload)
    decreases |slots|
  {
    if slots == [] then Ok([])
    else
      var s := slots[0];
      var step := CreateSlotStep(s, item, total, upload);
      if step.Err? then Err(step.error)
      else
        var rest := CreateSlots(slots[1..], item + 1, step.value, upload);
        StoredShift(slots, upload);
        FileCountCons(slots);
        if rest.Err? then
          FailureShift(slots, item, rest.error, upload);
          rest
        else
          var pushed :=
            if s.image.Some? then [Image(upload(s.image.value), false, NonEmpty(s.caption))]
            else if s.caption != "" then [Image(None, false, Some(s.caption))]
            else [];
          CreateStep(slots, total, step.value, upload, pushed, rest.value);
          Ok(pushed + rest.value)
  }

  /**
   * The checks of one turn of the create loop: a file must be valid, fit the
   * limit and be stored; the result is the new image count.
   */
  function CreateSlotStep(s: Slot, item: nat, total: nat, upload: File -> Option<string>): (r: Result<nat, Rejection>)
    ensures s.image.None? ==> r == Ok(total)
    ensures s.image.Some? && r.Ok? ==>
      FileOk(s.image.value) && upload(s.image.value).Some? && r.value == total + 1 && r.value <= MaxTotalImages
    ensures s.image.Some? && FileOk(s.image.value) && upload(s.image.value).Some? && total + 1 <= MaxTotalImages ==> r.Ok?
    ensures r.Err? ==> s.image.Some?
    ensures r == Err(InvalidSupportingImage(item + 1)) <==> s.image.Some? && !FileOk(s.image.value)
    ensures r == Err(SupportingUploadFailed(item + 1)) ==> FileOk(s.image.value) && upload(s.image.value).None?
    ensures r.Err? ==> r.error in {TooManyImages, InvalidSupportingImage(item + 1), SupportingUploadFailed(item + 1)}
  {
    if s.image.None? then Ok(total)
    else if !FileOk(s.image.value) then Err(InvalidSupportingImage(item + 1))
    else if total + 1 > MaxTotalImages then Err(TooManyImages)
    else if upload(s.image.value).None? then Err(SupportingUploadFailed(item + 1))
    else Ok(total + 1)
  }

  /** One successful turn of the create loop extends what the later slots gave. */
  lemma CreateStep(slots: seq<Slot>, total: nat, next: nat, upload: File -> Option<string>, pushed: seq<Image>, rest: seq<Image>)
    requires slots != []
    requires slots[0].image.None? ==> next == total
    requires slots[0].image.Some? ==>
      FileOk(slots[0].image.value) && upload(slots[0].image.value).Some? && next == total + 1
    requires pushed ==
      if slots[0].image.Some? then [Image(upload(slots[0].image.value), false, NonEmpty(slots[0].caption))]
      else if slots[0].caption != "" then [Image(None, false, Some(slots[0].caption))]
      else []
    requires rest == Entries(slots[1..], upload)
    requires forall k :: 0 <= k < |slots[1..]| && slots[1..][k].image.Some? ==>
      FileOk(slots[1..][k].image.value) && upload(slots[1..][k].image.value).Some?
    requires next + FileCount(slots[1..]) <= MaxTotalImages
    ensures pushed + rest == Entries(slots, upload)
    ensures forall k :: 0 <= k < |slots| && slots[k].image.Some? ==>
      FileOk(slots[k].image.value) && upload(slots[k].image.value).Some?
    ensures total + FileCount(slots) <= MaxTotalImages
  {
    EntriesCons(slots, upload);
    FileCountCons(slots);
    FilesOkCons(slots, upload);
  }

  lemma FilesOkCons(slots: seq<Slot>, upload: File -> Option<string>)
    requires slots != []
    requires slots[0].image.Some? ==> FileOk(slots[0].image.value) && upload(slots[0].image.value).Some?
    requires forall k :: 0 <= k < |slots[1..]| && slots[1..][k].image.Some? ==>
      FileOk(slots[1..][k].image.value) && upload(slots[1..][k].image.value).Some?
    ensures forall k :: 0 <= k < |slots| && slots[k].image.Some? ==>
      FileOk(slots[k].image.value) && upload(slots[k].image.value).Some?
  {
    forall k | 1 <= k < |slots|
      ensures slots[k].image.Some? ==> FileOk(slots[k].image.value) && upload(slots[k].image.value).Some?
    {
      assert slots[k] == slots[1..][k - 1];
    }
  }

  /**
   * A supporting-image error of the create loop names the first slot that
   * fails, counting from `item + 1`: an invalid file, or a valid file whose
   * upload fails, with every earlier file valid and stored.
   */
  predicate CreateFailure(slots: seq<Slot>, item: nat, e: Rejection, upload: File -> Option<string>) {
    && (e.InvalidSupportingImage? ==>
          && item < e.item <= item + |slots|
          && var k := e.item - item - 1;
             slots[k].image.Some? && !FileOk(slots[k].image.value) && StoredBetween(slots, 0, k, upload))
    && (e.SupportingUploadFailed? ==>
          && item < e.item <= item + |slots|
          && var k := e.item - item - 1;
             slots[k].image.Some? && FileOk(slots[k].image.value) && upload(slots[k].image.value).None?
             && StoredBetween(slots, 0, k, upload))
  }

  /** A first failure among the later slots is the first failure of all of them when the first slot is stored. */
  lemma FailureShift(slots: seq<Slot>, item: nat, e: Rejection, upload: File -> Option<string>)
    requires slots != []
    requires StoredBetween(slots, 0, 1, upload)
    requires CreateFailure(slots[1..], item + 1, e, upload)
    ensures CreateFailure(slots, item, e, upload)
  {
    StoredShift(slots, upload);
    if e.InvalidSupportingImage? || e.SupportingUploadFailed? {
      var k := e.item - item - 1;
      assert slots[k] == slots[1..][k - 1];
    }
  }

  /** Storage of the slots after the first, seen from the whole list: indices shift by one. */
  lemma StoredShift(slots: seq<Slot>, upload: File -> Option<string>)
    requires slots != []
    ensures forall k :: 0 <= k <= |slots| - 1 ==>
      (StoredBetween(slots, 0, k + 1, upload) <==>
       StoredBetween(slots, 0, 1, upload) && StoredBetween(slots[1..], 0, k, upload))
  {
    forall k | 0 <= k <= |slots| - 1
      ensures StoredBetween(slots, 0, k + 1, upload) <==>
        StoredBetween(slots, 0, 1, upload) && StoredBetween(slots[1..], 0, k, upload)
    {
      assert forall j :: 0 <= j < k ==> slots[1..][j] == slots[j + 1];
    }
  }

  /** How the entries of the slots split at the first slot. */
  lemma EntriesCons(slots: seq<Slot>, upload: File -> Option<string>)
    requires slots != []
    ensures Used(slots[0]) ==> Entries(slots, upload) == [SlotEntry(slots[0], upload)] + Entries(slots[1..], upload)
    ensures !Used(slots[0]) ==> Entries(slots, upload) == Entries(slots[1..], upload)
  {
  }

  lemma FileCountCons(slots: seq<Slot>)
    requires slots != []
    ensures FileCount(slots) == (if HasFile(slots[0]) then 1 else 0) + FileCount(slots[1..])
  {
  }

  /**
   * `createLogAction` up to the database write: the record it would store, or
   * the first reason it gives up.
   */
  function CreateImages(form: Form, upload: File -> Option<string>): (r: Result<Saved, Rejection>)
    ensures !SchemaValid(form) ==> r == Err(ValidationFailed)
    ensures r != Err(TooManyImages)
    ensures r.Ok? ==> (SchemaValid(form) && r.value.imageUrls ==
      MainEntry(NonEmptyFile(form.mainImage), form.mainCaption.value.text, upload) + Entries(Slots(form), upload))
    ensures r.Ok? ==> forall i :: 0 < i < |r.value.imageUrls| ==> !r.value.imageUrls[i].isMain
    ensures r.Ok? ==> r.value.title == form.title.value.text && r.value.description == form.description.value.text
    ensures r.Ok? ==> Validate(form).Ok? && r.value.relatedLogs == Validate(form).value.relatedLogIds
    ensures SchemaValid(form) ==>
      (r.Ok? <==> MainStored(NonEmptyFile(form.mainImage), upload) && StoredBetween(Slots(form), 0, MaxSupportingItems, upload))
  {
    match Validate(form)
    case Err(e) => Err(e)
    case Ok(fields) =>
      var images := CreateImageList(fields, NonEmptyFile(form.mainImage), upload);
      if images.Err? then Err(images.error)
      else Ok(Saved(fields.title, fields.description, images.value, fields.relatedLogIds))
  }

  /**
   * The image list of `createLogAction` from validated fields: the main entry,
   * counted only when its file is stored, then the supporting entries.
   */
  function CreateImageList(fields: Fields, file: Option<File>, upload: File -> Option<string>): (r: Result<seq<Image>, Rejection>)
    requires |fields.slots| == MaxSupportingItems
    ensures r != Err(TooManyImages)
    ensures r.Ok? ==> r.value == MainEntry(file, fields.mainCaption, upload) + Entries(fields.slots, upload)
    ensures r.Ok? ==> forall i :: 0 < i < |r.value| ==> !r.value[i].isMain
    ensures r.Ok? <==> MainStored(file, upload) && StoredBetween(fields.slots, 0, |fields.slots|, upload)
    ensures file.Some? && !FileOk(file.value) ==> r == Err(InvalidMainImage)
    ensures file.Some? && FileOk(file.value) && upload(file.value).None? ==> r == Err(MainUploadFailed)
    ensures MainStored(file, upload) && r.Err? ==> CreateFailure(fields.slots, 0, r.error, upload)
  {
    var main := CreateMain(file, fields.mainCaption, upload);
    if main.Err? then Err(main.error)
    else
      var counted: nat := if file.Some? then 1 else 0;
      var supporting := CreateSlots(fields.slots, 0, counted, upload);
      if supporting.Err? then Err(supporting.error)
      else
        MainThenSupporting(main.value, supporting.value);
        Ok(main.value + supporting.value)
  }

  /** At most one entry followed by non-main entries: only the first position can be main. */
  lemma MainThenSupporting(main: seq<Image>, supporting: seq<Image>)
    requires |main| <= 1
    requires forall k :: 0 <= k < |supporting| ==> !supporting[k].isMain
    ensures forall i :: 0 < i < |main + supporting| ==> !(main + supporting)[i].isMain
  {
    var images := main + supporting;
    assert forall i :: 0 < i < |images| ==> images[i] == supporting[i - |main|];
  }

  // ---------------------------------------------------------------------------
  // editLogAction

  /** The edit action's `!id` test: an absent key and the empty string both fail it. */
  predicate IdMissing(form: Form) {
    form.id.None? || form.id.value == Text("")
  }

  /** An entry of `existingImageUrls` after the action's `map`: absent flag false, empty caption dropped. */
  function Normalise(img: Image): Image {
    Image(img.url, img.isMain, if Truthy(img.caption) then img.caption else None)
  }

  /**
   * The images already on the log, as sent back by the edit form. A missing or
   * empty field means none; anything else goes through `parse`, which models
   * `JSON.parse` and gives `None` where it throws. A file in that field is
   * rendered as "[object File]", which does not parse.
   */
  function ExistingImages(raw: Option<FormValue>, parse: string -> Option<seq<Image>>): (r: Result<seq<Image>, Rejection>)
    ensures raw.None? || raw == Some(Text("")) ==> r == Ok([])
    ensures raw.Some? && raw.value.Blob? ==> r == Err(BadExistingImages)
    ensures r.Err? ==> r.error == BadExistingImages
    ensures r.Ok? && raw.Some? && raw.value.Text? && raw.value.text != "" ==>
      var parsed := parse(raw.value.text);
      parsed.Some? && |r.value| == |parsed.value|
      && forall k :: 0 <= k < |r.value| ==>
           r.value[k].url == parsed.value[k].url && r.value[k].isMain == parsed.value[k].isMain
           && r.value[k].caption == (if Truthy(parsed.value[k].caption) then parsed.value[k].caption else None)
    ensures r.Ok? ==> forall k :: 0 <= k < |r.value| ==> r.value[k].caption != Some("")
    ensures raw.Some? && raw.value.Text? && raw.value.text != "" ==> (r.Ok? <==> parse(raw.value.text).Some?)
  {
    match raw
    case None => Ok([])
    case Some(Blob(_)) => Err(BadExistingImages)
    case Some(Text(s)) =>
      if s == "" then Ok([])
      else
        var parsed := parse(s);
        if parsed.None? then Err(BadExistingImages)
        else
          var imgs := parsed.value;
          Ok(seq(|imgs|, k requires 0 <= k < |imgs| => Normalise(imgs[k])))
  }

  predicate IsMain(e: Image) {
    e.isMain
  }

  predicate NotMain(e: Image) {
    !e.isMain
  }

  /** The edit action's null test: a url counts as present unless it is null, so the empty string counts. */
  predicate NotNull(url: Option<string>) {
    url.Some?
  }

  /** The final filter's test: the entry has a non-empty url or a non-empty caption. */
  predicate UrlOrCaption(e: Image) {
    Truthy(e.url) || Truthy(e.caption)
  }

  /** `findIndex`: the first position satisfying `p`, if there is one. */
  function FirstWhere(s: seq<Image>, p: Image -> bool): (r: Option<nat>)
    ensures r.Some? ==> r.value < |s| && p(s[r.value]) && forall j :: 0 <= j < r.value ==> !p(s[j])
    ensures r.None? ==> forall j :: 0 <= j < |s| ==> !p(s[j])
    decreases |s|
  {
    if s == [] then None
    else if p(s[0]) then Some(0)
    else
      var rest := FirstWhere(s[1..], p);
      assert forall j :: 1 <= j < |s| ==> s[j] == s[1..][j - 1];
      if rest.None? then None else Some(rest.value + 1)
  }

  /** Overwriting a main entry with another main entry leaves the non-main entries as they were. */
  lemma {:induction false} FilterNotMainUpdate(s: seq<Image>, k: nat, x: Image)
    requires k < |s| && s[k].isMain && x.isMain
    ensures Filter(s[k := x], NotMain) == Filter(s, NotMain)
    decreases |s|
  {
    if k > 0 {
      assert s[k := x][1..] == s[1..][k - 1 := x];
      FilterNotMainUpdate(s[1..], k - 1, x);
    }
  }

  /** A new main file: every main entry is replaced by one entry for the uploaded file. */
  function ReplaceMain(images: seq<Image>, total: nat, f: File, caption: string, upload: File -> Option<string>)
    : (r: Result<(seq<Image>, nat), Rejection>)
    ensures r.Ok? ==> Filter(r.value.0, NotMain) == Filter(images, NotMain)
    ensures r.Ok? ==> Filter(r.value.0, IsMain) == [Image(upload(f), true, NonEmpty(caption))] && upload(f).Some?
    ensures r.Err? ==> (r.error == InvalidNewMainImage <==> !FileOk(f))
    ensures r == Err(TooManyImages) ==> total + 1 > MaxTotalImages && forall j :: 0 <= j < |images| ==> !images[j].isMain
    ensures FileOk(f) && total + 1 > MaxTotalImages && (forall j :: 0 <= j < |images| ==> !images[j].isMain) ==>
      r == Err(TooManyImages)
    ensures r == Err(NewMainUploadFailed) <==>
      FileOk(f) && upload(f).None? && (total + 1 <= MaxTotalImages || exists j :: 0 <= j < |images| && images[j].isMain)
    ensures r.Ok? ==> r.value.1 == if exists j :: 0 <= j < |images| && images[j].isMain then total else total + 1
    ensures !FileOk(f) ==> r == Err(InvalidNewMainImage)
    ensures r.Err? ==> r.error == InvalidNewMainImage || r.error == TooManyImages || r.error == NewMainUploadFailed
    ensures r.Ok? <==>
      FileOk(f) && upload(f).Some? && (total + 1 <= MaxTotalImages || exists j :: 0 <= j < |images| && images[j].isMain)
  {
    if !FileOk(f) then Err(InvalidNewMainImage)
    else
      var oldMain := FirstWhere(images, IsMain);
      var count := if oldMain.None? then total + 1 else total;
      if count > MaxTotalImages && oldMain.None? then Err(TooManyImages)
      else if upload(f).None? then Err(NewMainUploadFailed)
      else
        var main := Image(upload(f), true, NonEmpty(caption));
        NewMainSplit(images, main);
        Ok((Filter(images, NotMain) + [main], count))
  }

  lemma NewMainSplit(images: seq<Image>, main: Image)
    requires main.isMain
    ensures Filter(Filter(images, NotMain) + [main], NotMain) == Filter(images, NotMain)
    ensures Filter(Filter(images, NotMain) + [main], IsMain) == [main]
  {
    var kept := Filter(images, NotMain);
    FilterAppend(kept, [main], NotMain);
    FilterIdempotent(images, NotMain);
    FilterAppend(kept, [main], IsMain);
    FilterNone(kept, IsMain);
    assert [main][1..] == [];
  }

  /** No new main file: the first main entry takes the caption, or a caption alone becomes a main entry. */
  function RecaptionMain(images: seq<Image>, caption: string): (r: seq<Image>)
    ensures Filter(r, NotMain) == Filter(images, NotMain)
    ensures (exists j :: 0 <= j < |images| && images[j].isMain) ==>
      |r| == |images|
      && exists j :: 0 <= j < |images| && images[j].isMain && (forall i :: 0 <= i < j ==> !images[i].isMain)
           && r == images[j := images[j].(caption := NonEmpty(caption))]
    ensures (forall j :: 0 <= j < |images| ==> !images[j].isMain) ==>
      r == images + (if caption != "" then [Image(None, true, Some(caption))] else [])
    ensures (caption != "" || exists j :: 0 <= j < |images| && images[j].isMain) ==>
      exists j :: 0 <= j < |r| && r[j].isMain
  {
    var oldMain := FirstWhere(images, IsMain);
    if oldMain.Some? then
      var k := oldMain.value;
      var updated := images[k := images[k].(caption := NonEmpty(caption))];
      FilterNotMainUpdate(images, k, updated[k]);
      assert updated[k].isMain;
      updated
    else if caption != "" then
      var main := Image(None, true, Some(caption));
      FilterAppend(images, [main], NotMain);
      assert (images + [main])[|images|] == main;
      images + [main]
    else
      images
  }

  /**
   * The main-image step of the edit action on the existing images, with
   * `total` images counted so far.
   */
  function EditMain(images: seq<Image>, total: nat, file: Option<File>, caption: string, upload: File -> Option<string>)
    : (r: Result<(seq<Image>, nat), Rejection>)
    ensures r.Ok? ==> Filter(r.value.0, NotMain) == Filter(images, NotMain)
    ensures r.Ok? && file.Some? ==>
      Filter(r.value.0, IsMain) == [Image(upload(file.value), true, NonEmpty(caption))] && upload(file.value).Some?
    ensures r.Ok? && file.None? ==> r.value.1 == total
    ensures r.Ok? && file.Some? ==>
      r.value.1 == if exists j :: 0 <= j < |images| && images[j].isMain then total else total + 1
    ensures file.None? && (forall j :: 0 <= j < |images| ==> !images[j].isMain) ==>
      r == Ok((images + (if caption != "" then [Image(None, true, Some(caption))] else []), total))
    ensures file.None? && (exists j :: 0 <= j < |images| && images[j].isMain) ==>
      r.Ok? && exists j :: 0 <= j < |images| && images[j].isMain && (forall i :: 0 <= i < j ==> !images[i].isMain)
                           && r.value.0 == images[j := images[j].(caption := NonEmpty(caption))]
    ensures (file.Some? && FileOk(file.value) && total + 1 > MaxTotalImages
             && forall j :: 0 <= j < |images| ==> !images[j].isMain) ==> r == Err(TooManyImages)
    ensures file.Some? && !FileOk(file.value) ==> r == Err(InvalidNewMainImage)
    ensures r.Err? ==> r.error == InvalidNewMainImage || r.error == TooManyImages || r.error == NewMainUploadFailed
    ensures r == Err(NewMainUploadFailed) <==>
      && file.Some? && FileOk(file.value) && upload(file.value).None?
      && (total + 1 <= MaxTotalImages || exists j :: 0 <= j < |images| && images[j].isMain)
    ensures r.Ok? <==>
      MainStored(file, upload) && (file.None? || total + 1 <= MaxTotalImages || exists j :: 0 <= j < |images| && images[j].isMain)
    ensures r.Ok? && (file.Some? || caption != "" || exists j :: 0 <= j < |images| && images[j].isMain) ==>
      exists j :: 0 <= j < |r.value.0| && r.value.0[j].isMain
    ensures r.Err? ==> file.Some? && (r.error == InvalidNewMainImage <==> !FileOk(file.value))
    ensures r == Err(TooManyImages) ==> total + 1 > MaxTotalImages && forall j :: 0 <= j < |images| ==> !images[j].isMain
  {
    match file
    case Some(f) =>
      var r := ReplaceMain(images, total, f, caption, upload);
      assert r.Ok? ==> Filter(r.value.0, IsMain)[0] in r.value.0;
      r
    case None => Ok((RecaptionMain(images, caption), total))
  }

  function Corresponding(existing: seq<Image>, i: nat): Option<Image> {
    if i < |existing| then Some(existing[i]) else None
  }

  /** The url a slot's new file was stored under, if it has one. */
  function Uploaded(s: Slot, upload: File -> Option<string>): Option<string> {
    if s.image.Some? then upload(s.image.value) else None
  }

  /**
   * The entry supporting slot i pushes, given the existing non-main entry at
   * the same position and the url of the slot's new file: a new file wins;
   * otherwise a url-bearing existing entry is kept, and so is its caption when
   * no new caption was typed.
   */
  function EditSlotEntry(s: Slot, corr: Option<Image>, uploaded: Option<string>): (r: Option<Image>)
    ensures r.Some? ==> !r.value.isMain && UrlOrCaption(r.value)
    ensures s.image.Some? ==> (r.Some? <==> Truthy(uploaded) || s.caption != "")
    ensures s.image.Some? && r.Some? ==> r.value.url == uploaded && r.value.caption == NonEmpty(s.caption)
  {
    var keep := s.image.None? && corr.Some? && Truthy(corr.value.url);
    var url := if s.image.Some? then uploaded else if keep then corr.value.url else None;
    var caption := if keep && s.caption == "" && Truthy(corr.value.caption) then corr.value.caption else NonEmpty(s.caption);
    if Truthy(url) || Truthy(caption) then Some(Image(url, false, caption)) else None
  }

  /**
   * A slot with no new file keeps the url of the existing entry at its
   * position, and that entry's caption when the new caption is empty.
   */
  lemma SlotKeepsExisting(s: Slot, corr: Image, uploaded: Option<string>)
    requires s.image.None? && Truthy(corr.url)
    ensures EditSlotEntry(s, Some(corr), uploaded)
      == Some(Image(corr.url, false, if s.caption != "" then Some(s.caption) else if Truthy(corr.caption) then corr.caption else None))
  {
  }

  /** A slot with no new file and no url-bearing existing entry keeps only a typed caption. */
  lemma SlotWithoutUrl(s: Slot, corr: Option<Image>, uploaded: Option<string>)
    requires s.image.None? && (corr.None? || !Truthy(corr.value.url))
    ensures EditSlotEntry(s, corr, uploaded) == if s.caption != "" then Some(Image(None, false, Some(s.caption))) else None
  {
  }

  function OptSeq(o: Option<Image>): seq<Image> {
    if o.Some? then [o.value] else []
  }

  /** What the supporting loop pushes from slot i on when no step gives up. */
  function EditEntries(slots: seq<Slot>, existing: seq<Image>, i: nat, upload: File -> Option<string>): seq<Image>
    requires i <= |slots|
    decreases |slots| - i
  {
    if i == |slots| then []
    else
      OptSeq(EditSlotEntry(slots[i], Corresponding(existing, i), Uploaded(slots[i], upload)))
      + EditEntries(slots, existing, i + 1, upload)
  }

  predicate NoFilesFrom(slots: seq<Slot>, i: nat) {
    forall k :: i <= k < |slots| ==> slots[k].image.None?
  }

  /** Every new file from slot i on is valid and its upload succeeds. */
  predicate FilesStored(slots: seq<Slot>, i: nat, upload: File -> Option<string>) {
    forall k :: i <= k < |slots| && slots[k].image.Some? ==>
      FileOk(slots[k].image.value) && upload(slots[k].image.value).Some?
  }

  /**
   * A new file adds to the image count unless it replaces an existing entry
   * that already has a url.
   */
  predicate AddsImage(s: Slot, corr: Option<Image>) {
    s.image.Some? && (corr.None? || !Truthy(corr.value.url))
  }

  /** How many slots from i on add to the image count. */
  function NewlyCounted(slots: seq<Slot>, existing: seq<Image>, i: nat): (n: nat)
    requires i <= |slots|
    ensures n <= |slots| - i
    ensures NoFilesFrom(slots, i) ==> n == 0
    ensures n == 0 ==> forall k :: i <= k < |slots| ==> !AddsImage(slots[k], Corresponding(existing, k))
    decreases |slots| - i
  {
    if i == |slots| then 0
    else (if AddsImage(slots[i], Corresponding(existing, i)) then 1 else 0) + NewlyCounted(slots, existing, i + 1)
  }

  /**
   * The supporting-item loop of the edit action from slot i on, with `total`
   * images counted so far; `existing` holds the non-main entries left by the
   * main-image step.
   */
  function EditSlots(slots: seq<Slot>, existing: seq<Image>, i: nat, total: nat, upload: File -> Option<string>)
    : (r: Result<(seq<Image>, nat), Rejection>)
    requires i <= |slots|
    ensures r.Ok? ==> r.value.0 == EditEntries(slots, existing, i, upload)
    ensures r.Ok? ==> SupportingShape(r.value.0)
    ensures r.Ok? ==> forall k :: i <= k < |slots| && slots[k].image.Some? ==>
      FileOk(slots[k].image.value) && upload(slots[k].image.value).Some?
    ensures r.Ok? ==> total <= r.value.1
    ensures r.Ok? && NoFilesFrom(slots, i) ==> r.value.1 == total
    ensures r.Ok? && !NoFilesFrom(slots, i) ==> r.value.1 <= MaxTotalImages
    ensures r.Err? ==> (r.error == TooManyImages
      || ((r.error.InvalidSupportingImage? || r.error.SupportingUploadFailed?) && i < r.error.item <= |slots|))
    ensures r.Ok? ==> r.value.1 == total + NewlyCounted(slots, existing, i)
    ensures FilesStored(slots, i, upload) ==>
      (r.Ok? <==> NoFilesFrom(slots, i) || total + NewlyCounted(slots, existing, i) <= MaxTotalImages)
    ensures FilesStored(slots, i, upload) && r.Err? ==> r.error == TooManyImages
    ensures r.Err? ==> EditFailure(slots, i, r.error, upload)
    decreases |slots| - i
  {
    if i == |slots| then Ok(([], total))
    else
      var s := slots[i];
      var corr := Corresponding(existing, i);
      var step := EditSlotStep(s, corr, i, total, upload);
      if step.Err? then Err(step.error)
      else
        var rest := EditSlots(slots, existing, i + 1, step.value, upload);
        if rest.Err? then
          EditFailureStep(slots, i, rest.error, upload);
          rest
        else
          var pushed := OptSeq(EditSlotEntry(s, corr, Uploaded(s, upload)));
          SupportingConcat(pushed, rest.value.0);
          NoFilesStep(slots, i);
          Ok((pushed + rest.value.0, rest.value.1))
  }

  /**
   * The checks of one turn of the edit loop: a file must be valid, fit the
   * limit (counting it only when it adds an image) and be stored; the result
   * is the new image count.
   */
  function EditSlotStep(s: Slot, corr: Option<Image>, i: nat, total: nat, upload: File -> Option<string>)
    : (r: Result<nat, Rejection>)
    ensures s.image.None? ==> r == Ok(total)
    ensures s.image.Some? && r.Ok? ==>
      && FileOk(s.image.value) && upload(s.image.value).Some?
      && r.value == total + (if AddsImage(s, corr) then 1 else 0) && r.value <= MaxTotalImages
    ensures (&& s.image.Some? && FileOk(s.image.value) && upload(s.image.value).Some?
             && total + (if AddsImage(s, corr) then 1 else 0) <= MaxTotalImages) ==> r.Ok?
    ensures r.Err? ==> s.image.Some?
    ensures r == Err(InvalidSupportingImage(i + 1)) <==> s.image.Some? && !FileOk(s.image.value)
    ensures r == Err(SupportingUploadFailed(i + 1)) ==> FileOk(s.image.value) && upload(s.image.value).None?
    ensures r.Err? ==> r.error in {TooManyImages, InvalidSupportingImage(i + 1), SupportingUploadFailed(i + 1)}
  {
    if s.image.None? then Ok(total)
    else if !FileOk(s.image.value) then Err(InvalidSupportingImage(i + 1))
    else
      var count := if corr.None? || !Truthy(corr.value.url) then total + 1 else total;
      if count > MaxTotalImages then Err(TooManyImages)
      else if upload(s.image.value).None? then Err(SupportingUploadFailed(i + 1))
      else Ok(count)
  }

  /**
   * A supporting-image error of the edit loop from slot i on names the first
   * slot that fails (items count from 1): an invalid file, or a valid file whose
   * upload fails, with every earlier file from slot i on valid and stored.
   */
  predicate EditFailure(slots: seq<Slot>, i: nat, e: Rejection, upload: File -> Option<string>) {
    && (e.InvalidSupportingImage? ==>
          && i < e.item <= |slots|
          && slots[e.item - 1].image.Some? && !FileOk(slots[e.item - 1].image.value)
          && StoredBetween(slots, i, e.item - 1, upload))
    && (e.SupportingUploadFailed? ==>
          && i < e.item <= |slots|
          && slots[e.item - 1].image.Some? && FileOk(slots[e.item - 1].image.value)
          && upload(slots[e.item - 1].image.value).None?
          && StoredBetween(slots, i, e.item - 1, upload))
  }

  /** A first failure after slot i is the first failure from slot i on when slot i is stored. */
  lemma EditFailureStep(slots: seq<Slot>, i: nat, e: Rejection, upload: File -> Option<string>)
    requires i < |slots|
    requires StoredBetween(slots, i, i + 1, upload)
    requires EditFailure(slots, i + 1, e, upload)
    ensures EditFailure(slots, i, e, upload)
  {
  }

  /** Supporting entries: not main, and with a url or a caption. */
  predicate SupportingShape(s: seq<Image>) {
    forall k :: 0 <= k < |s| ==> !s[k].isMain && UrlOrCaption(s[k])
  }

  lemma SupportingConcat(a: seq<Image>, b: seq<Image>)
    requires SupportingShape(a) && SupportingShape(b)
    ensures SupportingShape(a + b)
  {
    assert forall k :: |a| <= k < |a + b| ==> (a + b)[k] == b[k - |a|];
  }

  lemma NoFilesStep(slots: seq<Slot>, i: nat)
    requires i < |slots|
    ensures NoFilesFrom(slots, i) <==> slots[i].image.None? && NoFilesFrom(slots, i + 1)
  {
  }

  /** The merge step: the main entries of the existing list, in order, followed by the entries the supporting loop pushed. */
  function Merge(images: seq<Image>, supporting: seq<Image>): seq<Image> {
    Filter(images, IsMain) + supporting
  }

  /** After the merge the main entries come first, and every other entry has a url or a caption. */
  lemma MergeOrder(images: seq<Image>, supporting: seq<Image>)
    requires SupportingShape(supporting)
    ensures var m := Merge(images, supporting);
      forall i, j :: 0 <= i < j < |m| && m[j].isMain ==> m[i].isMain
    ensures var m := Merge(images, supporting);
      forall i :: 0 <= i < |m| && !m[i].isMain ==> UrlOrCaption(m[i])
  {
    ConcatPartition(Filter(images, IsMain), supporting, IsMain, UrlOrCaption);
  }

  /**
   * When no main entry has a url in the sense of `present`, the first entry
   * that has one becomes main; nothing else changes.
   */
  function Promote(list: seq<Image>, present: Option<string> -> bool): (r: seq<Image>)
    ensures |r| == |list|
    ensures forall k :: 0 <= k < |r| ==>
      r[k].url == list[k].url && r[k].caption == list[k].caption && (list[k].isMain ==> r[k].isMain)
    ensures forall k :: 0 <= k < |r| && r[k] != list[k] ==>
      (forall j :: 0 <= j < k ==> r[j] == list[j] && !present(list[j].url))
      && (forall j :: 0 <= j < |list| ==> !(list[j].isMain && present(list[j].url)))
      && present(list[k].url)
    ensures (exists k :: 0 <= k < |list| && present(list[k].url)) ==>
      exists k :: 0 <= k < |r| && r[k].isMain && present(r[k].url)
  {
    var mainWithUrl := FirstWhere(list, (e: Image) => e.isMain && present(e.url));
    if |list| > 0 && mainWithUrl.None? then
      var first := FirstWhere(list, (e: Image) => present(e.url));
      if first.None? then list
      else
        var k := first.value;
        var r := list[k := list[k].(isMain := true)];
        assert r[k].isMain && present(r[k].url);
        r
    else
      list
  }

  /** The final clean-up: the entries with a non-empty url or caption, in their order, each as often as it occurs. */
  function Clean(list: seq<Image>): (r: seq<Image>)
    ensures forall k :: 0 <= k < |r| ==> UrlOrCaption(r[k])
    ensures forall e :: e in list && UrlOrCaption(e) ==> e in r
    ensures forall k :: 0 <= k < |r| ==> r[k] in list
    ensures IsSubsequence(r, list)
  {
    Filter(list, UrlOrCaption)
  }

  /** Cleaning works entry by entry: a split list cleans to the two cleaned halves, in order. */
  lemma CleanAppend(a: seq<Image>, b: seq<Image>)
    ensures Clean(a + b) == Clean(a) + Clean(b)
  {
    FilterAppend(a, b, UrlOrCaption);
  }

  /** A single entry survives the clean-up exactly when it has a url or a caption. */
  lemma CleanOne(e: Image)
    ensures Clean([e]) == if UrlOrCaption(e) then [e] else []
  {
  }

  /** Lines 392-401 of the edit action as written: merge, promote on `url !== null`, clean. */
  function FinaliseAsWritten(images: seq<Image>, supporting: seq<Image>): (r: seq<Image>)
    ensures forall k :: 0 <= k < |r| ==> UrlOrCaption(r[k])
  {
    Clean(Promote(Merge(images, supporting), NotNull))
  }

  /**
   * The promotion guard tests `url !== null` but the final filter tests
   * truthiness, so an empty-string url on the only main entry stops the
   * promotion and is then filtered away: the stored list has a url-bearing
   * entry and no main entry at all.
   */
  lemma EmptyUrlMainDropped(u: string)
    requires u != ""
    ensures FinaliseAsWritten([Image(Some(""), true, None)], [Image(Some(u), false, None)])
      == [Image(Some(u), false, None)]
  {
    var x, y := Image(Some(""), true, None), Image(Some(u), false, None);
    MergeMainAndOne(x, y);
    assert Promote([x, y], NotNull) == [x, y];
    CleanDropsFirst(x, y);
  }

  lemma MergeMainAndOne(x: Image, y: Image)
    requires x.isMain
    ensures Merge([x], [y]) == [x, y]
  {
    assert [x][1..] == [];
  }

  lemma CleanDropsFirst(x: Image, y: Image)
    requires !UrlOrCaption(x) && UrlOrCaption(y)
    ensures Clean([x, y]) == [y]
  {
    assert [x, y][1..] == [y] && [y][1..] == [];
  }

  /** The merge with the promotion guard and search stated in the same terms as the final filter. */
  function FinaliseIntended(images: seq<Image>, supporting: seq<Image>): (r: seq<Image>)
    ensures forall k :: 0 <= k < |r| ==> UrlOrCaption(r[k])
    ensures (exists k :: 0 <= k < |r| && Truthy(r[k].url)) ==>
      exists k :: 0 <= k < |r| && r[k].isMain && Truthy(r[k].url)
  {
    var p := Promote(Merge(images, supporting), Truthy);
    CleanKeepsUrlMain(p);
    Clean(p)
  }

  /** The final filter keeps every url-bearing entry, so a url-bearing main entry survives it. */
  lemma CleanKeepsUrlMain(p: seq<Image>)
    requires (exists k :: 0 <= k < |p| && Truthy(p[k].url)) ==> exists k :: 0 <= k < |p| && p[k].isMain && Truthy(p[k].url)
    ensures var r := Clean(p);
      (exists k :: 0 <= k < |r| && Truthy(r[k].url)) ==> exists k :: 0 <= k < |r| && r[k].isMain && Truthy(r[k].url)
  {
    var r := Clean(p);
    if exists k :: 0 <= k < |r| && Truthy(r[k].url) {
      var k :| 0 <= k < |r| && Truthy(r[k].url);
      assert r[k] in p;
      var j :| 0 <= j < |p| && p[j].isMain && Truthy(p[j].url);
      assert p[j] in r;
    }
  }

  /** On the input above, the intended merge keeps the url-bearing entry and makes it main. */
  lemma IntendedPromotesAfterEmptyUrl(u: string)
    requires u != ""
    ensures FinaliseIntended([Image(Some(""), true, None)], [Image(Some(u), false, None)])
      == [Image(Some(u), true, None)]
  {
    var x, y := Image(Some(""), true, None), Image(Some(u), false, None);
    MergeMainAndOne(x, y);
    assert Promote([x, y], Truthy) == [x, y.(isMain := true)];
    CleanDropsFirst(x, y.(isMain := true));
  }

  /**
   * `editLogAction` up to the merge: the validated fields, the existing images
   * after the main-image step, and the supporting entries; or the first reason
   * it gives up.
   */
  function EditParts(form: Form, parse: string -> Option<seq<Image>>, upload: File -> Option<string>)
    : (r: Result<(Fields, seq<Image>, seq<Image>), Rejection>)
    ensures IdMissing(form) ==> r == Err(MissingId)
    ensures !IdMissing(form) && !SchemaValid(form) ==> r == Err(ValidationFailed)
    ensures r.Ok? ==> !IdMissing(form) && Validate(form) == Ok(r.value.0)
    ensures r.Ok? ==> forall i :: 0 <= i < |r.value.2| ==> !r.value.2[i].isMain && UrlOrCaption(r.value.2[i])
    ensures !IdMissing(form) && SchemaValid(form) && ExistingImages(form.existingImageUrls, parse).Err? ==>
      r == Err(BadExistingImages)
    ensures r.Ok? ==>
      && ExistingImages(form.existingImageUrls, parse).Ok?
      && Filter(r.value.1, NotMain) == Filter(ExistingImages(form.existingImageUrls, parse).value, NotMain)
    ensures r.Ok? ==> r.value.2 == EditEntries(r.value.0.slots, Filter(r.value.1, NotMain), 0, upload)
  {
    if IdMissing(form) then Err(MissingId)
    else
      var fields := Validate(form);
      if fields.Err? then Err(fields.error)
      else
        var f := fields.value;
        var existing := ExistingImages(form.existingImageUrls, parse);
        if existing.Err? then Err(existing.error)
        else
          var images := existing.value;
          var total := |Filter(images, (e: Image) => NotNull(e.url))|;
          var main := EditMain(images, total, NonEmptyFile(form.mainImage), f.mainCaption, upload);
          if main.Err? then Err(main.error)
          else
            var supporting := EditSlots(f.slots, Filter(main.value.0, NotMain), 0, main.value.1, upload);
            if supporting.Err? then Err(supporting.error)
            else Ok((f, main.value.0, supporting.value.0))
  }

  /**
   * `editLogAction` up to the database write, as written: the record it would
   * store, or the first reason it gives up. An empty-string url can leave the
   * stored list without a main entry (`EmptyUrlMainDropped`).
   */
  function EditImages(form: Form, parse: string -> Option<seq<Image>>, upload: File -> Option<string>)
    : (r: Result<Saved, Rejection>)
    ensures IdMissing(form) ==> r == Err(MissingId)
    ensures !IdMissing(form) && !SchemaValid(form) ==> r == Err(ValidationFailed)
    ensures r.Ok? ==> forall k :: 0 <= k < |r.value.imageUrls| ==> UrlOrCaption(r.value.imageUrls[k])
    ensures r.Ok? ==> r.value.title == form.title.value.text && r.value.description == form.description.value.text
    ensures r.Ok? <==> EditParts(form, parse, upload).Ok?
    ensures r.Err? ==> r.error == EditParts(form, parse, upload).error
    ensures r.Ok? ==> Validate(form).Ok? && r.value.relatedLogs == Validate(form).value.relatedLogIds
    ensures r.Ok? ==>
      var parts := EditParts(form, parse, upload).value;
      r.value.imageUrls == FinaliseAsWritten(parts.1, parts.2)
  {
    var parts := EditParts(form, parse, upload);
    if parts.Err? then Err(parts.error)
    else
      var f := parts.value.0;
      Ok(Saved(f.title, f.description, FinaliseAsWritten(parts.value.1, parts.value.2), f.relatedLogIds))
  }

  /** The edit action with the intended final step: a stored list with a url always has a main entry with a url. */
  function EditImagesIntended(form: Form, parse: string -> Option<seq<Image>>, upload: File -> Option<string>)
    : (r: Result<Saved, Rejection>)
    ensures IdMissing(form) ==> r == Err(MissingId)
    ensures !IdMissing(form) && !SchemaValid(form) ==> r == Err(ValidationFailed)
    ensures r.Ok? ==> forall k :: 0 <= k < |r.value.imageUrls| ==> UrlOrCaption(r.value.imageUrls[k])
    ensures r.Ok? && (exists k :: 0 <= k < |r.value.imageUrls| && Truthy(r.value.imageUrls[k].url)) ==>
      exists k :: 0 <= k < |r.value.imageUrls| && r.value.imageUrls[k].isMain && Truthy(r.value.imageUrls[k].url)
    ensures r.Ok? ==> r.value.title == form.title.value.text && r.value.description == form.description.value.text
    ensures r.Ok? <==> EditParts(form, parse, upload).Ok?
    ensures r.Err? ==> r.error == EditParts(form, parse, upload).error
    ensures r.Ok? ==> Validate(form).Ok? && r.value.relatedLogs == Validate(form).value.relatedLogIds
    ensures r.Ok? ==>
      var parts := EditParts(form, parse, upload).value;
      r.value.imageUrls == FinaliseIntended(parts.1, parts.2)
  {
    var parts := EditParts(form, parse, upload);
    if parts.Err? then Err(parts.error)
    else
      var f := parts.value.0;
      Ok(Saved(f.title, f.description, FinaliseIntended(parts.value.1, parts.value.2), f.relatedLogIds))
  }

  /** No entry of the list has an empty-string url, the one value on which `url !== null` and truthiness part. */
  predicate NoEmptyUrl(list: seq<Image>) {
    forall k :: 0 <= k < |list| ==> list[k].url != Some("")
  }

  /** `findIndex` with two tests that agree on every element finds the same position. */
  lemma FirstWhereCongruent(s: seq<Image>, p: Image -> bool, q: Image -> bool)
    requires forall k :: 0 <= k < |s| ==> p(s[k]) == q(s[k])
    ensures FirstWhere(s, p) == FirstWhere(s, q)
  {
    var a, b := FirstWhere(s, p), FirstWhere(s, q);
    if a.Some? && b.Some? {
      assert !(a.value < b.value) && !(b.value < a.value);
    }
  }

  /** Promotion depends on the test only through its answers on the list's urls. */
  lemma PromoteCongruent(list: seq<Image>, p: Option<string> -> bool, q: Option<string> -> bool)
    requires forall k :: 0 <= k < |list| ==> p(list[k].url) == q(list[k].url)
    ensures Promote(list, p) == Promote(list, q)
  {
    FirstWhereCongruent(list, (e: Image) => e.isMain && p(e.url), (e: Image) => e.isMain && q(e.url));
    FirstWhereCongruent(list, (e: Image) => p(e.url), (e: Image) => q(e.url));
  }

  /**
   * Without an empty-string url in the merged list the as-written and the
   * intended final steps store the same list; so they differ only when some
   * entry has url "", as in `EmptyUrlMainDropped`.
   */
  lemma FinaliseAgreeWithoutEmptyUrl(images: seq<Image>, supporting: seq<Image>)
    requires NoEmptyUrl(Merge(images, supporting))
    ensures FinaliseAsWritten(images, supporting) == FinaliseIntended(images, supporting)
  {
    PromoteCongruent(Merge(images, supporting), NotNull, Truthy);
  }

  /**
   * An empty-string url changes the outcome even when no main entry has one:
   * beside a caption-only main entry, `url !== null` promotes a captioned
   * entry with url "" where truthiness promotes the entry with a real url.
   */
  lemma EmptyUrlPromotedBeforeRealUrl(a: Image, b: Image, c: Image)
    requires a.isMain && a.url.None? && Truthy(a.caption)
    requires !b.isMain && b.url == Some("") && Truthy(b.caption)
    requires !c.isMain && Truthy(c.url)
    ensures FinaliseAsWritten([a], [b, c]) == [a, b.(isMain := true), c]
    ensures FinaliseIntended([a], [b, c]) == [a, b, c.(isMain := true)]
  {
    AsWrittenPromotesEmptyUrl(a, b, c);
    IntendedPromotesRealUrl(a, b, c);
  }

  lemma AsWrittenPromotesEmptyUrl(a: Image, b: Image, c: Image)
    requires a.isMain && a.url.None? && Truthy(a.caption)
    requires !b.isMain && b.url == Some("") && Truthy(b.caption)
    requires !c.isMain && Truthy(c.url)
    ensures FinaliseAsWritten([a], [b, c]) == [a, b.(isMain := true), c]
  {
    MergeMainAndTwo(a, b, c);
    PromotedClean([a, b, c], NotNull, 1);
    assert [a, b, c][1 := b.(isMain := true)] == [a, b.(isMain := true), c];
  }

  lemma IntendedPromotesRealUrl(a: Image, b: Image, c: Image)
    requires a.isMain && a.url.None? && Truthy(a.caption)
    requires !b.isMain && b.url == Some("") && Truthy(b.caption)
    requires !c.isMain && Truthy(c.url)
    ensures FinaliseIntended([a], [b, c]) == [a, b, c.(isMain := true)]
  {
    MergeMainAndTwo(a, b, c);
    PromotedClean([a, b, c], Truthy, 2);
    assert [a, b, c][2 := c.(isMain := true)] == [a, b, c.(isMain := true)];
  }

  /** Promotion at `k` of a list whose entries all have a url or caption, followed by the final filter. */
  lemma PromotedClean(list: seq<Image>, present: Option<string> -> bool, k: nat)
    requires k < |list| && present(list[k].url)
    requires forall j :: 0 <= j < k ==> !present(list[j].url)
    requires forall j :: 0 <= j < |list| ==> !(list[j].isMain && present(list[j].url))
    requires forall j :: 0 <= j < |list| ==> UrlOrCaption(list[j])
    ensures Clean(Promote(list, present)) == list[k := list[k].(isMain := true)]
  {
    PromoteAt(list, present, k);
    FilterAll(list[k := list[k].(isMain := true)], UrlOrCaption);
  }

  lemma MergeMainAndTwo(x: Image, y: Image, z: Image)
    requires x.isMain
    ensures Merge([x], [y, z]) == [x, y, z]
  {
    assert [x][1..] == [];
  }

  /** With no main entry passing the test, promotion flags the first entry whose url passes it. */
  lemma PromoteAt(list: seq<Image>, present: Option<string> -> bool, k: nat)
    requires k < |list| && present(list[k].url)
    requires forall j :: 0 <= j < k ==> !present(list[j].url)
    requires forall j :: 0 <= j < |list| ==> !(list[j].isMain && present(list[j].url))
    ensures Promote(list, present) == list[k := list[k].(isMain := true)]
  {
    var r := Promote(list, present);
    var i :| 0 <= i < |r| && r[i].isMain && present(r[i].url);
    assert r[i] != list[i];
    assert i == k;
    forall j | 0 <= j < |r| && j != k
      ensures r[j] == list[j]
    {
    }
    assert r[k] == list[k].(isMain := true);
  }

  /** A main entry whose url passes the test leaves the list as it is. */
  lemma PromoteKeeps(list: seq<Image>, present: Option<string> -> bool, m: nat)
    requires m < |list| && list[m].isMain && present(list[m].url)
    ensures Promote(list, present) == list
  {
    var r := Promote(list, present);
    forall i | 0 <= i < |r|
      ensures r[i] == list[i]
    {
      assert list[m].isMain && present(list[m].url);
    }
  }

  /** An empty-string url alone does not part them: beside a main entry with a url, both steps keep the list. */
  lemma EmptyUrlBesideUrlMain(a: Image, b: Image)
    requires a.isMain && Truthy(a.url)
    requires !b.isMain && b.url == Some("") && Truthy(b.caption)
    ensures FinaliseAsWritten([a], [b]) == [a, b]
    ensures FinaliseIntended([a], [b]) == [a, b]
  {
    MergeMainAndOne(a, b);
    PromoteKeeps([a, b], NotNull, 0);
    PromoteKeeps([a, b], Truthy, 0);
    FilterAll([a, b], UrlOrCaption);
  }

  /**
   * The two edit actions give up in the same cases, store the same title,
   * description and related ids, and store the same images unless the merged
   * list holds an empty-string url.
   */
  lemma EditVariantsAgree(form: Form, parse: string -> Option<seq<Image>>, upload: File -> Option<string>)
    ensures var a, b := EditImages(form, parse, upload), EditImagesIntended(form, parse, upload);
      && (a.Ok? <==> b.Ok?)
      && (a.Err? ==> a == b)
      && (a.Ok? ==> a.value.title == b.value.title && a.value.description == b.value.description
                    && a.value.relatedLogs == b.value.relatedLogs)
    ensures var parts := EditParts(form, parse, upload);
      parts.Ok? && NoEmptyUrl(Merge(parts.value.1, parts.value.2)) ==>
      EditImages(form, parse, upload) == EditImagesIntended(form, parse, upload)
  {
    var parts := EditParts(form, parse, upload);
    if parts.Ok? && NoEmptyUrl(Merge(parts.value.1, parts.value.2)) {
      FinaliseAgreeWithoutEmptyUrl(parts.value.1, parts.value.2);
    }
  }
}

=== FILE: auth_context.dfy ===
/**
 * The client-side route guard of the authentication provider: when a signed-out
 * visitor is sent to the login page, and when the full-page loader replaces the page.
 */
module AuthContext {
  import opened JsStrings

  /** Paths a signed-out visitor may always see. */
  predicate OpenPath(pathname: string) {
    pathname == "/login" || pathname == "/public" || StartsWith(pathname, "/_next/")
  }

  /** A log detail page (not its edit page), readable without signing in. */
  predicate LogDetailPath(pathname: string) {
    StartsWith(pathname, "/logs/") && !EndsWith(pathname, "/edit")
  }

  /** The effect's decision to push "/login". */
  function RedirectsToLogin(loading: bool, signedIn: bool, pathname: string): (r: bool)
    ensures r ==> !loading && !signedIn
    ensures r ==> pathname != "/login" && pathname != "/public"
    ensures !loading && !signedIn && !OpenPath(pathname) && !StartsWith(pathname, "/logs/") ==> r
  {
    if !loading && !signedIn && pathname != "/login" && pathname != "/public" && !StartsWith(pathname, "/_next/") then
      !(StartsWith(pathname, "/logs/") && !EndsWith(pathname, "/edit"))
    else false
  }

  /** The guard decides exactly on signed-out, settled visits to guarded paths. */
  lemma RedirectExactly(loading: bool, signedIn: bool, pathname: string)
    ensures RedirectsToLogin(loading, signedIn, pathname)
        <==> !loading && !signedIn && !OpenPath(pathname) && !LogDetailPath(pathname)
  {
  }

  /** A log's detail page is open, but its edit page sends a signed-out visitor to log in. */
  lemma LogPages(x: string)
    ensures !RedirectsToLogin(false, false, "/logs/" + x) <==> !EndsWith("/logs/" + x, "/edit")
    ensures RedirectsToLogin(false, false, "/logs/" + x + "/edit")
  {
    assert StartsWith("/logs/" + x, "/logs/");
    var p := "/logs/" + x + "/edit";
    assert p[..6] == "/logs/";
    assert p[|p| - 5..] == "/edit";
    assert p != "/login" && p != "/public" by { assert |p| >= 11; }
    assert !StartsWith(p, "/_next/") by { assert p[1] == 'l'; }
    assert "/logs/" + x != "/login" && "/logs/" + x != "/public" by {
      assert ("/logs/" + x)[..6] == "/logs/";
    }
    assert !StartsWith("/logs/" + x, "/_next/") by { assert ("/logs/" + x)[1] == 'l'; }
  }

  /** The full-page loader shows while authentication is loading, except on the public list and on paths under "/logs/". */
  function ShowFullPageLoader(loading: bool, pathname: string): (r: bool)
    ensures r ==> loading
    ensures r ==> pathname != "/public" && !StartsWith(pathname, "/logs/")
    ensures loading && pathname != "/public" && !StartsWith(pathname, "/logs/") ==> r
  {
    loading && pathname != "/public" && !StartsWith(pathname, "/logs/")
  }

  /** Whenever the loader shows, the guard holds back; a path under "/logs/" never gets the loader. */
  lemma LoaderAndGuardExclusive(signedIn: bool, pathname: string)
    ensures ShowFullPageLoader(true, pathname) ==> !RedirectsToLogin(true, signedIn, pathname)
    ensures StartsWith(pathname, "/logs/") ==> !ShowFullPageLoader(true, pathname)
  {
  }
}

=== FILE: firestore_utils.dfy ===
/**
 * The shared log loader and the related-log search of src/lib/firestoreUtils.ts.
 *
 * A snapshot of the `logs` collection (already ordered by `createdAt`
 * descending) is normalised document by document; a non-blank search term then
 * selects logs in two passes: direct matches on title or description first,
 * then logs that link to a direct match or whose resolved related titles
 * mention the term.
 */
module FirestoreUtils {
  import opened Results
  import opened JsStrings
  import opened Seqs
  import opened LogModel

  const UntitledLog := "Tanpa Judul"
  /** Related-title placeholders: untitled, missing, and failed lookups. */
  const RelatedTitlePolicy := Placeholders("Log Tanpa Judul", "Log Tidak Ditemukan", "Gagal Mengambil Judul")
  const SetupMessage := "Firebase (Firestore) tidak tersedia. Pastikan emulator berjalan atau koneksi valid dan indeks telah dibuat jika diperlukan."
  /** Fallback message of `getLogs` for an error without a message. */
  const LoadFallback := "Terjadi kesalahan saat mengambil log."
  /** Fallback message of `searchLogs` for an error without a message. */
  const SearchFallback := "Terjadi kesalahan saat mencari log."

  // ---------------------------------------------------------------------------
  // Normalisation of one document
  // ---------------------------------------------------------------------------

  /**
   * `processLogDoc`: fills in defaults and resolves one related title per
   * filled related id. Timestamps that are missing take the value `now`.
   */
  function ProcessLogDoc(snap: DocSnap, lookup: string -> Fetch, now: int): (r: LogEntry)
    ensures r.id == snap.id
    ensures r.title != "" && r.title == OrElse(snap.data.title, "Tanpa Judul")
    ensures r.description == OrElse(snap.data.description, "")
    ensures r.isPublic <==> snap.data.isPublic == Some(true)
    ensures r.ownerId == OrElse(snap.data.ownerId, "")
    ensures r.relatedLogIds == OrEmpty(snap.data.relatedLogIds)
    ensures |r.relatedLogTitles| == |FilledIds(r.relatedLogIds)| <= |r.relatedLogIds|
    ensures forall i :: 0 <= i < |r.relatedLogTitles| ==>
      var f := lookup(FilledIds(r.relatedLogIds)[i]);
      && (f.Found? ==> r.relatedLogTitles[i] == OrElse(f.doc.title, "Log Tanpa Judul"))
      && (f.Missing? ==> r.relatedLogTitles[i] == "Log Tidak Ditemukan")
      && (f.Failed? ==> r.relatedLogTitles[i] == "Gagal Mengambil Judul")
  {
    var d := snap.data;
    LogEntry(
      snap.id,
      OrElse(d.title, UntitledLog),
      OrElse(d.description, ""),
      OrEmpty(d.imageUrls),
      if Truthy(d.youtubeLink) then d.youtubeLink else None,
      OrEmpty(d.relatedLogIds),
      ResolveTitles(OrEmpty(d.relatedLogIds), lookup, RelatedTitlePolicy),
      d.isPublic == Some(true),
      OrElse(d.ownerId, ""),
      if d.createdAt.Some? then d.createdAt.value else now,
      if d.updatedAt.Some? then d.updatedAt.value else now)
  }

  /** Every document of the snapshot, normalised, in snapshot order. */
  function ProcessAll(docs: seq<DocSnap>, lookup: string -> Fetch, now: int): (r: seq<LogEntry>)
    ensures |r| == |docs|
    ensures forall i :: 0 <= i < |r| ==> r[i] == ProcessLogDoc(docs[i], lookup, now)
    ensures forall i :: 0 <= i < |r| ==> r[i].id == docs[i].id && r[i].title != ""
  {
    seq(|docs|, i requires 0 <= i < |docs| => ProcessLogDoc(docs[i], lookup, now))
  }

  /** Each document is processed on its own: splitting the snapshot splits the result. */
  lemma ProcessAllAppend(a: seq<DocSnap>, b: seq<DocSnap>, lookup: string -> Fetch, now: int)
    ensures ProcessAll(a + b, lookup, now) == ProcessAll(a, lookup, now) + ProcessAll(b, lookup, now)
  {
    var whole, parts := ProcessAll(a + b, lookup, now), ProcessAll(a, lookup, now) + ProcessAll(b, lookup, now);
    forall i | 0 <= i < |whole|
      ensures whole[i] == parts[i]
    {
      if i < |a| {
        assert (a + b)[i] == a[i];
      } else {
        assert (a + b)[i] == b[i - |a|];
      }
    }
  }

  // ---------------------------------------------------------------------------
  // Error classification
  // ---------------------------------------------------------------------------

  /** Codes that indicate a missing emulator, connection or index. */
  predicate IsSetupCode(code: Option<string>) {
    Truthy(code) && code.value in ["unavailable", "failed-precondition", "unimplemented"]
  }

  /** The catch blocks of `getLogs` and `searchLogs`, which differ only in `fallback`. */
  function ClassifyError(e: BackendError, fallback: string): (r: LoadError)
    ensures r.kind == FirebaseSetup <==> e.code in {Some("unavailable"), Some("failed-precondition"), Some("unimplemented")}
    ensures r.kind == FirebaseSetup ==> r.message == SetupMessage
    ensures r.kind == Generic ==> r.message == (if e.message != "" then e.message else fallback)
  {
    if IsSetupCode(e.code) then LoadError(SetupMessage, FirebaseSetup)
    else LoadError(OrElse(Some(e.message), fallback), Generic)
  }

  /** `getLogs`: the whole snapshot, normalised, or the classified read error. */
  function GetLogs(fetched: Result<seq<DocSnap>, BackendError>, lookup: string -> Fetch, now: int): (r: Result<seq<LogEntry>, LoadError>)
    ensures fetched.Ok? ==> r.Ok? && |r.value| == |fetched.value|
    ensures fetched.Ok? ==> forall i :: 0 <= i < |r.value| ==> r.value[i].id == fetched.value[i].id
    ensures fetched.Err? ==> r.Err? && r.error.message != ""
  {
    match fetched
    case Ok(docs) => Ok(ProcessAll(docs, lookup, now))
    case Err(e) => Err(ClassifyError(e, LoadFallback))
  }

  // ---------------------------------------------------------------------------
  // The two-pass search
  // ---------------------------------------------------------------------------

  /** Pass 1: the lower-cased title or description contains the (lower-cased) term. */
  predicate DirectMatch(log: LogEntry, term: string) {
    Contains(Lower(log.title), term) || Contains(Lower(log.description), term)
  }

  /** Pass 2: the log links to a pass-1 id, or a resolved related title contains the term. */
  predicate IndirectMatch(log: LogEntry, term: string, directIds: set<string>) {
    || (exists id :: id in log.relatedLogIds && id in directIds)
    || (exists t :: t in log.relatedLogTitles && Contains(Lower(t), term))
  }

  /** The criterion of one loop over the snapshot. */
  datatype Pass = DirectPass | IndirectPass(directIds: set<string>)

  predicate Admits(p: Pass, log: LogEntry, term: string) {
    match p
    case DirectPass => DirectMatch(log, term)
    case IndirectPass(ids) => IndirectMatch(log, term, ids)
  }

  /** The ids of the logs of the snapshot that match directly. */
  function DirectIds(all: seq<LogEntry>, term: string): set<string> {
    set l | l in all && l.id != "" && DirectMatch(l, term) :: l.id
  }

  /**
   * One loop of `searchLogs`: walk the logs in order and add each admitted log
   * whose id is non-empty and not yet in `added`, recording its id.
   */
  function Collect(logs: seq<LogEntry>, term: string, p: Pass, added: set<string>): (r: seq<LogEntry>)
    ensures forall i :: 0 <= i < |r| ==> r[i] in logs && r[i].id != "" && r[i].id !in added && Admits(p, r[i], term)
    ensures UniqueIds(r)
    ensures IsSubsequence(r, logs)
    decreases |logs|
  {
    if logs == [] then []
    else
      var l := logs[0];
      if l.id != "" && l.id !in added && Admits(p, l, term) then
        [l] + Collect(logs[1..], term, p, added + {l.id})
      else
        Collect(logs[1..], term, p, added)
  }

  /** A pass misses no admitted log: the id of each one with a fresh id ends up recorded. */
  lemma {:induction false} CollectCovers(logs: seq<LogEntry>, term: string, p: Pass, added: set<string>)
    ensures forall l :: l in logs && l.id != "" && l.id !in added && Admits(p, l, term) ==>
      l.id in IdSet(Collect(logs, term, p, added))
    decreases |logs|
  {
    if logs != [] {
      var l0 := logs[0];
      var rest := logs[1..];
      assert forall l :: l in logs ==> l == l0 || l in rest;
      if l0.id != "" && l0.id !in added && Admits(p, l0, term) {
        CollectCovers(rest, term, p, added + {l0.id});
        IdSetPrepend(l0, Collect(rest, term, p, added + {l0.id}));
      } else {
        CollectCovers(rest, term, p, added);
      }
    }
  }

  /** The pass-1 result. */
  function DirectPassResult(all: seq<LogEntry>, term: string): seq<LogEntry> {
    Collect(all, term, DirectPass, {})
  }

  /** The ids pass 1 added are exactly the ids of the direct matches. */
  lemma DirectPassIds(all: seq<LogEntry>, term: string)
    ensures IdSet(DirectPassResult(all, term)) == DirectIds(all, term)
  {
    var d := DirectPassResult(all, term);
    CollectCovers(all, term, DirectPass, {});
    forall x | x in IdSet(d) ensures x in DirectIds(all, term) {
      var l :| l in d && l.id == x;
      var i :| 0 <= i < |d| && d[i] == l;
    }
  }

  /** The pass-2 result: linked or mentioning logs whose id pass 1 did not add. */
  function IndirectPassResult(all: seq<LogEntry>, term: string): seq<LogEntry> {
    var ids := IdSet(DirectPassResult(all, term));
    Collect(all, term, IndirectPass(ids), ids)
  }

  /** No pass-2 log matches directly: a direct match with an id was already added by pass 1. */
  lemma IndirectNotDirect(all: seq<LogEntry>, term: string)
    ensures forall i :: 0 <= i < |IndirectPassResult(all, term)| ==> !DirectMatch(IndirectPassResult(all, term)[i], term)
    ensures forall i :: 0 <= i < |IndirectPassResult(all, term)| ==> IndirectMatch(IndirectPassResult(all, term)[i], term, DirectIds(all, term))
    ensures forall i :: 0 <= i < |IndirectPassResult(all, term)| ==> IndirectPassResult(all, term)[i].id !in IdSet(DirectPassResult(all, term))
  {
    var indirect := IndirectPassResult(all, term);
    DirectPassIds(all, term);
    forall i | 0 <= i < |indirect| ensures !DirectMatch(indirect[i], term) {
      var x := indirect[i];
      assert x in all && x.id != "" && x.id !in DirectIds(all, term);
      assert DirectMatch(x, term) ==> x.id in DirectIds(all, term);
    }
  }

  /**
   * The matching part of `searchLogs` for a lower-cased term: pass-1 matches
   * followed by pass-2 matches, where pass 2 tests links against the pass-1 ids
   * only (no chaining through other pass-2 matches).
   */
  function Matched(all: seq<LogEntry>, term: string): (r: seq<LogEntry>)
    ensures UniqueIds(r)
    ensures forall i :: 0 <= i < |r| ==> r[i] in all && r[i].id != ""
    ensures forall l :: l in all && l.id != "" && DirectMatch(l, term) ==> l.id in IdSet(r)
    ensures forall i, j :: 0 <= i < j < |r| && DirectMatch(r[j], term) ==> DirectMatch(r[i], term)
    ensures forall i :: 0 <= i < |r| && !DirectMatch(r[i], term) ==> IndirectMatch(r[i], term, DirectIds(all, term))
  {
    MatchedUnique(all, term);
    MatchedMembers(all, term);
    MatchedOrder(all, term);
    DirectPassResult(all, term) + IndirectPassResult(all, term)
  }

  /** Two id-unique lists with disjoint ids concatenate to an id-unique list. */
  lemma ConcatUnique(a: seq<LogEntry>, b: seq<LogEntry>)
    requires UniqueIds(a) && UniqueIds(b)
    requires forall i :: 0 <= i < |b| ==> b[i].id !in IdSet(a)
    ensures UniqueIds(a + b)
  {
    var r := a + b;
    forall i, j | 0 <= i < j < |r| ensures r[i].id != r[j].id {
      if i < |a| && |a| <= j {
        assert r[i] == a[i] && r[j] == b[j - |a|];
        assert a[i].id in IdSet(a);
      } else if i < |a| {
        assert r[i] == a[i] && r[j] == a[j];
      } else {
        assert r[i] == b[i - |a|] && r[j] == b[j - |a|];
      }
    }
  }

  /** Pass 2 never repeats an id of pass 1, so the concatenation is id-unique. */
  lemma MatchedUnique(all: seq<LogEntry>, term: string)
    ensures UniqueIds(DirectPassResult(all, term) + IndirectPassResult(all, term))
  {
    IndirectNotDirect(all, term);
    ConcatUnique(DirectPassResult(all, term), IndirectPassResult(all, term));
  }

  /** Every result comes from the snapshot with an id, and every direct match's id is there. */
  lemma MatchedMembers(all: seq<LogEntry>, term: string)
    ensures var r := DirectPassResult(all, term) + IndirectPassResult(all, term);
      && (forall i :: 0 <= i < |r| ==> r[i] in all && r[i].id != "")
      && (forall l :: l in all && l.id != "" && DirectMatch(l, term) ==> l.id in IdSet(r))
  {
    var direct := DirectPassResult(all, term);
    var indirect := IndirectPassResult(all, term);
    var r := direct + indirect;
    CollectCovers(all, term, DirectPass, {});
    forall i | 0 <= i < |r| ensures r[i] in all && r[i].id != "" {
      if i < |direct| { assert r[i] == direct[i]; } else { assert r[i] == indirect[i - |direct|]; }
    }
    forall l | l in all && l.id != "" && DirectMatch(l, term) ensures l.id in IdSet(r) {
      assert l.id in IdSet(direct);
      var m :| m in direct && m.id == l.id;
      assert m in r;
    }
  }

  /** Direct matches come first; every later log matches through pass 2. */
  lemma MatchedOrder(all: seq<LogEntry>, term: string)
    ensures var r := DirectPassResult(all, term) + IndirectPassResult(all, term);
      && (forall i, j :: 0 <= i < j < |r| && DirectMatch(r[j], term) ==> DirectMatch(r[i], term))
      && (forall i :: 0 <= i < |r| && !DirectMatch(r[i], term) ==> IndirectMatch(r[i], term, DirectIds(all, term)))
  {
    IndirectNotDirect(all, term);
    var D := DirectIds(all, term);
    ConcatPartition(DirectPassResult(all, term), IndirectPassResult(all, term),
      (l: LogEntry) => DirectMatch(l, term), (l: LogEntry) => IndirectMatch(l, term, D));
  }

  /**
   * `searchLogs`: a blank term yields the plain `getLogs` result; otherwise the
   * snapshot is normalised and searched with the lower-cased, untrimmed term.
   */
  function SearchLogs(term: string, fetched: Result<seq<DocSnap>, BackendError>, lookup: string -> Fetch, now: int): (r: Result<seq<LogEntry>, LoadError>)
    ensures IsBlank(term) ==> r == GetLogs(fetched, lookup, now)
    ensures !IsBlank(term) && fetched.Err? ==> r == Err(ClassifyError(fetched.error, SearchFallback))
    ensures !IsBlank(term) && fetched.Ok? ==> r.Ok? && r.value == Matched(ProcessAll(fetched.value, lookup, now), Lower(term))
  {
    TrimEmptyIffBlank(term);
    if Trim(term) == "" then GetLogs(fetched, lookup, now)
    else
      match fetched
      case Err(e) => Err(ClassifyError(e, SearchFallback))
      case Ok(docs) => Ok(Matched(ProcessAll(docs, lookup, now), Lower(term)))
  }

  // ---------------------------------------------------------------------------
  // The loops as written, and the order of each group
  // ---------------------------------------------------------------------------

  /** One step of `Collect`: the first log is kept exactly when the pass admits it. */
  lemma CollectStep(logs: seq<LogEntry>, term: string, p: Pass, added: set<string>)
    requires logs != []
    ensures var l := logs[0];
      Collect(logs, term, p, added)
      == if l.id != "" && l.id !in added && Admits(p, l, term)
         then [l] + Collect(logs[1..], term, p, added + {l.id})
         else Collect(logs[1..], term, p, added)
  {
  }

  /** The loop body of `RunPass` keeps its invariants. */
  lemma PassStep(all: seq<LogEntry>, i: int, term: string, p: Pass, start: set<string>,
                 found: seq<LogEntry>, added: set<string>, found': seq<LogEntry>, added': set<string>)
    requires 0 <= i < |all|
    requires added == start + IdSet(found)
    requires found + Collect(all[i..], term, p, added) == Collect(all, term, p, start)
    requires var l := all[i];
      if l.id != "" && l.id !in added && Admits(p, l, term)
      then found' == found + [l] && added' == added + {l.id}
      else found' == found && added' == added
    ensures added' == start + IdSet(found')
    ensures found' + Collect(all[i + 1..], term, p, added') == Collect(all, term, p, start)
  {
    var rest := all[i..];
    assert rest[0] == all[i] && rest[1..] == all[i + 1..];
    CollectStep(rest, term, p, added);
    var l := all[i];
    if l.id != "" && l.id !in added && Admits(p, l, term) {
      AppendAssoc(found, [l], Collect(all[i + 1..], term, p, added + {l.id}));
      IdSetAppend(found, l);
    }
  }

  lemma AppendAssoc(a: seq<LogEntry>, b: seq<LogEntry>, c: seq<LogEntry>)
    ensures a + (b + c) == (a + b) + c
  {
  }

  /**
   * One `for` loop of `searchLogs` over the snapshot, starting from the ids in
   * `start`; it returns the logs it pushed and the grown id set.
   */
  method RunPass(all: seq<LogEntry>, term: string, p: Pass, start: set<string>) returns (found: seq<LogEntry>, added: set<string>)
    ensures found == Collect(all, term, p, start)
    ensures added == start + IdSet(found)
  {
    found := [];
    added := start;
    var i := 0;
    while i < |all|
      invariant 0 <= i <= |all|
      invariant added == start + IdSet(found)
      invariant found + Collect(all[i..], term, p, added) == Collect(all, term, p, start)
    {
      found, added := PassBody(all, i, term, p, start, found, added);
      i := i + 1;
    }
  }

  /** The body of the `for` loop: push the log at position i if the pass admits it. */
  method PassBody(all: seq<LogEntry>, i: int, term: string, p: Pass, start: set<string>, found: seq<LogEntry>, added: set<string>)
    returns (found': seq<LogEntry>, added': set<string>)
    requires 0 <= i < |all|
    requires added == start + IdSet(found)
    requires found + Collect(all[i..], term, p, added) == Collect(all, term, p, start)
    ensures added' == start + IdSet(found')
    ensures found' + Collect(all[i + 1..], term, p, added') == Collect(all, term, p, start)
  {
    var log := all[i];
    found', added' := found, added;
    if log.id != "" && log.id !in added && Admits(p, log, term) {
      found', added' := found + [log], added + {log.id};
    }
    PassStep(all, i, term, p, start, found, added, found', added');
  }

  /**
   * The two `for` loops of `searchLogs` with their shared `addedLogIds` set;
   * they compute `Matched`.
   */
  method SearchLoops(all: seq<LogEntry>, term: string) returns (matched: seq<LogEntry>)
    ensures matched == Matched(all, term)
  {
    var direct, added := RunPass(all, term, DirectPass, {});
    var directIds := set l | l in direct && l.id != "" :: l.id;
    assert directIds == IdSet(DirectPassResult(all, term)) == added;
    var indirect, _ := RunPass(all, term, IndirectPass(directIds), added);
    assert indirect == IndirectPassResult(all, term);
    matched := direct + indirect;
  }

  /** The logs a pass admits, as a plain order-preserving filter. */
  function Selector(p: Pass, term: string, added: set<string>): LogEntry -> bool {
    (l: LogEntry) => l.id != "" && l.id !in added && Admits(p, l, term)
  }

  /** With unique ids the de-duplication of a pass never fires beyond `added`. */
  lemma {:induction false} CollectIsFilter(logs: seq<LogEntry>, term: string, p: Pass, added: set<string>)
    requires UniqueIds(logs)
    ensures Collect(logs, term, p, added) == Filter(logs, Selector(p, term, added))
    decreases |logs|
  {
    if logs != [] {
      var l := logs[0];
      var rest := logs[1..];
      assert UniqueIds(rest) by {
        forall i, j | 0 <= i < j < |rest| ensures rest[i].id != rest[j].id {
          assert rest[i] == logs[i + 1] && rest[j] == logs[j + 1];
        }
      }
      if l.id != "" && l.id !in added && Admits(p, l, term) {
        CollectIsFilter(rest, term, p, added + {l.id});
        forall i | 0 <= i < |rest|
          ensures Selector(p, term, added + {l.id})(rest[i]) == Selector(p, term, added)(rest[i])
        {
          assert rest[i] == logs[i + 1];
        }
        FilterCongruent(rest, Selector(p, term, added + {l.id}), Selector(p, term, added));
      } else {
        CollectIsFilter(rest, term, p, added);
      }
    }
  }

  /**
   * For a snapshot with unique ids the result is exactly the direct matches in
   * snapshot order followed by the other linked-or-mentioning logs in snapshot order.
   */
  lemma MatchedIsTwoFilters(all: seq<LogEntry>, term: string)
    requires UniqueIds(all)
    ensures Matched(all, term)
         == Filter(all, (l: LogEntry) => l.id != "" && DirectMatch(l, term))
          + Filter(all, (l: LogEntry) => l.id != "" && !DirectMatch(l, term) && IndirectMatch(l, term, DirectIds(all, term)))
  {
    var D := DirectIds(all, term);
    DirectPassIds(all, term);
    CollectIsFilter(all, term, DirectPass, {});
    FilterCongruent(all, Selector(DirectPass, term, {}), (l: LogEntry) => l.id != "" && DirectMatch(l, term));
    CollectIsFilter(all, term, IndirectPass(D), D);
    forall i | 0 <= i < |all|
      ensures Selector(IndirectPass(D), term, D)(all[i])
           == (all[i].id != "" && !DirectMatch(all[i], term) && IndirectMatch(all[i], term, D))
    {
      if all[i].id != "" && all[i].id in D {
        var m :| m in all && m.id != "" && DirectMatch(m, term) && m.id == all[i].id;
        var j :| 0 <= j < |all| && all[j] == m;
        assert j == i;
      }
    }
    FilterCongruent(all, Selector(IndirectPass(D), term, D),
      (l: LogEntry) => l.id != "" && !DirectMatch(l, term) && IndirectMatch(l, term, D));
  }

  /** Every log that matches directly is in the result itself, not only its id. */
  lemma DirectMatchesIncluded(all: seq<LogEntry>, term: string, l: LogEntry)
    requires UniqueIds(all)
    requires l in all && l.id != "" && DirectMatch(l, term)
    ensures l in Matched(all, term)
  {
    var r := Matched(all, term);
    assert l.id in IdSet(r);
    var m :| m in r && m.id == l.id;
    var i :| 0 <= i < |all| && all[i] == l;
    var j :| 0 <= j < |all| && all[j] == m;
    assert i == j;
  }

  // ---------------------------------------------------------------------------
  // Worked scenarios
  // ---------------------------------------------------------------------------

  /** A needle with a character the haystack lacks is not included in it. */
  lemma MissingCharNotContained(s: string, t: string, k: int)
    requires 0 <= k < |t| && t[k] !in s
    ensures !Contains(s, t)
  {
    ContainsIffOccurs(s, t);
    forall i ensures !OccursAt(s, t, i) {
      if 0 <= i && i + |t| <= |s| {
        assert s[i..i + |t|][k] == s[i + k];
      }
    }
  }

  function Scenario(id: string, title: string, related: seq<string>, titles: seq<string>): LogEntry {
    LogEntry(id, title, "", [], None, related, titles, false, "", 0, 0)
  }

  /**
   * A finds the term itself and B links to A: both are found, A first, and C,
   * which neither matches nor links anywhere nor mentions the term in a
   * related title, is left out.
   */
  lemma LinkedLogFound(a: LogEntry, b: LogEntry, c: LogEntry, term: string)
    requires a.id != "" && b.id != "" && c.id != ""
    requires a.id != b.id && b.id != c.id && a.id != c.id
    requires DirectMatch(a, term) && !DirectMatch(b, term) && !DirectMatch(c, term)
    requires a.id in b.relatedLogIds
    requires c.relatedLogIds == [] && c.relatedLogTitles == []
    ensures Matched([a, b, c], term) == [a, b]
  {
    LinkedDirect(a, b, c, term);
    LinkedIndirect(a, b, c, term);
  }

  lemma LinkedDirect(a: LogEntry, b: LogEntry, c: LogEntry, term: string)
    requires a.id != "" && DirectMatch(a, term) && !DirectMatch(b, term) && !DirectMatch(c, term)
    ensures DirectPassResult([a, b, c], term) == [a]
  {
    var all := [a, b, c];
    assert all[1..] == [b, c];
    CollectStep(all, term, DirectPass, {});
    CollectNone([b, c], term, DirectPass, {a.id});
  }

  lemma LinkedIndirect(a: LogEntry, b: LogEntry, c: LogEntry, term: string)
    requires a.id != "" && b.id != "" && a.id != b.id && a.id != c.id
    requires DirectPassResult([a, b, c], term) == [a]
    requires !DirectMatch(b, term) && !DirectMatch(c, term)
    requires a.id in b.relatedLogIds
    requires c.relatedLogIds == [] && c.relatedLogTitles == []
    ensures IndirectPassResult([a, b, c], term) == [b]
  {
    var all := [a, b, c];
    assert IdSet([a]) == {a.id};
    var D := {a.id};
    assert all[1..] == [b, c] && [b, c][1..] == [c];
    CollectSkip(all, term, IndirectPass(D), D);
    assert IndirectMatch(b, term, D);
    CollectTake([b, c], term, IndirectPass(D), D);
    assert !IndirectMatch(c, term, D);
    CollectNone([c], term, IndirectPass(D), D + {b.id});
  }

  /** A log that is not admitted, or whose id is empty or already recorded, is passed over. */
  lemma CollectSkip(logs: seq<LogEntry>, term: string, p: Pass, added: set<string>)
    requires logs != [] && !(logs[0].id != "" && logs[0].id !in added && Admits(p, logs[0], term))
    ensures Collect(logs, term, p, added) == Collect(logs[1..], term, p, added)
  {
  }

  /** An admitted log with a fresh id is pushed and its id recorded. */
  lemma CollectTake(logs: seq<LogEntry>, term: string, p: Pass, added: set<string>)
    requires logs != [] && logs[0].id != "" && logs[0].id !in added && Admits(p, logs[0], term)
    ensures Collect(logs, term, p, added) == [logs[0]] + Collect(logs[1..], term, p, added + {logs[0].id})
  {
  }

  /**
   * A link to a log that itself matched only through a link is not enough:
   * C links to B, B links to A, A alone matches the term, and only A and B are
   * found, A first although it comes last in the snapshot.
   */
  lemma NoChaining(a: LogEntry, b: LogEntry, c: LogEntry, term: string)
    requires a.id != "" && b.id != "" && c.id != ""
    requires a.id != b.id && b.id != c.id && a.id != c.id
    requires DirectMatch(a, term) && !DirectMatch(b, term) && !DirectMatch(c, term)
    requires a.id in b.relatedLogIds
    requires c.relatedLogIds == [b.id] && c.relatedLogTitles == []
    ensures Matched([c, b, a], term) == [a, b]
  {
    ChainDirect(a, b, c, term);
    ChainIndirect(a, b, c, term);
  }

  lemma ChainDirect(a: LogEntry, b: LogEntry, c: LogEntry, term: string)
    requires a.id != "" && DirectMatch(a, term) && !DirectMatch(b, term) && !DirectMatch(c, term)
    ensures DirectPassResult([c, b, a], term) == [a]
  {
    var all := [c, b, a];
    assert all[1..] == [b, a] && [b, a][1..] == [a] && [a][1..] == [];
    CollectStep(all, term, DirectPass, {});
    CollectStep([b, a], term, DirectPass, {});
    CollectStep([a], term, DirectPass, {});
  }

  lemma ChainIndirect(a: LogEntry, b: LogEntry, c: LogEntry, term: string)
    requires a.id != "" && b.id != "" && c.id != ""
    requires a.id != b.id && b.id != c.id && a.id != c.id
    requires DirectPassResult([c, b, a], term) == [a]
    requires !DirectMatch(b, term) && !DirectMatch(c, term)
    requires a.id in b.relatedLogIds
    requires c.relatedLogIds == [b.id] && c.relatedLogTitles == []
    ensures IndirectPassResult([c, b, a], term) == [b]
  {
    var all := [c, b, a];
    assert IdSet([a]) == {a.id};
    var D := {a.id};
    assert all[1..] == [b, a] && [b, a][1..] == [a] && [a][1..] == [];
    assert !IndirectMatch(c, term, D);
    CollectSkip(all, term, IndirectPass(D), D);
    assert IndirectMatch(b, term, D);
    CollectTake([b, a], term, IndirectPass(D), D);
    CollectSkip([a], term, IndirectPass(D), D + {b.id});
  }

  /** A pass that admits no log of the list collects nothing. */
  lemma {:induction false} CollectNone(logs: seq<LogEntry>, term: string, p: Pass, added: set<string>)
    requires forall i :: 0 <= i < |logs| ==> !Admits(p, logs[i], term)
    ensures Collect(logs, term, p, added) == []
    decreases |logs|
  {
    if logs != [] {
      assert !Admits(p, logs[0], term);
      CollectNone(logs[1..], term, p, added);
    }
  }

  /** With no direct match and no related title mentioning the term, nothing is found. */
  lemma NothingFound(all: seq<LogEntry>, term: string)
    requires forall i :: 0 <= i < |all| ==> !DirectMatch(all[i], term)
    requires forall i, t :: 0 <= i < |all| && t in all[i].relatedLogTitles ==> !Contains(Lower(t), term)
    ensures Matched(all, term) == []
  {
    CollectNone(all, term, DirectPass, {});
    assert IdSet([]) == {};
    CollectNone(all, term, IndirectPass({}), {});
  }

  /** A single log that matches directly is found on its own. */
  lemma SingleMatch(a: LogEntry, term: string)
    requires a.id != "" && DirectMatch(a, term)
    ensures Matched([a], term) == [a]
  {
    assert [a][1..] == [];
    CollectStep([a], term, DirectPass, {});
    assert IdSet([a]) == {a.id};
    CollectStep([a], term, IndirectPass({a.id}), {a.id});
  }

  lemma AppleStrings()
    ensures !IsBlank(" apple") && Trim(" apple") == "apple"
    ensures Lower(" apple") == " apple" && Lower("Apple") == "apple" && Lower("") == ""
  {
    assert TrimStart(" apple") == "apple";
    assert TrimEnd("apple") == "apple";
    assert !IsJsWhitespace(" apple"[1]);
  }

  lemma UntrimmedAppleMissed(a: LogEntry, q: string)
    requires a == Scenario("A", "Apple", [], []) && q == " apple"
    ensures Matched([a], q) == []
  {
    AppleStrings();
    MissingCharNotContained("apple", q, 0);
    MissingCharNotContained("", q, 0);
    assert !DirectMatch(a, q);
    NothingFound([a], q);
  }

  lemma TrimmedAppleFound(a: LogEntry, q: string)
    requires a == Scenario("A", "Apple", [], []) && q == "apple"
    ensures Matched([a], q) == [a]
  {
    AppleStrings();
    assert StartsWith(q, q);
    SingleMatch(a, q);
  }

  /**
   * The term is lower-cased but not trimmed: " apple" is not blank, and its
   * lower-cased form does not find a log titled "Apple", whereas the trimmed
   * term would.
   */
  lemma TermNotTrimmed(a: LogEntry, q: string)
    requires a == Scenario("A", "Apple", [], []) && q == " apple"
    ensures !IsBlank(q) && Trim(q) == "apple"
    ensures Matched([a], Lower(q)) == [] && Matched([a], Lower(Trim(q))) == [a]
  {
    AppleStrings();
    UntrimmedAppleMissed(a, Lower(q));
    TrimmedAppleFound(a, Lower(Trim(q)));
  }
}

=== FILE: js_strings.dfy ===
/**
 * The handful of JavaScript string operations the application relies on:
 * `trim`, `toLowerCase`, `includes`, `startsWith`, `endsWith`, `substring`
 * and `split(sep)[0]`, plus the `||` defaulting of possibly-empty strings.
 */
module JsStrings {
  import opened Results

  /** ECMAScript WhiteSpace and LineTerminator code points: exactly what `trim` strips. */
  predicate IsJsWhitespace(c: char) {
    var n := c as int;
    n == 0x09 || n == 0x0A || n == 0x0B || n == 0x0C || n == 0x0D || n == 0x20
    || n == 0xA0 || n == 0x1680 || (0x2000 <= n <= 0x200A) || n == 0x2028 || n == 0x2029
    || n == 0x202F || n == 0x205F || n == 0x3000 || n == 0xFEFF
  }

  function TrimStart(s: string): string
  {
    if |s| > 0 && IsJsWhitespace(s[0]) then TrimStart(s[1..]) else s
  }

  function TrimEnd(s: string): string
  {
    if |s| > 0 && IsJsWhitespace(s[|s| - 1]) then TrimEnd(s[..|s| - 1]) else s
  }

  /** `s` without its leading and trailing ECMAScript white space, as `trim` gives it. */
  function Trim(s: string): string {
    TrimEnd(TrimStart(s))
  }

  /** Every character is whitespace (this includes the empty string). */
  predicate IsBlank(s: string) {
    forall i :: 0 <= i < |s| ==> IsJsWhitespace(s[i])
  }

  lemma {:induction false} TrimStartEmptyIffBlank(s: string)
    ensures TrimStart(s) == "" <==> IsBlank(s)
    decreases |s|
  {
    if |s| > 0 && IsJsWhitespace(s[0]) {
      TrimStartEmptyIffBlank(s[1..]);
      if IsBlank(s[1..]) {
        forall i | 0 <= i < |s| ensures IsJsWhitespace(s[i]) {
          if i > 0 { assert s[i] == s[1..][i - 1]; }
        }
      }
      if IsBlank(s) {
        forall i | 0 <= i < |s[1..]| ensures IsJsWhitespace(s[1..][i]) {
          assert s[1..][i] == s[i + 1];
        }
      }
    }
  }

  lemma {:induction false} TrimEndEmptyIffBlank(s: string)
    ensures TrimEnd(s) == "" <==> IsBlank(s)
    decreases |s|
  {
    if |s| > 0 && IsJsWhitespace(s[|s| - 1]) {
      var init := s[..|s| - 1];
      TrimEndEmptyIffBlank(init);
      if IsBlank(init) {
        forall i | 0 <= i < |s| ensures IsJsWhitespace(s[i]) {
          if i < |s| - 1 { assert s[i] == init[i]; }
        }
      }
    }
  }

  /** `TrimStart` never leaves a leading whitespace character behind. */
  lemma {:induction false} TrimStartHead(s: string)
    ensures TrimStart(s) == "" || !IsJsWhitespace(TrimStart(s)[0])
    decreases |s|
  {
    if |s| > 0 && IsJsWhitespace(s[0]) {
      TrimStartHead(s[1..]);
    }
  }

  /** `s.trim() === ""` holds exactly when every character of `s` is whitespace. */
  lemma {:induction false} TrimEmptyIffBlank(s: string)
    ensures Trim(s) == "" <==> IsBlank(s)
  {
    var t := TrimStart(s);
    TrimEndEmptyIffBlank(t);
    TrimStartEmptyIffBlank(s);
    TrimStartHead(s);
    if t != "" {
      assert !IsJsWhitespace(t[0]);
    }
  }

  /** The lower-case mapping of `toLowerCase`, restricted to ASCII letters. */
  function LowerChar(c: char): char {
    if 'A' <= c <= 'Z' then (c as int + 32) as char else c
  }

  /** `s` with the ASCII capitals lowered, the part of `toLowerCase` this model covers. */
  function Lower(s: string): string
  {
    seq(|s|, i requires 0 <= i < |s| => LowerChar(s[i]))
  }

  /** `p` is a prefix of `s`, as `startsWith` tests. */
  predicate StartsWith(s: string, p: string) {
    |p| <= |s| && s[..|p|] == p
  }

  /** A string starts with any of its prefixes. */
  lemma StartsWithPrefix(a: string, b: string)
    ensures StartsWith(a + b, a)
  {
    assert (a + b)[..|a|] == a;
  }

  /** `a + b`, known to start with `a`. */
  function Extend(a: string, b: string): (r: string)
    ensures StartsWith(r, a) && |r| == |a| + |b|
  {
    StartsWithPrefix(a, b);
    a + b
  }

  /** `p` is a suffix of `s`, as `endsWith` tests. */
  predicate EndsWith(s: string, p: string) {
    |p| <= |s| && s[|s| - |p|..] == p
  }

  /** `t` occurs in `s` starting at position `i`. */
  predicate OccursAt(s: string, t: string, i: int) {
    0 <= i && i + |t| <= |s| && s[i..i + |t|] == t
  }

  /** `t` occurs somewhere in `s`, as `includes` tests. */
  predicate Contains(s: string, t: string)
    decreases |s|
  {
    StartsWith(s, t) || (|s| > 0 && Contains(s[1..], t))
  }

  /** `includes` holds exactly when the needle occurs at some position. */
  lemma {:induction false} ContainsIffOccurs(s: string, t: string)
    ensures Contains(s, t) <==> exists i :: OccursAt(s, t, i)
    decreases |s|
  {
    if StartsWith(s, t) {
      assert OccursAt(s, t, 0);
    } else if |s| > 0 {
      ContainsIffOccurs(s[1..], t);
      if Contains(s[1..], t) {
        var i :| OccursAt(s[1..], t, i);
        assert s[1..][i..i + |t|] == s[i + 1..i + 1 + |t|];
        assert OccursAt(s, t, i + 1);
      }
      if exists i :: OccursAt(s, t, i) {
        var i :| OccursAt(s, t, i);
        assert i != 0;
        assert s[1..][i - 1..i - 1 + |t|] == s[i..i + |t|];
        assert OccursAt(s[1..], t, i - 1);
      }
    }
  }

  /** The empty string is included in every string; JavaScript agrees. */
  lemma ContainsEmpty(s: string)
    ensures Contains(s, "")
  {
    assert StartsWith(s, "");
  }

  /** Whatever occurs in a string occurs in any string built around it. */
  lemma ContainsInside(a: string, s: string, b: string, t: string)
    requires Contains(s, t)
    ensures Contains(a + s + b, t)
  {
    ContainsIffOccurs(s, t);
    var i :| OccursAt(s, t, i);
    assert (a + s + b)[|a| + i..|a| + i + |t|] == s[i..i + |t|];
    assert OccursAt(a + s + b, t, |a| + i);
    ContainsIffOccurs(a + s + b, t);
  }

  /** A character's UTF-16 code units: one in the Basic Multilingual Plane, a surrogate pair above it. */
  function Units(c: char): (n: nat)
    ensures 1 <= n <= 2
  {
    if c as int <= 0xFFFF then 1 else 2
  }

  /** `s.length`: the number of UTF-16 code units, not of characters. */
  function Utf16Length(s: string): (n: nat)
    ensures |s| <= n <= 2 * |s|
  {
    if s == [] then 0 else Units(s[0]) + Utf16Length(s[1..])
  }

  /** Below U+10000 every character is one code unit, so `length` counts characters. */
  lemma {:induction false} BmpLength(s: string)
    requires forall i :: 0 <= i < |s| ==> s[i] as int <= 0xFFFF
    ensures Utf16Length(s) == |s|
  {
    if s != [] {
      BmpLength(s[1..]);
    }
  }

  /**
   * `s.substring(0, n)` for n >= 0, counted in code units: the longest prefix
   * of at most `n` units.
   */
  function Take(s: string, n: nat): (r: string)
    ensures StartsWith(s, r)
    ensures Utf16Length(r) <= n
    ensures Utf16Length(s) <= n ==> r == s
    ensures Utf16Length(s) > n ==> n <= Utf16Length(r) + 1
  {
    if s == [] || Units(s[0]) > n then []
    else
      var rest := Take(s[1..], n - Units(s[0]));
      assert s[..1 + |rest|] == [s[0]] + s[1..][..|rest|];
      assert ([s[0]] + rest)[1..] == rest;
      [s[0]] + rest
  }

  /** `s.split(sep)[0]` for a non-empty separator: the text before the first occurrence. */
  function Before(s: string, sep: string): string
    requires sep != ""
    decreases |s|
  {
    if StartsWith(s, sep) || |s| == 0 then "" else [s[0]] + Before(s[1..], sep)
  }

  /** `s || d` for a possibly absent string: absent and empty both fall back to `d`. */
  function OrElse(s: Option<string>, d: string): string {
    if s.Some? && s.value != "" then s.value else d
  }

  /** JavaScript truthiness of a possibly absent string. */
  predicate Truthy(s: Option<string>) {
    s.Some? && s.value != ""
  }

  /** `s || undefined`: the empty string becomes absent. */
  function NonEmpty(s: string): Option<string> {
    if s == "" then None else Some(s)
  }

  /** Decimal rendering of a natural number, as in a template literal. */
  function NatToString(n: nat): (r: string)
    ensures |r| >= 1
    ensures forall k :: 0 <= k < |r| ==> '0' <= r[k] <= '9'
    ensures n < 10 <==> |r| == 1
    ensures n < 10 ==> r[0] as int - 48 == n
    decreases n
  {
    var d := [(48 + n % 10) as char];
    if n < 10 then d else NatToString(n / 10) + d
  }
}

=== FILE: log_form.dfy ===
/**
 * The client-side log form: its validation schema, the related-log checkbox
 * toggle, the list of logs offered for linking, and the image urls it saves
 * (including the developer upload that takes the first slot).
 */
module LogForm {
  import opened Results
  import opened JsStrings
  import opened Seqs
  import Actions

  const DeveloperUid := "REPLACE_WITH_YOUR_ACTUAL_GOOGLE_UID"
  const UploadFailed := "Failed to upload image. Please try again."

  // ---------------------------------------------------------------------------
  // Validation schema
  // ---------------------------------------------------------------------------

  /** One image row of the form; its url field may be left out. */
  datatype FormImage = FormImage(url: Option<string>)

  /** The YouTube field: absent, empty, or a URL naming YouTube; `isUrl` is the URL check. */
  predicate YoutubeFieldOk(link: Option<string>, isUrl: string -> bool) {
    link.None? || link.value == ""
    || (isUrl(link.value) && (Contains(link.value, "youtube.com") || Contains(link.value, "youtu.be")))
  }

  /** An image row: absent, empty, or a URL. */
  predicate ImageFieldOk(img: FormImage, isUrl: string -> bool) {
    img.url.None? || img.url.value == "" || isUrl(img.url.value)
  }

  /** `logFormSchema` for the fields it constrains. */
  function FormValid(title: string, description: string, youtube: Option<string>, images: Option<seq<FormImage>>, isUrl: string -> bool): (r: bool)
    ensures r ==> 1 <= Utf16Length(title) <= 150 && 1 <= Utf16Length(description) <= 5000
    ensures r ==> forall i :: 0 <= i < |OrEmptyImages(images)| ==> ImageFieldOk(OrEmptyImages(images)[i], isUrl)
    ensures r ==> YoutubeFieldOk(youtube, isUrl)
    ensures (&& 1 <= Utf16Length(title) <= 150 && 1 <= Utf16Length(description) <= 5000
             && YoutubeFieldOk(youtube, isUrl)
             && forall i :: 0 <= i < |OrEmptyImages(images)| ==> ImageFieldOk(OrEmptyImages(images)[i], isUrl)) ==> r
  {
    && 1 <= Utf16Length(title) <= 150
    && 1 <= Utf16Length(description) <= 5000
    && YoutubeFieldOk(youtube, isUrl)
    && (forall i :: 0 <= i < |OrEmptyImages(images)| ==> ImageFieldOk(OrEmptyImages(images)[i], isUrl))
  }

  function OrEmptyImages(images: Option<seq<FormImage>>): seq<FormImage> {
    if images.Some? then images.value else []
  }

  /**
   * The form's bounds are looser than the server actions' schema: whatever
   * title and description the actions accept pass the form, but a title of
   * 101 to 150 code units passes the form and the actions refuse it.
   */
  lemma ServerStricterThanForm(form: Actions.Form, title: string, description: string, youtube: Option<string>,
                               images: Option<seq<FormImage>>, isUrl: string -> bool)
    requires form.title == Some(Actions.Text(title)) && form.description == Some(Actions.Text(description))
    requires YoutubeFieldOk(youtube, isUrl)
    requires forall i :: 0 <= i < |OrEmptyImages(images)| ==> ImageFieldOk(OrEmptyImages(images)[i], isUrl)
    ensures Actions.SchemaValid(form) ==> FormValid(title, description, youtube, images, isUrl)
    ensures 100 < Utf16Length(title) <= 150 && 1 <= Utf16Length(description) <= 5000 ==>
      FormValid(title, description, youtube, images, isUrl) && !Actions.SchemaValid(form)
    ensures 500 < Utf16Length(description) <= 5000 && 1 <= Utf16Length(title) <= 150 ==>
      FormValid(title, description, youtube, images, isUrl) && !Actions.SchemaValid(form)
  {
  }

  /** A well-formed URL that names neither YouTube host is refused, and an empty link is accepted. */
  lemma YoutubeRefine(link: string, isUrl: string -> bool)
    ensures link != "" && !Contains(link, "youtube.com") && !Contains(link, "youtu.be") ==> !YoutubeFieldOk(Some(link), isUrl)
    ensures YoutubeFieldOk(Some(""), isUrl)
  {
  }

  // ---------------------------------------------------------------------------
  // Related-log checkboxes
  // ---------------------------------------------------------------------------

  /** `handleRelatedLogChange`: checking appends, unchecking removes every occurrence. */
  function ToggleRelated(current: seq<string>, id: string, checked: bool): (r: seq<string>)
    ensures checked ==> |r| == |current| + 1 && r[..|current|] == current && r[|current|] == id
    ensures !checked ==> id !in r && IsSubsequence(r, current)
    ensures !checked ==> forall x :: x in current && x != id ==> x in r
    ensures !checked ==> multiset(r) == multiset(current)[id := 0]
  {
    if checked then current + [id]
    else
      var keep := (x: string) => x != id;
      var r := Filter(current, keep);
      assert forall x :: x in current && x != id ==> x in r by {
        forall x | x in current && x != id ensures x in r {
          FilterMembership(current, keep, x);
        }
      }
      forall x ensures multiset(r)[x] == multiset(current)[id := 0][x] {
        FilterCount(current, keep, x);
      }
      assert multiset(r) == multiset(current)[id := 0];
      r
  }

  /** Checking an id already present adds a second copy of it. */
  lemma CheckDuplicates(current: seq<string>, id: string)
    requires id in current
    ensures multiset(ToggleRelated(current, id, true))[id] == multiset(current)[id] + 1
  {
    assert ToggleRelated(current, id, true) == current + [id];
  }

  /** Checking and then unchecking an id that was not there restores the list. */
  lemma CheckThenUncheck(current: seq<string>, id: string)
    requires id !in current
    ensures ToggleRelated(ToggleRelated(current, id, true), id, false) == current
  {
    var p := (x: string) => x != id;
    FilterAppend(current, [id], p);
    FilterAll(current, p);
    assert Filter([id], p) == [];
  }

  // ---------------------------------------------------------------------------
  // Logs offered for linking
  // ---------------------------------------------------------------------------

  datatype SelectableLog = SelectableLog(id: string, title: Option<string>)

  /** The owner's logs minus the one being edited. */
  function LinkableLogs(logs: seq<SelectableLog>, editingId: Option<string>): (r: seq<SelectableLog>)
    ensures IsSubsequence(r, logs)
    ensures editingId.Some? ==> forall i :: 0 <= i < |r| ==> r[i].id != editingId.value
    ensures forall i :: 0 <= i < |logs| && (editingId.None? || logs[i].id != editingId.value) ==> logs[i] in r
  {
    Filter(logs, (l: SelectableLog) => editingId.None? || l.id != editingId.value)
  }

  // ---------------------------------------------------------------------------
  // Saved image urls
  // ---------------------------------------------------------------------------

  /** The url of every image row, with an absent url read as the empty string. */
  function RowUrls(images: seq<FormImage>): (r: seq<string>)
    ensures |r| == |images|
    ensures forall i :: 0 <= i < |r| ==> r[i] == OrElse(images[i].url, "")
  {
    seq(|images|, i requires 0 <= i < |images| => OrElse(images[i].url, ""))
  }

  /** The urls `onSubmit` saves before any developer upload: the non-empty ones, in order. */
  function CleanImageUrls(images: Option<seq<FormImage>>): (r: seq<string>)
    ensures images.None? ==> r == []
    ensures forall i :: 0 <= i < |r| ==> r[i] != ""
    ensures images.Some? ==> IsSubsequence(r, RowUrls(images.value))
    ensures images.Some? ==> forall i :: 0 <= i < |images.value| && Truthy(images.value[i].url) ==> images.value[i].url.value in r
    ensures images.Some? ==> multiset(r) == multiset(RowUrls(images.value))["" := 0]
  {
    if images.None? then []
    else
      var urls := RowUrls(images.value);
      var nonEmpty := (u: string) => u != "";
      var r := Filter(urls, nonEmpty);
      assert forall i :: 0 <= i < |images.value| && Truthy(images.value[i].url) ==> urls[i] == images.value[i].url.value;
      forall u ensures multiset(r)[u] == multiset(urls)["" := 0][u] {
        FilterCount(urls, nonEmpty, u);
      }
      assert multiset(r) == multiset(urls)["" := 0];
      r
  }

  /** The developer's uploaded image takes the first slot, or is appended to an empty list. */
  function DeveloperOverride(urls: seq<string>, uploaded: string): (r: seq<string>)
    ensures |r| == if urls == [] then 1 else |urls|
    ensures r[0] == uploaded
    ensures urls != [] ==> r[1..] == urls[1..]
  {
    if |urls| > 0 then urls[0 := uploaded] else [uploaded]
  }

  /** Only the configured developer account sees the upload field. */
  predicate IsDeveloper(uid: Option<string>) {
    uid == Some(DeveloperUid)
  }

  /**
   * The image list `onSubmit` saves: the cleaned urls, with the developer's
   * upload applied when the developer chose a file; a failed upload aborts.
   */
  function SavedImageUrls(images: Option<seq<FormImage>>, uid: Option<string>, hasFile: bool, uploaded: Option<string>): (r: Result<seq<string>, string>)
    ensures !(IsDeveloper(uid) && hasFile) ==> r == Ok(CleanImageUrls(images))
    ensures IsDeveloper(uid) && hasFile && uploaded.None? ==> r == Err(UploadFailed)
    ensures IsDeveloper(uid) && hasFile && uploaded.Some? ==>
      r.Ok? && |r.value| == (if CleanImageUrls(images) == [] then 1 else |CleanImageUrls(images)|) && r.value[0] == uploaded.value
  {
    var clean := CleanImageUrls(images);
    if IsDeveloper(uid) && hasFile then
      if uploaded.Some? then Ok(DeveloperOverride(clean, uploaded.value)) else Err(UploadFailed)
    else Ok(clean)
  }
}

=== FILE: log_item.dfy ===
/**
 * Rules of the log card: the YouTube embed address derived from a stored
 * link, the label of each related-log link, and who sees the Edit control.
 */
module LogItem {
  import opened Results
  import opened JsStrings
  import opened LogModel
  import TitleResolvers

  const EmbedPrefix := "https://www.youtube.com/embed/"

  /**
   * What the `URL` constructor made of the link: it threw, or it produced a
   * host name, a path and the `v` search parameter (absent when not given).
   */
  datatype ParsedUrl = Unparseable | Url(hostname: string, pathname: string, v: Option<string>)

  /** The path without its first character, the leading slash of a short link. */
  function Drop1(s: string): string {
    if s == "" then "" else s[1..]
  }

  /** The video id the three recognised link shapes yield, before the truthiness test. */
  function VideoId(u: ParsedUrl): Option<string> {
    match u
    case Unparseable => None
    case Url(host, path, v) =>
      if host == "youtu.be" then Some(Drop1(path))
      else if Contains(host, "youtube.com") && path == "/watch" then v
      else if Contains(host, "youtube.com") && StartsWith(path, "/embed/") then
        Some(Before(Before(path[|"/embed/"|..], "/embed/"), "?"))
      else None
  }

  /** `getYouTubeEmbedUrl(url)` given the parse of `url`. */
  function EmbedUrl(url: string, parsed: ParsedUrl): (r: Option<string>)
    ensures url == "" || parsed.Unparseable? ==> r.None?
    ensures r.Some? <==> url != "" && Truthy(VideoId(parsed))
    ensures r.Some? ==> r.value == EmbedPrefix + VideoId(parsed).value && |r.value| > |EmbedPrefix|
  {
    if url == "" then None
    else
      var id := VideoId(parsed);
      if Truthy(id) then Some(EmbedPrefix + id.value) else None
  }

  /** Text with no separator in it is its own `split(sep)[0]`. */
  lemma {:induction false} BeforeWithoutSep(s: string, sep: string)
    requires sep != "" && !Contains(s, sep)
    ensures Before(s, sep) == s
    decreases |s|
  {
    if s != [] {
      assert !StartsWith(s, sep);
      BeforeWithoutSep(s[1..], sep);
    }
  }

  /** A short link: the id is the path without its leading slash. */
  lemma ShortLink(url: string, id: string, v: Option<string>)
    requires url != "" && id != ""
    ensures EmbedUrl(url, Url("youtu.be", "/" + id, v)) == Some(EmbedPrefix + id)
  {
    assert ("/" + id)[1..] == id;
  }

  /** A watch link: the id is the `v` parameter, and a missing or empty one yields nothing. */
  lemma WatchLink(url: string, host: string, v: Option<string>)
    requires url != "" && host != "youtu.be" && Contains(host, "youtube.com")
    ensures EmbedUrl(url, Url(host, "/watch", v)) == if Truthy(v) then Some(EmbedPrefix + v.value) else None
  {
  }

  /**
   * Embedding is idempotent: the embed address of an id free of "?" and
   * "/embed/", parsed back, yields itself.
   */
  lemma EmbedIdempotent(id: string)
    requires id != "" && !Contains(id, "?") && !Contains(id, "/embed/")
    ensures EmbedUrl(EmbedPrefix + id, Url("www.youtube.com", "/embed/" + id, None)) == Some(EmbedPrefix + id)
  {
    EmbedPathId("www.youtube.com", id);
  }

  /** On a YouTube host, an `/embed/` path whose id is free of "?" and "/embed/" yields that id. */
  lemma EmbedPathId(host: string, id: string)
    requires host == "www.youtube.com"
    requires !Contains(id, "?") && !Contains(id, "/embed/")
    ensures VideoId(Url(host, "/embed/" + id, None)) == Some(id)
  {
    var path := "/embed/" + id;
    assert StartsWith(path, "/embed/");
    assert path[|"/embed/"|..] == id;
    BeforeWithoutSep(id, "/embed/");
    BeforeWithoutSep(id, "?");
    YoutubeHost(host);
  }

  lemma YoutubeHost(host: string)
    requires host == "www.youtube.com"
    ensures Contains(host, "youtube.com") && host != "youtu.be"
  {
    assert host[1..] == "ww.youtube.com";
    assert "ww.youtube.com"[1..] == "w.youtube.com";
    assert "w.youtube.com"[1..] == ".youtube.com";
    assert ".youtube.com"[1..] == "youtube.com";
    assert StartsWith("youtube.com", "youtube.com");
  }

  // ---------------------------------------------------------------------------
  // Related-log links and the Edit control
  // ---------------------------------------------------------------------------

  /** The label of the `index`-th related link: the title at that index if non-empty, else a shortened id. */
  function RelatedLinkLabel(titles: seq<string>, index: nat, id: string): (r: string)
    ensures r != ""
    ensures (index < |titles| && r == titles[index]) || StartsWith(r, "Log ID: ")
    ensures index < |titles| && titles[index] != "" ==> r == titles[index]
    ensures !(index < |titles| && titles[index] != "") ==> r == "Log ID: " + Take(id, 6) + "..."
  {
    if index < |titles| && titles[index] != "" then titles[index] else "Log ID: " + Take(id, 6) + "..."
  }

  /** One label per related id, matched to titles by position. */
  function RelatedLinkLabels(ids: seq<string>, titles: seq<string>): (r: seq<string>)
    ensures |r| == |ids|
    ensures forall i :: 0 <= i < |r| ==> r[i] == RelatedLinkLabel(titles, i, ids[i])
    ensures forall i :: 0 <= i < |r| ==> r[i] != ""
    ensures forall i :: 0 <= i < |r| ==> (i < |titles| && r[i] == titles[i]) || StartsWith(r[i], "Log ID: ")
  {
    seq(|ids|, i requires 0 <= i < |ids| => RelatedLinkLabel(titles, i, ids[i]))
  }

  /** With every related id filled the titles line up, and each link shows the title resolved for its own id. */
  lemma FilledIdsLabelled(ids: seq<string>, lookup: string -> Fetch)
    requires forall i :: 0 <= i < |ids| ==> Filled(ids[i])
    ensures var labels := RelatedLinkLabels(ids, TitleResolvers.FetchLogTitles(ids, lookup));
      forall i :: 0 <= i < |ids| ==> labels[i] == TitleFor(TitleResolvers.DashboardPolicy, lookup(ids[i]))
  {
    TitleResolvers.AllFilledKept(ids);
    var titles := TitleResolvers.FetchLogTitles(ids, lookup);
    forall i | 0 <= i < |ids|
      ensures titles[i] != ""
    {
      var f := lookup(ids[i]);
      if f.Found? {
        assert titles[i] == OrElse(f.doc.title, "Untitled Related Log");
      }
    }
  }

  /**
   * Titles are matched by position, but the resolvers skip blank ids: after a
   * blank id the next log's title lands on the blank link, and that log falls
   * back to its shortened id.
   */
  lemma BlankIdShiftsLabels(blank: string, x: string, lookup: string -> Fetch)
    requires !Filled(blank) && Filled(x)
    ensures var titles := TitleResolvers.FetchLogTitles([blank, x], lookup);
      var labels := RelatedLinkLabels([blank, x], titles);
      && |titles| == 1
      && labels[0] == titles[0]
      && labels[1] == "Log ID: " + Take(x, 6) + "..."
  {
    var ids := [blank, x];
    assert ids[1..] == [x] && [x][1..] == [];
    assert FilledIds(ids) == [x];
    var titles := TitleResolvers.FetchLogTitles(ids, lookup);
    var f := lookup(x);
    assert titles[0] != "" by {
      if f.Found? { assert titles[0] == OrElse(f.doc.title, "Untitled Related Log"); }
    }
  }

  /** `showControls && isOwner`: the Edit control appears only to the signed-in owner. */
  function ShowEdit(showControls: bool, uid: Option<string>, ownerId: string): (r: bool)
    ensures r ==> showControls && uid.Some?
    ensures uid.Some? && uid.value != ownerId ==> !r
    ensures showControls && uid == Some(ownerId) ==> r
    ensures r <==> showControls && uid == Some(ownerId)
  {
    showControls && uid.Some? && uid.value == ownerId
  }
}

=== FILE: log_model.dfy ===
/**
 * The records the application reads and writes: stored log documents as they
 * come out of the document store, the normalised log entries the views work
 * on, the outcome of looking one document up by id, and the backend errors a
 * collection read can raise.
 */
module LogModel {
  import opened Results
  import opened JsStrings
  import opened Seqs

  /** One image of a log; `url` is absent for caption-only entries. */
  datatype Image = Image(url: Option<string>, isMain: bool, caption: Option<string>)

  /** A stored log document as read from the store: every field may be missing. */
  datatype RawDoc = RawDoc(
    title: Option<string>,
    description: Option<string>,
    imageUrls: Option<seq<Image>>,
    youtubeLink: Option<string>,
    relatedLogIds: Option<seq<string>>,
    isPublic: Option<bool>,
    ownerId: Option<string>,
    createdAt: Option<int>,
    updatedAt: Option<int>)

  /** A document snapshot: the document id together with its data. */
  datatype DocSnap = DocSnap(id: string, data: RawDoc)

  /** A log as the views use it; timestamps are modelled as integers. */
  datatype LogEntry = LogEntry(
    id: string,
    title: string,
    description: string,
    imageUrls: seq<Image>,
    youtubeLink: Option<string>,
    relatedLogIds: seq<string>,
    relatedLogTitles: seq<string>,
    isPublic: bool,
    ownerId: string,
    createdAt: int,
    updatedAt: int)

  /** The outcome of reading one document by id: it exists, it does not, or the read threw. */
  datatype Fetch = Found(doc: RawDoc) | Missing | Failed

  /** A backend error as caught: its optional `code` and its `message`. */
  datatype BackendError = BackendError(code: Option<string>, message: string)

  datatype ErrorKind = FirebaseSetup | Generic

  /** The `{ error, type }` object the loaders return instead of logs. */
  datatype LoadError = LoadError(message: string, kind: ErrorKind)

  /** The document is marked public: its `isPublic` field is present and true. */
  predicate IsPublicDoc(d: RawDoc) {
    d.isPublic == Some(true)
  }

  /** `typeof id === 'string' && id.trim() !== ""`: the ids the title resolvers look up. */
  predicate Filled(id: string) {
    Trim(id) != ""
  }

  /** The related ids a title resolver looks up, in order. */
  function FilledIds(ids: seq<string>): (r: seq<string>)
    ensures |r| <= |ids|
    ensures forall x :: x in r <==> x in ids && Filled(x)
    ensures IsSubsequence(r, ids)
    decreases |ids|
  {
    if ids == [] then []
    else if Filled(ids[0]) then [ids[0]] + FilledIds(ids[1..])
    else FilledIds(ids[1..])
  }

  /** No id occurs twice; document ids within one collection satisfy this. */
  predicate UniqueIds(logs: seq<LogEntry>) {
    forall i, j :: 0 <= i < j < |logs| ==> logs[i].id != logs[j].id
  }

  function IdSet(logs: seq<LogEntry>): set<string> {
    set l | l in logs :: l.id
  }

  lemma IdSetAppend(logs: seq<LogEntry>, l: LogEntry)
    ensures IdSet(logs + [l]) == IdSet(logs) + {l.id}
  {
    assert l in logs + [l];
    assert forall m :: m in logs + [l] <==> m in logs || m == l;
  }

  lemma IdSetPrepend(l: LogEntry, logs: seq<LogEntry>)
    ensures IdSet([l] + logs) == {l.id} + IdSet(logs)
  {
    assert l in [l] + logs;
    assert forall m :: m in [l] + logs <==> m == l || m in logs;
  }

  /**
   * How a page turns one related-id lookup into a displayed title. `Placeholders`
   * shows any existing log's title; `PublicOnly` shows a title only for a public log.
   */
  datatype TitlePolicy =
    | Placeholders(untitled: string, missing: string, failed: string)
    | PublicOnly(untitled: string, hidden: string, failed: string)

  function TitleFor(p: TitlePolicy, f: Fetch): string {
    match f
    case Found(d) => if p.Placeholders? || IsPublicDoc(d) then OrElse(d.title, p.untitled) else p.hidden
    case Missing => if p.Placeholders? then p.missing else p.hidden
    case Failed => p.failed
  }

  /** The sequential title-fetch loop: one title per filled related id, in order. */
  function ResolveTitles(ids: seq<string>, lookup: string -> Fetch, p: TitlePolicy): (r: seq<string>)
    ensures |r| == |FilledIds(ids)|
    ensures forall i :: 0 <= i < |r| ==> r[i] == TitleFor(p, lookup(FilledIds(ids)[i]))
    decreases |ids|
  {
    if ids == [] then []
    else if Filled(ids[0]) then [TitleFor(p, lookup(ids[0]))] + ResolveTitles(ids[1..], lookup, p)
    else ResolveTitles(ids[1..], lookup, p)
  }

  /** An optional list, with an absent list read as the empty one. */
  function OrEmpty<T>(s: Option<seq<T>>): seq<T> {
    if s.Some? then s.value else []
  }
}

=== FILE: page_filters.dfy ===
/**
 * The search box of the personal search page and of the public page: an empty
 * query shows every log; otherwise a log is kept when its lower-cased title, or
 * its description when that is non-empty, contains the lower-cased query.
 */
module PageFilters {
  import opened Results
  import opened JsStrings
  import opened Seqs

  /**
   * A log as these pages hold it: the stored fields spread over the document
   * id, with an optional description and `updatedAt` as a number.
   */
  datatype ListedLog = ListedLog(id: string, title: string, description: Option<string>, updatedAt: int)

  /** The filter callback for a lower-cased query `lq`. */
  predicate PageMatch(l: ListedLog, lq: string) {
    Contains(Lower(l.title), lq) || (Truthy(l.description) && Contains(Lower(l.description.value), lq))
  }

  /** `filteredLogs`: the query itself (not trimmed) decides whether to filter. */
  function FilterByQuery(logs: seq<ListedLog>, query: string): (r: seq<ListedLog>)
    ensures query == "" ==> r == logs
    ensures query != "" ==> IsSubsequence(r, logs)
    ensures query != "" ==> forall i :: 0 <= i < |r| ==> PageMatch(r[i], Lower(query))
    ensures query != "" ==> forall i :: 0 <= i < |logs| && PageMatch(logs[i], Lower(query)) ==> logs[i] in r
  {
    if query == "" then logs
    else Filter(logs, (l: ListedLog) => PageMatch(l, Lower(query)))
  }

  /** For a non-empty query a log is shown exactly when it is in the list and matches. */
  lemma FilterByQueryMembership(logs: seq<ListedLog>, query: string, l: ListedLog)
    requires query != ""
    ensures l in FilterByQuery(logs, query) <==> l in logs && PageMatch(l, Lower(query))
  {
    FilterMembership(logs, (l: ListedLog) => PageMatch(l, Lower(query)), l);
  }

  /** Typing the same query again changes nothing. */
  lemma FilterByQueryIdempotent(logs: seq<ListedLog>, query: string)
    ensures FilterByQuery(FilterByQuery(logs, query), query) == FilterByQuery(logs, query)
  {
    if query != "" {
      FilterIdempotent(logs, (l: ListedLog) => PageMatch(l, Lower(query)));
    }
  }

  /** A log without a description (or with an empty one) can match on its title only. */
  lemma AbsentDescriptionTitleOnly(l: ListedLog, lq: string)
    requires !Truthy(l.description)
    ensures PageMatch(l, lq) <==> Contains(Lower(l.title), lq)
  {
  }

  /** A whitespace query is not empty: it filters, keeping the logs that contain it. */
  lemma BlankQueryStillFilters(logs: seq<ListedLog>)
    ensures FilterByQuery(logs, " ") == Filter(logs, (l: ListedLog) => PageMatch(l, " "))
  {
    assert Lower(" ") == " ";
  }
}

=== FILE: public_log_list.dfy ===
/**
 * The public log list component: `getPublicLogs` normalises the public
 * documents (oldest first) and keeps only related links and titles that point
 * at public logs; the component then filters by a query and shows at most
 * three related-title chips.
 */
module PublicLogList {
  import opened Results
  import opened JsStrings
  import opened Seqs
  import opened LogModel

  const IndexHint := "query requires an index"
  const IndexLink := "https://console.firebase.google.com/v1/r/project/the-mother-earth-project/firestore/indexes?create_composite=ClVwcm9qZWN0cy90aGUtbW90aGVyLWVhcnRoLXByb2plY3QvZGF0YWJhc2VzLyhkZWZhdWx0KS9jb2xsZWN0aW9uR3JvdXBzL2xvZ3MvaW5kZXhlcy9fEAEaDAoIaXNQdWJsaWMQARoNCgl1cGRhdGVkQXQQAhoMCghfX25hbWVfXxAC"
  const SetupAdvice := ". You may need to create a composite index in Firestore. Try this link: "
  const SortNote := " (Ensure 'updatedAt' field is sorted 'Ascending' if your query uses 'orderBy(\"updatedAt\", \"asc\")')"
  const GenericFallback := "An error occurred while fetching public logs."

  // ---------------------------------------------------------------------------
  // Related titles: public logs only, nothing in place of the others
  // ---------------------------------------------------------------------------

  /** A related lookup whose title may be shown: the log exists and is public. */
  predicate Visible(f: Fetch) {
    f.Found? && IsPublicDoc(f.doc)
  }

  /** The filled related ids whose logs may be shown, in order. */
  function VisibleIds(ids: seq<string>, lookup: string -> Fetch): seq<string> {
    Filter(FilledIds(ids), (x: string) => Visible(lookup(x)))
  }

  /**
   * The inner loop of `getPublicLogs`: a title for each filled id of an existing
   * public log; missing, private and unreadable logs are skipped without a placeholder.
   */
  function PublicTitles(ids: seq<string>, lookup: string -> Fetch): (r: seq<string>)
    ensures |r| == |VisibleIds(ids, lookup)|
    ensures forall i :: 0 <= i < |r| ==> r[i] == ShownTitle(lookup(VisibleIds(ids, lookup)[i]))
    decreases |ids|
  {
    if ids == [] then []
    else
      var x := ids[0];
      var rest := PublicTitles(ids[1..], lookup);
      var head := if Filled(x) && Visible(lookup(x)) then [x] else [];
      VisibleIdsCons(ids, lookup);
      TitlesStep(head, VisibleIds(ids[1..], lookup), rest, lookup);
      (if head == [] then [] else [ShownTitle(lookup(x))]) + rest
  }

  /**
   * One turn of the loop: pushing the title of the id in `head`, if any, in
   * front of the titles of `tail` gives the titles of `head + tail`.
   */
  lemma TitlesStep(head: seq<string>, tail: seq<string>, rest: seq<string>, lookup: string -> Fetch)
    requires |head| <= 1
    requires |rest| == |tail|
    requires forall i :: 0 <= i < |rest| ==> rest[i] == ShownTitle(lookup(tail[i]))
    ensures var r := (if head == [] then [] else [ShownTitle(lookup(head[0]))]) + rest;
      && |r| == |head + tail|
      && forall i :: 0 <= i < |r| ==> r[i] == ShownTitle(lookup((head + tail)[i]))
  {
    if head != [] {
      var r := [ShownTitle(lookup(head[0]))] + rest;
      forall i | 1 <= i < |r| ensures r[i] == ShownTitle(lookup((head + tail)[i])) {
        assert r[i] == rest[i - 1] && (head + tail)[i] == tail[i - 1];
      }
    } else {
      assert head + tail == tail;
    }
  }

  /** The title shown for a visible related log: its own, or "Untitled Related Log". */
  function ShownTitle(f: Fetch): (r: string)
    ensures f.Found? ==> r == OrElse(f.doc.title, "Untitled Related Log")
  {
    if f.Found? then OrElse(f.doc.title, "Untitled Related Log") else ""
  }

  lemma VisibleIdsCons(ids: seq<string>, lookup: string -> Fetch)
    requires ids != []
    ensures VisibleIds(ids, lookup) ==
      (if Filled(ids[0]) && Visible(lookup(ids[0])) then [ids[0]] else []) + VisibleIds(ids[1..], lookup)
  {
    var p := (x: string) => Visible(lookup(x));
    var tail := FilledIds(ids[1..]);
    if Filled(ids[0]) {
      assert FilledIds(ids) == [ids[0]] + tail;
      FilterAppend([ids[0]], tail, p);
      assert [ids[0]][1..] == [];
    } else {
      assert FilledIds(ids) == tail;
    }
  }

  /** A title is omitted for every id whose log is missing, private or unreadable. */
  lemma PublicTitlesOmit(ids: seq<string>, lookup: string -> Fetch, k: int)
    requires 0 <= k < |ids| && Filled(ids[k]) && !Visible(lookup(ids[k]))
    ensures |PublicTitles(ids, lookup)| < |FilledIds(ids)|
  {
    var f := FilledIds(ids);
    assert ids[k] in f;
    var j :| 0 <= j < |f| && f[j] == ids[k];
    FilterShorter(f, (x: string) => Visible(lookup(x)), j);
  }

  // ---------------------------------------------------------------------------
  // Normalisation
  // ---------------------------------------------------------------------------

  /** The ids of the public logs among those already pushed. */
  function PublicIds(logs: seq<LogEntry>): set<string> {
    set l | l in logs && l.isPublic :: l.id
  }

  /** One document normalised against the logs pushed before it. */
  function NormalisePublic(snap: DocSnap, earlier: seq<LogEntry>, lookup: string -> Fetch, now: int): (r: LogEntry)
    ensures r.id == snap.id
    ensures r.title != "" && r.title == OrElse(snap.data.title, "Untitled Log")
    ensures r.description == OrElse(snap.data.description, "")
    ensures r.relatedLogIds == Filter(OrEmpty(snap.data.relatedLogIds), (x: string) => x in PublicIds(earlier))
    ensures r.relatedLogTitles == PublicTitles(OrEmpty(snap.data.relatedLogIds), lookup)
    ensures r.ownerId == OrElse(snap.data.ownerId, "")
  {
    var d := snap.data;
    LogEntry(
      snap.id,
      OrElse(d.title, "Untitled Log"),
      OrElse(d.description, ""),
      OrEmpty(d.imageUrls),
      if Truthy(d.youtubeLink) then d.youtubeLink else None,
      Filter(OrEmpty(d.relatedLogIds), (x: string) => x in PublicIds(earlier)),
      PublicTitles(OrEmpty(d.relatedLogIds), lookup),
      d.isPublic == Some(true),
      OrElse(d.ownerId, ""),
      if d.createdAt.Some? then d.createdAt.value else now,
      if d.updatedAt.Some? then d.updatedAt.value else now)
  }

  /** The outer loop of `getPublicLogs`: each document sees the logs pushed before it. */
  function NormaliseAll(docs: seq<DocSnap>, lookup: string -> Fetch, now: int): (r: seq<LogEntry>)
    ensures |r| == |docs|
    ensures forall i :: 0 <= i < |r| ==> r[i] == NormalisePublic(docs[i], r[..i], lookup, now)
    decreases |docs|
  {
    if docs == [] then []
    else
      var prev := NormaliseAll(docs[..|docs| - 1], lookup, now);
      var r := prev + [NormalisePublic(docs[|docs| - 1], prev, lookup, now)];
      SnocPrefixes(prev, NormalisePublic(docs[|docs| - 1], prev, lookup, now));
      r
  }

  /**
   * Every kept link points at a public log pushed earlier, and the kept links
   * are an order-preserving sublist of the stored ones; so the first log has no links.
   */
  lemma LinksPointBackwards(docs: seq<DocSnap>, lookup: string -> Fetch, now: int, i: int)
    requires 0 <= i < |docs|
    ensures var r := NormaliseAll(docs, lookup, now);
      && IsSubsequence(r[i].relatedLogIds, OrEmpty(docs[i].data.relatedLogIds))
      && (forall k :: 0 <= k < |r[i].relatedLogIds| ==> r[i].relatedLogIds[k] in PublicIds(r[..i]))
      && (i == 0 ==> r[i].relatedLogIds == [])
  {
    var r := NormaliseAll(docs, lookup, now);
    var p := (x: string) => x in PublicIds(r[..i]);
    assert r[i] == NormalisePublic(docs[i], r[..i], lookup, now);
    if i == 0 {
      assert PublicIds(r[..0]) == {};
      FilterNone(OrEmpty(docs[0].data.relatedLogIds), p);
    }
  }

  /** The error codes that point at a Firestore setup problem. */
  predicate SetupCode(code: string) {
    code in ["unavailable", "failed-precondition", "unimplemented"]
  }

  /** The advice shown for a setup problem: the original message, then how to create the index. */
  function IndexAdviceMessage(message: string): (r: string)
    ensures StartsWith(r, message + SetupAdvice) && r != ""
  {
    Extend(message + SetupAdvice, IndexLink + SortNote)
  }

  /** The catch block of `getPublicLogs`. */
  function ClassifyPublicError(e: BackendError): (r: LoadError)
    ensures r.kind == FirebaseSetup <==>
      Truthy(e.code) && (SetupCode(e.code.value) || Contains(e.message, IndexHint))
    ensures r.kind == FirebaseSetup ==> StartsWith(r.message, e.message + SetupAdvice)
    ensures r.kind == Generic ==> r.message == (if e.message != "" then e.message else GenericFallback)
    ensures r.message != ""
  {
    if Truthy(e.code) && (SetupCode(e.code.value) || Contains(e.message, IndexHint)) then
      LoadError(IndexAdviceMessage(e.message), FirebaseSetup)
    else LoadError(OrElse(Some(e.message), GenericFallback), Generic)
  }

  /**
   * A message that asks for an index counts as a setup problem only when the
   * error also carries a code: the code test guards the whole condition.
   */
  lemma IndexHintNeedsCode(e: BackendError)
    requires Contains(e.message, IndexHint)
    ensures ClassifyPublicError(e).kind == FirebaseSetup <==> Truthy(e.code)
  {
  }

  /** `getPublicLogs`: normalised logs, or the classified error. */
  function GetPublicLogs(fetched: Result<seq<DocSnap>, BackendError>, lookup: string -> Fetch, now: int): (r: Result<seq<LogEntry>, LoadError>)
    ensures fetched.Ok? ==> r.Ok? && |r.value| == |fetched.value|
    ensures fetched.Ok? ==> forall i :: 0 <= i < |r.value| ==> r.value[i].id == fetched.value[i].id
    ensures fetched.Err? ==> r.Err? && r.error.message != ""
  {
    match fetched
    case Ok(docs) => Ok(NormaliseAll(docs, lookup, now))
    case Err(e) => Err(ClassifyPublicError(e))
  }

  // ---------------------------------------------------------------------------
  // Query filter and related-title chips
  // ---------------------------------------------------------------------------

  /** The component's filter callback for the query `q`. */
  predicate ListMatch(l: LogEntry, q: string) {
    Contains(Lower(l.title), Lower(q)) || Contains(Lower(l.description), Lower(q))
  }

  /** `filteredLogs`: an empty query shows every log. */
  function FilterPublic(logs: seq<LogEntry>, q: string): (r: seq<LogEntry>)
    ensures q == "" ==> r == logs
    ensures q != "" ==> IsSubsequence(r, logs)
    ensures q != "" ==> forall i :: 0 <= i < |r| ==> ListMatch(r[i], q)
    ensures q != "" ==> forall i :: 0 <= i < |logs| && ListMatch(logs[i], q) ==> logs[i] in r
  {
    if q == "" then logs else Filter(logs, (l: LogEntry) => ListMatch(l, q))
  }

  /** The empty-query shortcut agrees with filtering: every log contains the empty string. */
  lemma EmptyQueryMatchesAll(logs: seq<LogEntry>)
    ensures Filter(logs, (l: LogEntry) => ListMatch(l, "")) == logs
  {
    forall l | l in logs ensures ListMatch(l, "") {
      ContainsEmpty(Lower(l.title));
    }
    FilterAll(logs, (l: LogEntry) => ListMatch(l, ""));
  }

  /** The related-title chips: the first three titles, and "+k more" for the rest. */
  function Chips(titles: seq<string>): (r: (seq<string>, Option<string>))
    ensures |r.0| == if |titles| <= 3 then |titles| else 3
    ensures r.0 == titles[..|r.0|]
    ensures r.1.Some? <==> |titles| > 3
    ensures |titles| > 3 ==> r.1 == Some("+" + NatToString(|titles| - 3) + " more")
  {
    var shown := if |titles| <= 3 then titles else titles[..3];
    (shown, if |titles| > 3 then Some("+" + NatToString(|titles| - 3) + " more") else None)
  }
}

=== FILE: results.dfy ===
/** Absent-or-present values and success-or-error outcomes, used across the model. */
module Results {

  /** A JavaScript value that may be `null`/`undefined` (None) or present (Some). */
  datatype Option<+T> = None | Some(value: T)

  /** The outcome of an operation that either produces a value or fails with an error. */
  datatype Result<+T, +E> = Ok(value: T) | Err(error: E)
}

=== FILE: search_page.dfy ===
/**
 * The personal search page: own logs and liked logs merged by id through a
 * JavaScript `Map` (a later `set` of a present key keeps the key's position and
 * replaces its value), then sorted by `updatedAt`, newest first.
 */
module SearchPage {
  import opened Results
  import opened PageFilters

  /** No id occurs twice. */
  predicate DistinctIds(logs: seq<ListedLog>) {
    forall i, j :: 0 <= i < j < |logs| ==> logs[i].id != logs[j].id
  }

  function Ids(logs: seq<ListedLog>): set<string> {
    set l | l in logs :: l.id
  }

  lemma IdsCons(l: ListedLog, s: seq<ListedLog>)
    ensures Ids([l] + s) == {l.id} + Ids(s)
  {
    assert forall m :: m in [l] + s <==> m == l || m in s;
  }

  /** A list with a head is id-distinct exactly when its tail is and does not hold the head's id. */
  lemma DistinctCons(l: ListedLog, s: seq<ListedLog>)
    ensures DistinctIds([l] + s) <==> l.id !in Ids(s) && DistinctIds(s)
  {
    var t := [l] + s;
    if DistinctIds(t) {
      forall i, j | 0 <= i < j < |s| ensures s[i].id != s[j].id {
        assert s[i] == t[i + 1] && s[j] == t[j + 1];
      }
      forall m | m in s ensures m.id != l.id {
        var k :| 0 <= k < |s| && s[k] == m;
        assert t[k + 1] == m && t[0] == l;
      }
    }
    if l.id !in Ids(s) && DistinctIds(s) {
      forall i, j | 0 <= i < j < |t| ensures t[i].id != t[j].id {
        assert t[j] == s[j - 1];
        if i > 0 { assert t[i] == s[i - 1]; } else { assert t[j] in s; }
      }
    }
  }

  /** The value the map holds for key `x`: the first entry with that id. */
  function Find(entries: seq<ListedLog>, x: string): Option<ListedLog>
    decreases |entries|
  {
    if entries == [] then None
    else if entries[0].id == x then Some(entries[0])
    else Find(entries[1..], x)
  }

  /** The last log of the list with id `x`: the one whose `set` wins. */
  function LastWith(logs: seq<ListedLog>, x: string): Option<ListedLog>
    decreases |logs|
  {
    if logs == [] then None
    else if logs[|logs| - 1].id == x then Some(logs[|logs| - 1])
    else LastWith(logs[..|logs| - 1], x)
  }

  /** `map.set(l.id, l)` on the insertion-ordered entries of a `Map`. */
  function MapSet(entries: seq<ListedLog>, l: ListedLog): (r: seq<ListedLog>)
    ensures Find(r, l.id) == Some(l)
    ensures forall x :: x != l.id ==> Find(r, x) == Find(entries, x)
    decreases |entries|
  {
    if entries == [] then [l]
    else if entries[0].id == l.id then [l] + entries[1..]
    else [entries[0]] + MapSet(entries[1..], l)
  }

  /** `set` adds the key, and the map's keys are otherwise unchanged. */
  lemma {:induction false} MapSetIds(entries: seq<ListedLog>, l: ListedLog)
    ensures Ids(MapSet(entries, l)) == Ids(entries) + {l.id}
    decreases |entries|
  {
    if entries == [] {
      IdsCons(l, []);
      assert [l] + [] == [l];
    } else {
      var h := entries[0];
      var t := entries[1..];
      assert entries == [h] + t;
      IdsCons(h, t);
      if h.id == l.id {
        IdsCons(l, t);
      } else {
        MapSetIds(t, l);
        IdsCons(h, MapSet(t, l));
      }
    }
  }

  /** `set` keeps the keys distinct, and grows the map only for a new key. */
  lemma {:induction false} MapSetKeys(entries: seq<ListedLog>, l: ListedLog)
    ensures Ids(MapSet(entries, l)) == Ids(entries) + {l.id}
    ensures DistinctIds(entries) ==> DistinctIds(MapSet(entries, l))
    ensures |MapSet(entries, l)| == if l.id in Ids(entries) then |entries| else |entries| + 1
    decreases |entries|
  {
    MapSetIds(entries, l);
    if entries != [] {
      var h := entries[0];
      var t := entries[1..];
      assert entries == [h] + t;
      IdsCons(h, t);
      DistinctCons(h, t);
      if h.id == l.id {
        DistinctCons(l, t);
      } else {
        MapSetKeys(t, l);
        DistinctCons(h, MapSet(t, l));
      }
    }
  }

  /** Every own log is set into the map in turn, so a later log overwrites an earlier one with the same id. */
  function SetAll(entries: seq<ListedLog>, logs: seq<ListedLog>): (r: seq<ListedLog>)
    ensures forall x :: Find(r, x) == if LastWith(logs, x).Some? then LastWith(logs, x) else Find(entries, x)
    decreases |logs|
  {
    if logs == [] then entries
    else MapSet(SetAll(entries, logs[..|logs| - 1]), logs[|logs| - 1])
  }

  /** Setting every log of a list adds exactly its ids and keeps the keys distinct. */
  lemma {:induction false} SetAllKeys(entries: seq<ListedLog>, logs: seq<ListedLog>)
    ensures Ids(SetAll(entries, logs)) == Ids(entries) + Ids(logs)
    ensures DistinctIds(entries) ==> DistinctIds(SetAll(entries, logs))
    decreases |logs|
  {
    if logs != [] {
      var init := logs[..|logs| - 1];
      var l := logs[|logs| - 1];
      assert Ids(logs) == Ids(init) + {l.id} by {
        assert logs == init + [l];
      }
      SetAllKeys(entries, init);
      MapSetKeys(SetAll(entries, init), l);
    }
  }

  /** Every liked log with a non-empty id is set into the map in turn; a log with the empty id is skipped. */
  function SetLiked(entries: seq<ListedLog>, liked: seq<ListedLog>): (r: seq<ListedLog>)
    ensures forall x :: Find(r, x) == if x != "" && LastWith(liked, x).Some? then LastWith(liked, x) else Find(entries, x)
    decreases |liked|
  {
    if liked == [] then entries
    else
      var init := liked[..|liked| - 1];
      var l := liked[|liked| - 1];
      if l.id != "" then MapSet(SetLiked(entries, init), l) else SetLiked(entries, init)
  }

  /** Setting the liked logs adds exactly their non-empty ids and keeps the keys distinct. */
  lemma {:induction false} SetLikedKeys(entries: seq<ListedLog>, liked: seq<ListedLog>)
    ensures Ids(SetLiked(entries, liked)) == Ids(entries) + (Ids(liked) - {""})
    ensures DistinctIds(entries) ==> DistinctIds(SetLiked(entries, liked))
    decreases |liked|
  {
    if liked != [] {
      var init := liked[..|liked| - 1];
      var l := liked[|liked| - 1];
      assert Ids(liked) == Ids(init) + {l.id} by {
        assert liked == init + [l];
      }
      SetLikedKeys(entries, init);
      var before := SetLiked(entries, init);
      if l.id != "" {
        assert SetLiked(entries, liked) == MapSet(before, l);
        MapSetKeys(before, l);
        assert Ids(liked) - {""} == (Ids(init) - {""}) + {l.id};
      } else {
        assert SetLiked(entries, liked) == before;
        assert Ids(liked) - {""} == Ids(init) - {""};
      }
    }
  }

  /** The map's values in insertion order, before sorting. */
  function MergeById(own: seq<ListedLog>, liked: seq<ListedLog>): (r: seq<ListedLog>)
    ensures DistinctIds(r)
    ensures Ids(r) == Ids(own) + (Ids(liked) - {""})
    ensures forall x :: x != "" && LastWith(liked, x).Some? ==> Find(r, x) == LastWith(liked, x)
    ensures forall x :: (x == "" || LastWith(liked, x).None?) ==> Find(r, x) == LastWith(own, x)
  {
    assert Find([], "") == None;
    SetAllKeys([], own);
    SetLikedKeys(SetAll([], own), liked);
    SetLiked(SetAll([], own), liked)
  }

  /** Newest first: `updatedAt` never increases along the list. */
  predicate SortedDesc(logs: seq<ListedLog>) {
    forall i, j :: 0 <= i < j < |logs| ==> logs[i].updatedAt >= logs[j].updatedAt
  }

  lemma SortedCons(h: ListedLog, s: seq<ListedLog>)
    requires SortedDesc(s)
    requires forall y :: y in s ==> h.updatedAt >= y.updatedAt
    ensures SortedDesc([h] + s)
  {
    var t := [h] + s;
    forall i, j | 0 <= i < j < |t| ensures t[i].updatedAt >= t[j].updatedAt {
      assert t[j] == s[j - 1];
      if i > 0 { assert t[i] == s[i - 1]; }
    }
  }

  /** Inserts `x` after every entry at least as new, as a stable sort places a later element. */
  function Insert(x: ListedLog, t: seq<ListedLog>): (r: seq<ListedLog>)
    ensures |r| == |t| + 1
    decreases |t|
  {
    if t == [] then [x]
    else if t[0].updatedAt >= x.updatedAt then [t[0]] + Insert(x, t[1..])
    else [x] + t
  }

  /** Inserting adds exactly the one log to the multiset of entries. */
  lemma {:induction false} InsertPermutes(x: ListedLog, t: seq<ListedLog>)
    ensures multiset(Insert(x, t)) == multiset(t) + multiset{x}
    decreases |t|
  {
    if t != [] && t[0].updatedAt >= x.updatedAt {
      InsertPermutes(x, t[1..]);
      assert t == [t[0]] + t[1..];
    }
  }

  /** Inserting into a newest-first list keeps it newest first. */
  lemma {:induction false} InsertSorted(x: ListedLog, t: seq<ListedLog>)
    requires SortedDesc(t)
    ensures SortedDesc(Insert(x, t))
    decreases |t|
  {
    if t == [] {
    } else if t[0].updatedAt >= x.updatedAt {
      var h := t[0];
      assert SortedDesc(t[1..]) by {
        assert forall k :: 0 <= k < |t| - 1 ==> t[1..][k] == t[k + 1];
      }
      var rest := Insert(x, t[1..]);
      InsertSorted(x, t[1..]);
      InsertPermutes(x, t[1..]);
      forall y | y in rest ensures h.updatedAt >= y.updatedAt {
        assert y in multiset(rest);
        if y != x {
          assert y in t[1..];
        }
      }
      SortedCons(h, rest);
    } else {
      SortedCons(x, t);
    }
  }

  /** Inserting adds exactly the inserted log's id, and keeps ids distinct when that id is new. */
  lemma {:induction false} InsertIds(x: ListedLog, t: seq<ListedLog>)
    ensures Ids(Insert(x, t)) == Ids(t) + {x.id}
    ensures DistinctIds(t) && x.id !in Ids(t) ==> DistinctIds(Insert(x, t))
    decreases |t|
  {
    if t == [] {
      IdsCons(x, []);
    } else if t[0].updatedAt >= x.updatedAt {
      var h := t[0];
      assert t == [h] + t[1..];
      var rest := Insert(x, t[1..]);
      InsertIds(x, t[1..]);
      IdsCons(h, t[1..]);
      IdsCons(h, rest);
      DistinctCons(h, t[1..]);
      DistinctCons(h, rest);
    } else {
      IdsCons(x, t);
      DistinctCons(x, t);
    }
  }

  /** The list with its last element split off is id-distinct exactly when the parts are and do not share that id. */
  lemma DistinctSnoc(s: seq<ListedLog>, l: ListedLog)
    requires DistinctIds(s + [l])
    ensures DistinctIds(s) && l.id !in Ids(s)
  {
    var t := s + [l];
    assert forall i :: 0 <= i < |s| ==> t[i] == s[i];
    forall m | m in s ensures m.id != l.id {
      var k :| 0 <= k < |s| && s[k] == m;
      assert t[|s|] == l;
    }
  }

  /**
   * `sort((a, b) => b.updatedAt - a.updatedAt)`: an insertion sort that takes
   * the elements in order, so equally new entries keep their relative order.
   */
  function SortByUpdated(s: seq<ListedLog>): (r: seq<ListedLog>)
    ensures SortedDesc(r)
    ensures multiset(r) == multiset(s)
    ensures Ids(r) == Ids(s)
    ensures DistinctIds(s) ==> DistinctIds(r)
    decreases |s|
  {
    if s == [] then []
    else
      var init := s[..|s| - 1];
      var l := s[|s| - 1];
      assert s == init + [l];
      assert Ids(s) == Ids(init) + {l.id} by {
        assert forall m :: m in s <==> m in init || m == l;
      }
      assert DistinctIds(s) ==> DistinctIds(init) && l.id !in Ids(init) by {
        if DistinctIds(s) { DistinctSnoc(init, l); }
      }
      var sorted := SortByUpdated(init);
      InsertSorted(l, sorted);
      InsertPermutes(l, sorted);
      InsertIds(l, sorted);
      Insert(l, sorted)
  }

  /** The entries of `s` updated at time `t`, in order. */
  function Tied(s: seq<ListedLog>, t: int): seq<ListedLog>
    decreases |s|
  {
    if s == [] then [] else (if s[0].updatedAt == t then [s[0]] else []) + Tied(s[1..], t)
  }

  lemma {:induction false} TiedAppend(a: seq<ListedLog>, b: seq<ListedLog>, t: int)
    ensures Tied(a + b, t) == Tied(a, t) + Tied(b, t)
    decreases |a|
  {
    if a == [] {
      assert a + b == b;
    } else {
      TiedAppend(a[1..], b, t);
      assert a + b == [a[0]] + (a[1..] + b);
      TiedCons(a[0], a[1..] + b, t);
      TiedCons(a[0], a[1..], t);
      assert [a[0]] + a[1..] == a;
    }
  }

  lemma {:induction false} TiedNone(s: seq<ListedLog>, t: int)
    requires forall i :: 0 <= i < |s| ==> s[i].updatedAt != t
    ensures Tied(s, t) == []
    decreases |s|
  {
    if s != [] {
      TiedNone(s[1..], t);
    }
  }

  lemma TiedCons(h: ListedLog, s: seq<ListedLog>, t: int)
    ensures Tied([h] + s, t) == (if h.updatedAt == t then [h] else []) + Tied(s, t)
  {
    assert ([h] + s)[1..] == s;
  }

  /** Where `Insert` puts `x`: after the leading entries at least as new. */
  function InsertPos(x: ListedLog, s: seq<ListedLog>): (k: nat)
    ensures k <= |s|
    ensures forall i :: 0 <= i < k ==> s[i].updatedAt >= x.updatedAt
    ensures k < |s| ==> s[k].updatedAt < x.updatedAt
    decreases |s|
  {
    if s == [] || s[0].updatedAt < x.updatedAt then 0 else 1 + InsertPos(x, s[1..])
  }

  lemma {:induction false} InsertSplits(x: ListedLog, s: seq<ListedLog>)
    ensures Insert(x, s) == s[..InsertPos(x, s)] + [x] + s[InsertPos(x, s)..]
    decreases |s|
  {
    if s != [] && s[0].updatedAt >= x.updatedAt {
      var k := InsertPos(x, s[1..]);
      InsertSplits(x, s[1..]);
      InsertSkip(x, s);
      assert s[..k + 1] == [s[0]] + s[1..][..k];
      assert s[k + 1..] == s[1..][k..];
    }
  }

  lemma InsertSkip(x: ListedLog, s: seq<ListedLog>)
    requires s != [] && s[0].updatedAt >= x.updatedAt
    ensures Insert(x, s) == [s[0]] + Insert(x, s[1..])
  {
  }

  /** Inserting `x` puts it after every entry tied with it and leaves the other ties alone. */
  lemma InsertTied(x: ListedLog, s: seq<ListedLog>, t: int)
    requires SortedDesc(s)
    ensures Tied(Insert(x, s), t) == Tied(s, t) + (if x.updatedAt == t then [x] else [])
  {
    InsertSplits(x, s);
    OlderAfterPos(x, s);
    TiedSplit(s, InsertPos(x, s), x, t);
  }

  lemma TiedSplit(s: seq<ListedLog>, k: nat, x: ListedLog, t: int)
    requires k <= |s|
    requires forall i :: k <= i < |s| ==> s[i].updatedAt < x.updatedAt
    ensures Tied(s[..k] + [x] + s[k..], t) == Tied(s, t) + (if x.updatedAt == t then [x] else [])
  {
    var front, back := s[..k], s[k..];
    assert forall i :: 0 <= i < |back| ==> back[i].updatedAt < x.updatedAt by {
      forall i | 0 <= i < |back| ensures back[i].updatedAt < x.updatedAt {
        assert back[i] == s[k + i];
      }
    }
    TiedAround(front, x, back, t);
    assert front + back == s;
  }

  /** In a newest-first list everything from the insertion point on is older than `x`. */
  lemma OlderAfterPos(x: ListedLog, s: seq<ListedLog>)
    requires SortedDesc(s)
    ensures forall i :: InsertPos(x, s) <= i < |s| ==> s[i].updatedAt < x.updatedAt
  {
  }

  lemma TiedAround(front: seq<ListedLog>, x: ListedLog, back: seq<ListedLog>, t: int)
    requires forall i :: 0 <= i < |back| ==> back[i].updatedAt < x.updatedAt
    ensures Tied(front + [x] + back, t) == Tied(front + back, t) + (if x.updatedAt == t then [x] else [])
  {
    TiedAppend(front + [x], back, t);
    TiedSnoc(front, x, t);
    TiedAppend(front, back, t);
    if x.updatedAt == t {
      TiedNone(back, t);
    }
  }

  /** The sort is stable: entries with equal `updatedAt` keep their relative order. */
  lemma {:induction false} SortStable(s: seq<ListedLog>, t: int)
    ensures Tied(SortByUpdated(s), t) == Tied(s, t)
    decreases |s|
  {
    if s != [] {
      var init, l := s[..|s| - 1], s[|s| - 1];
      assert init + [l] == s;
      var sorted := SortByUpdated(init);
      SortSnoc(s);
      assert SortByUpdated(s) == Insert(l, sorted);
      SortStable(init, t);
      SortStableStep(init, l, sorted, t);
      assert Tied(Insert(l, sorted), t) == Tied(s, t);
    }
  }

  lemma SortStableStep(init: seq<ListedLog>, l: ListedLog, sorted: seq<ListedLog>, t: int)
    requires SortedDesc(sorted) && Tied(sorted, t) == Tied(init, t)
    ensures Tied(Insert(l, sorted), t) == Tied(init + [l], t)
  {
    InsertTied(l, sorted, t);
    TiedSnoc(init, l, t);
  }

  /** The sort inserts the last element into the sorted rest. */
  lemma SortSnoc(s: seq<ListedLog>)
    requires s != []
    ensures SortByUpdated(s) == Insert(s[|s| - 1], SortByUpdated(s[..|s| - 1]))
    ensures SortedDesc(SortByUpdated(s[..|s| - 1]))
  {
  }

  lemma TiedSnoc(s: seq<ListedLog>, l: ListedLog, t: int)
    ensures Tied(s + [l], t) == Tied(s, t) + (if l.updatedAt == t then [l] else [])
  {
    TiedAppend(s, [l], t);
    TiedCons(l, [], t);
    assert [l] + [] == [l];
  }

  /** In an id-distinct list the map's value for `x` is the one entry with id `x`. */
  lemma {:induction false} FindDistinct(s: seq<ListedLog>, x: string, y: ListedLog)
    requires DistinctIds(s)
    ensures Find(s, x) == Some(y) <==> y in s && y.id == x
    decreases |s|
  {
    if s != [] {
      assert s == [s[0]] + s[1..];
      DistinctCons(s[0], s[1..]);
      FindDistinct(s[1..], x, y);
      assert forall m :: m in s[1..] ==> m.id != s[0].id;
    }
  }

  /** Logs updated at the same time keep the map's insertion order: own logs first, then newly liked ones. */
  lemma CombinedTiesKeepMapOrder(own: seq<ListedLog>, liked: seq<ListedLog>, t: int)
    ensures Tied(CombinedLogs(own, liked), t) == Tied(MergeById(own, liked), t)
  {
    SortStable(MergeById(own, liked), t);
  }

  /**
   * `combinedLogs`: each id of an own log or of a liked log with an id appears
   * once; a liked log replaces an own log with its id (the last liked copy
   * wins); the list is newest first.
   */
  function CombinedLogs(own: seq<ListedLog>, liked: seq<ListedLog>): (r: seq<ListedLog>)
    ensures DistinctIds(r) && SortedDesc(r)
    ensures Ids(r) == Ids(own) + (Ids(liked) - {""})
    ensures forall x :: x != "" && LastWith(liked, x).Some? ==> LastWith(liked, x).value in r
    ensures forall l :: l in r && l.id != "" && LastWith(liked, l.id).Some? ==> l == LastWith(liked, l.id).value
    ensures forall l :: l in r && (l.id == "" || LastWith(liked, l.id).None?) ==> LastWith(own, l.id) == Some(l)
  {
    var merged := MergeById(own, liked);
    var r := SortByUpdated(merged);
    assert forall l :: l in r <==> l in merged by {
      forall l ensures l in r <==> l in merged {
        assert l in r <==> l in multiset(r);
      }
    }
    forall x, y | y in merged && y.id == x ensures Find(merged, x) == Some(y) {
      FindDistinct(merged, x, y);
    }
    forall x | Find(merged, x).Some? ensures Find(merged, x).value in merged && Find(merged, x).value.id == x {
      FindDistinct(merged, x, Find(merged, x).value);
    }
    r
  }
}

=== FILE: search_page_client.dfy ===
/**
 * The client-side search results view: documents spread as loose records,
 * filtered by a case-insensitive substring test on title or description with
 * optional chaining, and rendered with a truncated description and only the
 * images that have a url.
 */
module SearchPageClient {
  import opened Results
  import opened JsStrings
  import opened Seqs
  import opened LogModel

  /** A result record: the stored fields may be missing. */
  datatype ClientLog = ClientLog(id: string, title: Option<string>, description: Option<string>, imageUrls: Option<seq<Image>>)

  /** `field?.toLowerCase().includes(lq)`: an absent field never matches. */
  predicate FieldMatch(field: Option<string>, lq: string) {
    field.Some? && Contains(Lower(field.value), lq)
  }

  predicate ClientMatch(l: ClientLog, query: string) {
    FieldMatch(l.title, Lower(query)) || FieldMatch(l.description, Lower(query))
  }

  /** The filter of `fetchSearchResults`; there is no shortcut for an empty query. */
  function SearchResults(logs: seq<ClientLog>, query: string): (r: seq<ClientLog>)
    ensures IsSubsequence(r, logs)
    ensures forall i :: 0 <= i < |r| ==> ClientMatch(r[i], query)
    ensures forall i :: 0 <= i < |logs| && ClientMatch(logs[i], query) ==> logs[i] in r
  {
    Filter(logs, (l: ClientLog) => ClientMatch(l, query))
  }

  /** With the empty query exactly the records with a title or a description (even empty) are kept. */
  lemma EmptyQueryKeepsDefined(logs: seq<ClientLog>)
    ensures SearchResults(logs, "") == Filter(logs, (l: ClientLog) => l.title.Some? || l.description.Some?)
  {
    assert Lower("") == "";
    forall i | 0 <= i < |logs|
      ensures ClientMatch(logs[i], "") == (logs[i].title.Some? || logs[i].description.Some?)
    {
      if logs[i].title.Some? { ContainsEmpty(Lower(logs[i].title.value)); }
      if logs[i].description.Some? { ContainsEmpty(Lower(logs[i].description.value)); }
    }
    FilterCongruent(logs, (l: ClientLog) => ClientMatch(l, ""), (l: ClientLog) => l.title.Some? || l.description.Some?);
  }

  /** A record with neither title nor description is never a result, whatever the query. */
  lemma EmptyRecordNeverMatches(l: ClientLog, query: string)
    requires l.title.None? && l.description.None?
    ensures !ClientMatch(l, query)
  {
  }

  /** The displayed heading: the title, or "Untitled" when it is absent or empty. */
  function DisplayTitle(l: ClientLog): (r: string)
    ensures r != ""
    ensures Truthy(l.title) ==> r == l.title.value
  {
    OrElse(l.title, "Untitled")
  }

  /**
   * The description paragraph: `description?.substring(0, 100) || "No description"`,
   * followed by "..." when the description is longer than 100 characters.
   */
  function DescriptionPreview(description: Option<string>): (r: (string, bool))
    ensures !Truthy(description) ==> r.0 == "No description" && !r.1
    ensures Truthy(description) ==> r.0 != "" && StartsWith(description.value, r.0)
    ensures Truthy(description) && Utf16Length(description.value) <= 100 ==> r.0 == description.value
    ensures Truthy(description) && Utf16Length(description.value) > 100 ==> 99 <= Utf16Length(r.0) <= 100
    ensures r.1 <==> description.Some? && Utf16Length(description.value) > 100
  {
    var shown := if description.Some? then Take(description.value, 100) else "";
    (if shown != "" then shown else "No description", description.Some? && Utf16Length(description.value) > 100)
  }

  /** Without the ellipsis the whole description is shown. */
  lemma ShortDescriptionShownWhole(description: Option<string>)
    requires Truthy(description) && !DescriptionPreview(description).1
    ensures DescriptionPreview(description).0 == description.value
  {
  }

  /** `imageUrls?.filter(img => img.url) || []`: exactly the images with a non-empty url, in order. */
  function DisplayedImages(images: Option<seq<Image>>): (r: seq<Image>)
    ensures IsSubsequence(r, OrEmpty(images))
    ensures forall i :: 0 <= i < |r| ==> Truthy(r[i].url)
    ensures forall i :: 0 <= i < |OrEmpty(images)| && Truthy(OrEmpty(images)[i].url) ==> OrEmpty(images)[i] in r
    ensures forall e :: multiset(r)[e] == if Truthy(e.url) then multiset(OrEmpty(images))[e] else 0
  {
    var shown := (img: Image) => Truthy(img.url);
    var r := Filter(OrEmpty(images), shown);
    forall e ensures multiset(r)[e] == if Truthy(e.url) then multiset(OrEmpty(images))[e] else 0 {
      FilterCount(OrEmpty(images), shown, e);
    }
    r
  }
}

=== FILE: seqs.dfy ===
/** Order-preserving selection over sequences: `Array.prototype.filter` and the subsequence relation it produces. */
module Seqs {

  /** `a` can be obtained from `b` by deleting elements, keeping the order of the rest. */
  predicate IsSubsequence<T(==)>(a: seq<T>, b: seq<T>)
    decreases |b|
  {
    a == [] || (|b| > 0 && ((a[0] == b[0] && IsSubsequence(a[1..], b[1..])) || IsSubsequence(a, b[1..])))
  }

  /** A subsequence holds nothing its super-sequence does not. */
  lemma {:induction false} SubsequenceMembers<T>(a: seq<T>, b: seq<T>, x: T)
    requires IsSubsequence(a, b)
    requires x in a
    ensures x in b
    decreases |b|
  {
    if a[0] == b[0] && IsSubsequence(a[1..], b[1..]) {
      if x != a[0] {
        assert x in a[1..];
        SubsequenceMembers(a[1..], b[1..], x);
      }
    } else {
      SubsequenceMembers(a, b[1..], x);
    }
  }

  /** Every sequence is a subsequence of itself. */
  lemma {:induction false} SubsequenceRefl<T>(a: seq<T>)
    ensures IsSubsequence(a, a)
    decreases |a|
  {
    if a != [] {
      SubsequenceRefl(a[1..]);
    }
  }

  /** The elements of `s` that satisfy `p`, in their order, each as often as it occurs. */
  function Filter<T(==)>(s: seq<T>, p: T -> bool): (r: seq<T>)
    ensures |r| <= |s|
    ensures forall i :: 0 <= i < |r| ==> r[i] in s && p(r[i])
    ensures forall i :: 0 <= i < |s| && p(s[i]) ==> s[i] in r
    ensures IsSubsequence(r, s)
    decreases |s|
  {
    if s == [] then []
    else if p(s[0]) then [s[0]] + Filter(s[1..], p)
    else Filter(s[1..], p)
  }

  /** Filtering keeps every copy of an element the predicate accepts and no copy of any other. */
  lemma {:induction false} FilterCount<T>(s: seq<T>, p: T -> bool, x: T)
    ensures multiset(Filter(s, p))[x] == if p(x) then multiset(s)[x] else 0
    decreases |s|
  {
    if s != [] {
      FilterCount(s[1..], p, x);
      assert s == [s[0]] + s[1..];
    }
  }

  /** Filtering with a predicate that holds everywhere changes nothing. */
  lemma {:induction false} FilterAll<T>(s: seq<T>, p: T -> bool)
    requires forall x :: x in s ==> p(x)
    ensures Filter(s, p) == s
    decreases |s|
  {
    if s != [] {
      FilterAll(s[1..], p);
    }
  }

  /** Filtering is distributive over concatenation. */
  lemma {:induction false} FilterAppend<T>(a: seq<T>, b: seq<T>, p: T -> bool)
    ensures Filter(a + b, p) == Filter(a, p) + Filter(b, p)
    decreases |a|
  {
    if a == [] {
      assert a + b == b;
    } else {
      assert (a + b)[0] == a[0];
      assert (a + b)[1..] == a[1..] + b;
      FilterAppend(a[1..], b, p);
    }
  }

  /** Filtering with two predicates that agree on every element gives the same result. */
  lemma {:induction false} FilterCongruent<T>(s: seq<T>, p: T -> bool, q: T -> bool)
    requires forall i :: 0 <= i < |s| ==> p(s[i]) == q(s[i])
    ensures Filter(s, p) == Filter(s, q)
    decreases |s|
  {
    if s != [] {
      FilterCongruent(s[1..], p, q);
    }
  }

  /**
   * In `a + b`, where every element of `a` satisfies `p` and no element of `b`
   * does, the `p`-elements come first and the others satisfy `q` when `b`'s do.
   */
  lemma ConcatPartition<T>(a: seq<T>, b: seq<T>, p: T -> bool, q: T -> bool)
    requires forall i :: 0 <= i < |a| ==> p(a[i])
    requires forall i :: 0 <= i < |b| ==> !p(b[i]) && q(b[i])
    ensures forall i, j :: 0 <= i < j < |a + b| && p((a + b)[j]) ==> p((a + b)[i])
    ensures forall i :: 0 <= i < |a + b| && !p((a + b)[i]) ==> q((a + b)[i])
  {
    var r := a + b;
    assert forall k :: 0 <= k < |a| ==> r[k] == a[k];
    assert forall k :: |a| <= k < |r| ==> r[k] == b[k - |a|];
  }

  /** An element is kept exactly when it is in the list and satisfies the predicate. */
  lemma FilterMembership<T>(s: seq<T>, p: T -> bool, x: T)
    ensures x in Filter(s, p) <==> x in s && p(x)
  {
    if x in Filter(s, p) {
      var r := Filter(s, p);
      var i :| 0 <= i < |r| && r[i] == x;
    }
  }

  /** Filtering twice with the same predicate is filtering once. */
  lemma FilterIdempotent<T>(s: seq<T>, p: T -> bool)
    ensures Filter(Filter(s, p), p) == Filter(s, p)
  {
    var r := Filter(s, p);
    FilterAll(r, p);
  }

  /** Filtering drops every element the predicate rejects, so one rejection shortens the list. */
  lemma {:induction false} FilterShorter<T>(s: seq<T>, p: T -> bool, k: int)
    requires 0 <= k < |s| && !p(s[k])
    ensures |Filter(s, p)| < |s|
    decreases |s|
  {
    if k > 0 {
      FilterShorter(s[1..], p, k - 1);
    }
  }

  /** Appending an element leaves every prefix of the original list in place. */
  lemma SnocPrefixes<T>(s: seq<T>, x: T)
    ensures (s + [x])[..|s|] == s
    ensures forall i :: 0 <= i <= |s| ==> (s + [x])[..i] == s[..i]
  {
  }

  /** Filtering with a predicate that holds nowhere leaves nothing. */
  lemma {:induction false} FilterNone<T>(s: seq<T>, p: T -> bool)
    requires forall i :: 0 <= i < |s| ==> !p(s[i])
    ensures Filter(s, p) == []
    decreases |s|
  {
    if s != [] {
      assert !p(s[0]);
      FilterNone(s[1..], p);
    }
  }
}

=== FILE: title_resolvers.dfy ===
/**
 * The `fetchLogTitles` helpers of the dashboard, the personal search page and
 * the public page: one displayed title per filled related id, in order, with an
 * English placeholder for an untitled, missing, hidden or unreadable log.
 */
module TitleResolvers {
  import opened JsStrings
  import opened Seqs
  import opened LogModel

  const DashboardPolicy := Placeholders("Untitled Related Log", "Deleted/Unknown Log", "Error fetching title")
  const PublicPagePolicy := PublicOnly("Untitled Related Log", "Private/Unknown Log", "Error fetching title")

  /** `fetchLogTitles` of the dashboard (and its copy on the personal search page). */
  function FetchLogTitles(ids: seq<string>, lookup: string -> Fetch): (r: seq<string>)
    ensures |r| == |FilledIds(ids)| <= |ids|
    ensures forall i :: 0 <= i < |r| ==>
      var f := lookup(FilledIds(ids)[i]);
      && (f.Found? ==> r[i] == OrElse(f.doc.title, "Untitled Related Log"))
      && (f.Missing? ==> r[i] == "Deleted/Unknown Log")
      && (f.Failed? ==> r[i] == "Error fetching title")
  {
    ResolveTitles(ids, lookup, DashboardPolicy)
  }

  /** `fetchLogTitles` of the public page: a title is shown only for a public log. */
  function FetchPublicLogTitles(ids: seq<string>, lookup: string -> Fetch): (r: seq<string>)
    ensures |r| == |FilledIds(ids)| <= |ids|
    ensures forall i :: 0 <= i < |r| ==>
      var f := lookup(FilledIds(ids)[i]);
      && (f.Found? && IsPublicDoc(f.doc) ==> r[i] == OrElse(f.doc.title, "Untitled Related Log"))
      && (f.Found? && !IsPublicDoc(f.doc) ==> r[i] == "Private/Unknown Log")
      && (f.Missing? ==> r[i] == "Private/Unknown Log")
      && (f.Failed? ==> r[i] == "Error fetching title")
  {
    ResolveTitles(ids, lookup, PublicPagePolicy)
  }

  /** A blank or whitespace-only id gets no title, so the titles no longer line up with the ids. */
  lemma {:induction false} BlankIdShortens(ids: seq<string>, k: int)
    requires 0 <= k < |ids| && !Filled(ids[k])
    ensures |FilledIds(ids)| < |ids|
    decreases |ids|
  {
    if k > 0 {
      BlankIdShortens(ids[1..], k - 1);
    }
  }

  /** Titles of the dashboard resolver are shorter than the ids exactly when some id is blank. */
  lemma FetchLogTitlesShorter(ids: seq<string>, lookup: string -> Fetch)
    ensures |FetchLogTitles(ids, lookup)| < |ids| <==> exists k :: 0 <= k < |ids| && !Filled(ids[k])
  {
    if exists k :: 0 <= k < |ids| && !Filled(ids[k]) {
      var k :| 0 <= k < |ids| && !Filled(ids[k]);
      BlankIdShortens(ids, k);
    } else {
      AllFilledKept(ids);
    }
  }

  /** With every id filled, the resolver looks up every id. */
  lemma {:induction false} AllFilledKept(ids: seq<string>)
    requires forall k :: 0 <= k < |ids| ==> Filled(ids[k])
    ensures FilledIds(ids) == ids
    decreases |ids|
  {
    if ids != [] {
      assert Filled(ids[0]);
      AllFilledKept(ids[1..]);
    }
  }

  /**
   * The two resolvers differ only on logs that are missing or not public: when
   * every looked-up log is public or unreadable, the public page shows what
   * the dashboard shows.
   */
  lemma PublicAgreesOnPublicLogs(ids: seq<string>, lookup: string -> Fetch)
    requires forall x :: x in ids && Filled(x) ==> lookup(x).Failed? || (lookup(x).Found? && IsPublicDoc(lookup(x).doc))
    ensures FetchPublicLogTitles(ids, lookup) == FetchLogTitles(ids, lookup)
  {
    var a := FetchPublicLogTitles(ids, lookup);
    var b := FetchLogTitles(ids, lookup);
    forall i | 0 <= i < |a| ensures a[i] == b[i] {
      assert FilledIds(ids)[i] in FilledIds(ids);
    }
  }
}
